=== FILE: README.md ===
# LEGO brick placement and instruction sequencing, modelled in Dafny

This project models the algorithmic core of LEGO-3D-MODEL-CONVERTER. That
program turns a voxel model (a boolean occupancy array indexed `[z, y, x]`)
into a list of LEGO bricks taken from a fixed catalog, and then orders those
bricks into building instructions.

Contents:

- `config.dfy` (module `Config`): the brick catalog, the palette, the layer
  heights per brick class, and the lateral-overlap threshold.
- `voxels.dfy` (`Voxels`): grids as sets of set cells, boxes, and the
  occupancy/support pair the strategies work on.
- `seqs.dfy` (`Seqs`) and `arith.dfy` (`Arith`): joining lists of lists,
  and the integer-division facts the block tiling and the step count use.
- `sorting.dfy` (`Sorting`): the stable descending sort that Python's
  `sorted(..., reverse=True)` performs.
- `placement.dfy` (`Placement`): the shared placement engine of
  `strategies/utils.py`. It covers the acceptance test `can_place_brick`,
  the commit `place_brick`, the scan `find_next_voxel`, and the per-layer
  first-fit pass `place_bricks_on_layer_fast`. It also holds the theory of
  first-fit runs: disjointness, containment and cell counts.
- `greedy.dfy` (`Greedy`), `bnb.dfy` (`BranchBound`), `annealing.dfy`
  (`Annealing`): the three placement strategies. For simulated annealing,
  the deterministic parts of the intended algorithm are modelled. The
  strategy as written is modelled separately: it raises `ValueError` as
  soon as seeding places a brick (see "## Findings"), and the per-block
  driver runs that version.
- `facade.dfy` (`Facade`): the rest of `brick_optimization.py`: block size,
  block tiling, hollow filling, and the per-block driver. The pipeline's
  method names from `processing.py` live here too.
- `brick_placer.dfy` (`BrickPlacer`): `BrickPlacer.place_bricks`. Despite
  storing a strategy, it runs its own area-first greedy scan.
- `instructions.dfy` (`Instructions`): `instruction_generation.py`. It
  covers component labelling, the per-component overlap re-validation,
  grouping by component, and splitting into layer steps.

**Modelling choices**

- Integers are unbounded. Millimetre quantities are kept in tenths of a
  millimetre, so 7.8 mm × n ≥ 8.0 mm becomes 78·n ≥ 80.
- Everything random or external is a function parameter:
  - the palette picks;
  - the annealing draws and the Metropolis test;
  - the cluster counts of `scipy.ndimage.label`;
  - the labelling of connected components;
  - DBSCAN's cluster ids;
  - the progress callbacks.

**Behaviours of the code that the model keeps as written:**

- **Vertical support.** `can_place_brick` treats a brick as vertically
  supported when *any* cell below its footprint is supported
  (`np.all(~below)` is the rejection test), even when the other cells
  below it are empty.
  `Placement.PartialVerticalSupportSuffices` exhibits this.
- **Annealing as written.** The per-block driver runs the annealing strategy
  as the code stands (`Annealing.PlaceBricksAsWritten`). It raises
  `ValueError` whenever seeding places a brick, and otherwise returns no
  cubes. So `Facade.RunStrategySound` claims containment and disjointness
  for every strategy's successful result.
- **Overlap in intended annealing results.** With the seeding unpack
  corrected, annealing results are still not guaranteed to be
  overlap-free. "Add" and "replace" append the head of a cached layer
  without an overlap test. `Annealing.AnnealInside` and
  `Facade.AnnealingIntendedInside` therefore claim containment only.
- **Overlap in `BrickPlacer` results.** `BrickPlacer.place_bricks` reports
  each cube with the catalog depth `d`. It marks only `max(1, int(height /
  voxel_size))` layers as taken, and that is one layer for every class at the
  default voxel size. So the reported cubes can overlap, while the marked
  boxes never do (`BrickPlacer.PlacerSound`).
- **Layer steps.** `get_layer_steps` groups cubes by z over the whole list,
  not by runs of consecutive cubes.
- **Branch and bound.** The search returns the seed at its first pop. The
  seeding pass already empties the grid (`BranchBound.ReturnsSeed`).

## Model

| member | source | states |
|---|---|---|
| Config.GetBrickHeight | config/config.py:64-65 | "plate" and "tile" are 3.2 mm high; every other class, known or not, falls back to 9.6 mm |
| Config.CubeColor | strategies/greedy_placement.py:52 | with colours on, the colour is a palette entry; with colours off, it is black |
| Config.LateralThreshold | strategies/utils.py:38 | a neighbour line gives lateral support (supported cells × 7.8 mm ≥ 8.0 mm) exactly when it has at least two supported cells |
| Config.CatalogWellFormed | config/config.py:21-62 | every catalog entry has positive extents and a class among brick, plate and tile |
| Config.CatalogHasUnitBrick | config/config.py:23 | the catalog starts with the 1x1x1 brick, so it offers a unit size |
| Config.CatalogMaxVolume | config/config.py:21-62 | no catalog entry exceeds volume 16, and the 4x4x1 and 2x4x2 entries reach it |
| Config.PaletteSize | config/config.py:9-13 | the palette has nineteen colours |
| Voxels.CellsCard | strategies/utils.py:21-22 | a box with non-negative extents covers exactly w·h·d cells |
| Voxels.AabbOverlapIffShareCell | strategies/simulated_annealing_placement.py:158-160 | the interval-overlap test on two non-empty boxes succeeds iff the boxes share a cell |
| Voxels.StartGrids | strategies/greedy_placement.py:16-17 | a strategy starts with the model's cells still to fill and nothing supported |
| Sorting.SortDescCorrect | strategies/greedy_placement.py:11 | the sort is descending by key, a permutation of its input, and stable: per key it keeps the input order |
| Sorting.RemoveAt | strategies/simulated_annealing_placement.py:105 | popping index i keeps every other element in order and removes exactly one copy of the i-th |
| Placement.CanPlaceBrick | strategies/utils.py:11-67 | a box outside the array or over a cell not still to fill is refused; on the ground it is accepted iff inside and on cells to fill; above it, without vertical or lateral support, it is refused unless top placement is allowed; touching the top layer, it is refused unless top placement is allowed; top placement allows any in-grid box on cells to fill; a supported box below the top layer is accepted |
| Placement.LineSupportsMeansTwoCells | strategies/utils.py:36-58 | a neighbour line supports a brick iff at least two of its cells are supported |
| Placement.LateralSupportIgnoresOcc | strategies/utils.py:34-58 | lateral support depends only on the array shape and the support array, not on the cells still to fill |
| Placement.CanPlaceMonotone | strategies/utils.py:11-67 | adding cells still to fill, with the same support, never turns an accepted brick into a refused one |
| Placement.PartialVerticalSupportSuffices | strategies/utils.py:28-29 | a brick with just one supported cell below is accepted |
| Placement.GroundLayerIgnoresTopRule | strategies/utils.py:26-27 | on layer 0 the placement check accepts before the top-layer rule is reached, even on a one-layer array |
| Placement.IsolatedTopCellRejected | strategies/utils.py:60-65 | an unsupported brick on the top layer is refused when top placement is off |
| Placement.PlaceBrickEffect | strategies/utils.py:69-72 | committing an accepted box removes its cells from the cells to fill and adds them to the support; every other cell keeps its state; the counts change by w·h·d |
| Placement.FindNextVoxel | strategies/utils.py:74-82 | returns the first cell to fill in z, y, x order, or (0, 0, 0, False) iff no in-grid cell is left |
| Placement.FindNextVoxelLoops | strategies/utils.py:74-82 | the three nested loops with early return compute the same answer as the scan's definition |
| Placement.FirstFitSpec | strategies/utils.py:91-95 | the chosen size is the first the placement check accepts at the cell; every earlier size is refused; no size is chosen iff all are refused |
| Placement.FirstFitRunFeasible | strategies/utils.py:91-95 | a run of first-fit choices is feasible: each brick is accepted on the state its predecessors leave |
| Placement.FeasibleSound | strategies/utils.py:11-72 | bricks committed in order, each accepted at its turn, are pairwise disjoint, lie on the model's cells and in the array; the cells left to fill are the start minus their footprint; the support gains the footprint; the count of cells to fill drops by their total volume |
| Placement.PlaceOnLayerSpec | strategies/utils.py:84-99 | the pass from (y, x) on layer z emits first-fit bricks on that layer in strictly increasing row-major order, and its final state is those bricks replayed |
| Placement.PlaceOnLayerComplete | strategies/utils.py:88-95 | the pass from (y, x) on layer z passes over no cell: every in-grid cell of the layer at or after (y, x) that is still to fill when the scan reaches it, and that some size fits, is the origin of the pass's next brick |
| Placement.LeftCellRefused | strategies/utils.py:90-95 | with positive sizes, a cell that a first-fit run did not pass over and still leaves to fill had every size refused when its turn came |
| Placement.PlaceBricksOnLayerSound | strategies/utils.py:84-99 | a whole layer pass is a first-fit run in row-major order on layer z; from a consistent state its bricks are disjoint, on cells to fill, and move exactly their footprint from occupancy to support; it passes over no cell of the layer that some size fits on its turn, and with positive sizes every in-grid cell of the layer it leaves to fill had every size refused on its turn |
| Placement.ByVolumeDesc | strategies/greedy_placement.py:11 | sizes sorted by volume, largest first, stably |
| Placement.UnitCellFits | strategies/utils.py:11-28 | with a 1x1x1 entry, some size fits at an occupied in-grid cell of the ground layer, and at any occupied in-grid cell when top placements are allowed |
| Placement.UnitAlwaysFits | strategies/utils.py:11-67 | with top placement allowed, a 1x1x1 brick is accepted on any in-grid cell still to fill |
| Placement.OccupiedCellGetsBrick | strategies/utils.py:88-95 | with top placement allowed and a unit size on the list, an in-grid cell to fill always receives a brick that covers it |
| Placement.LayerPassClears | strategies/utils.py:84-99 | with top placement allowed and a unit size on the list, the layer pass leaves no in-grid cell of its layer to fill from its start onward |
| Greedy.NewGreedyStrategy | strategies/greedy_placement.py:9-12 | the strategy's sizes are the catalog, reordered by volume, largest first, stably |
| Greedy.EffectiveSizes | strategies/greedy_placement.py:23 | a non-empty allowed list is used as given; an empty one falls back to the sorted catalog, which is sorted, positive and has a unit size |
| Greedy.ScanFromIff | strategies/greedy_placement.py:38-45 | the nested probe loops with their two breaks find a hit iff some in-range (y, x) is a hit |
| Greedy.AnyInLayerIff | strategies/greedy_placement.py:35 | `np.any` on a layer holds iff some in-grid cell of the layer is still to fill |
| Greedy.ProbeIff | strategies/greedy_placement.py:37-45 | the probe succeeds iff some in-grid cell of the layer takes a 1x1x1 brick |
| Greedy.GreedyLayerSpec | strategies/greedy_placement.py:33-49 | a layer with cells to fill that refuses the unit brick everywhere is skipped; otherwise the layer pass runs; either way the result is a row-major first-fit run on that layer |
| Greedy.Colorize | strategies/greedy_placement.py:50-54 | one cube per brick, in order, with the brick's box, a given brick type overriding the brick's class, and palette or black colours |
| Greedy.PlaceBricks | strategies/greedy_placement.py:14-57 | the output has one cube per brick of the run, with the same boxes |
| Greedy.GreedySound | strategies/greedy_placement.py:14-57 | the bricks are pairwise disjoint, on the model's cells and in the array, form a first-fit run from the start state, and come in strictly increasing z, y, x order; the uncancelled run passes over no in-grid cell that some size fits on its turn, except in layers the probe skipped |
| Greedy.GreedyComplete | strategies/greedy_placement.py:29-49 | the uncancelled run passes over no in-grid cell that some size fits on its turn, except in layers the probe skipped; with positive sizes every in-grid cell it leaves to fill had every size refused on its turn or lies in a skipped layer |
| Greedy.LoopCompleteAt | strategies/greedy_placement.py:29-49 | the layer loop from layer z on passes over no in-grid cell of layers z and above, unless the probe skipped that cell's layer |
| Greedy.GreedyCancelPrefix | strategies/greedy_placement.py:29-31 | a cancelled run returns a prefix of the uncancelled run |
| Greedy.GreedyCancelAtStart | strategies/greedy_placement.py:29-31 | a callback that cancels before the first layer gives an empty result |
| Greedy.ColorsIgnoredWhenOff | strategies/greedy_placement.py:52 | with colours off, the palette picks do not matter |
| Greedy.TopAllowedNeverSkips | strategies/greedy_placement.py:35-49 | with top placement allowed, the probe never skips a layer |
| Greedy.GreedyLayerClears | strategies/greedy_placement.py:49 | with top placement allowed and a unit size, a layer has no cell left to fill after its pass |
| Greedy.GreedyCoversExactly | strategies/greedy_placement.py:14-57 | with top placement allowed, no callback and a unit size available, the bricks' footprint is exactly the model's cells |
| BranchBound.Heuristic | strategies/branch_and_bound_placement.py:14-26 | the heuristic is never negative |
| BranchBound.HeuristicZeroIff | strategies/branch_and_bound_placement.py:17-26 | the heuristic is zero iff no voxel remains |
| BranchBound.HeuristicMonotone | strategies/branch_and_bound_placement.py:14-26 | fewer remaining voxels and fewer bricks never give a larger estimate |
| BranchBound.VolumeTermIsLowerBound | strategies/branch_and_bound_placement.py:20-21 | with no brick above volume 24, remaining/24 never exceeds the number of bricks needed to cover the remaining voxels |
| BranchBound.FindNextVoxelInLayer | strategies/branch_and_bound_placement.py:124-130 | returns the first cell to fill of layer z in row-major order, or (-1, -1, z, False) iff the layer has none |
| BranchBound.ClearCell | strategies/branch_and_bound_placement.py:48 | zeroing a cell removes it and nothing else from the cells to fill, leaving the support alone |
| BranchBound.SeedLayerSpec | strategies/branch_and_bound_placement.py:42-60 | the seeding loop of layer z is a feasible run of bricks on layer z, leaves no in-grid cell of z to fill, and only ever removes cells |
| BranchBound.SeedFromSpec | strategies/branch_and_bound_placement.py:41-60 | the seeding from layer z upward is a feasible run that leaves no in-grid cell to fill at or above z |
| BranchBound.MinIndex | strategies/branch_and_bound_placement.py:76 | the popped entry has the least (f, g) in the heap |
| BranchBound.MaxDepth | strategies/branch_and_bound_placement.py:88 | the depth bound is at least 1, and it is either 1 or the truncated 10·remaining/total |
| BranchBound.ExpandSpec | strategies/branch_and_bound_placement.py:92-112 | expansion only appends children of the popped state that the placement check accepts and whose key is new or shallower; recorded depths only go down; the best list is kept or replaced by a longer child |
| BranchBound.StepSound | strategies/branch_and_bound_placement.py:76-112 | one pop-and-expand pass keeps every heap entry and the best list feasible from the start state, and any list it returns is feasible |
| BranchBound.SearchSound | strategies/branch_and_bound_placement.py:72-114 | whatever the search returns is feasible from the start state |
| BranchBound.SearchStopsOnEmptyState | strategies/branch_and_bound_placement.py:76-80 | popping a state with nothing left to fill returns that state's list |
| BranchBound.SearchReturnsBest | strategies/branch_and_bound_placement.py:72-75 | an empty heap, the iteration cap or a cancelling callback returns the best list |
| BranchBound.ClassOf | strategies/branch_and_bound_placement.py:121 | a given non-empty brick type replaces the brick's class; otherwise the class is kept |
| BranchBound.Finalize | strategies/branch_and_bound_placement.py:120-122 | finalizing keeps count, order and geometry, and attaches palette or black colours and the class |
| BranchBound.SearchSizes | strategies/branch_and_bound_placement.py:35 | the sizes are sorted by volume, largest first, as a permutation of the allowed ones |
| BranchBound.SeedSound | strategies/branch_and_bound_placement.py:39-60 | the seeding leaves nothing to fill, and its bricks are a feasible run that is disjoint, on the model and in the array |
| BranchBound.ReturnsSeed | strategies/branch_and_bound_placement.py:62-80 | the search returns the seed, whatever the callback answers |
| BranchBound.BranchBoundSound | strategies/branch_and_bound_placement.py:29-114 | the strategy's bricks are pairwise disjoint, on the model's cells and in the array |
| Annealing.Temperature | strategies/simulated_annealing_placement.py:71 | a positive start temperature stays positive and never rises above its start |
| Annealing.TemperatureDecreasing | strategies/simulated_annealing_placement.py:71 | the temperature strictly decreases with the iteration count |
| Annealing.ActionProbabilities | strategies/simulated_annealing_placement.py:50 | the three action probabilities sum to 1; for non-negative coverage, remove ≤ 0.5, add = 0.3 and replace lies in [0.2, 0.7] |
| Annealing.ActionProbabilitiesMonotone | strategies/simulated_annealing_placement.py:50 | more coverage never lowers "remove" nor raises "replace"; from coverage 0.5 on, the distribution is fixed |
| Annealing.SeedLayersSpec | strategies/simulated_annealing_placement.py:85-93 | the cached layers, concatenated, are a first-fit run from the start state, with layer k holding bricks of layer z + k |
| Annealing.SeedSound | strategies/simulated_annealing_placement.py:85-93 | the seed is disjoint, on the model and in the array; the cells left are the model minus its footprint; there is one cache entry per layer |
| Annealing.CostPrefersMoreBricks | strategies/simulated_annealing_placement.py:23-37 | with equal cluster counts, a list with more bricks and no less coverage costs strictly less |
| Annealing.CostPenalisesClusters | strategies/simulated_annealing_placement.py:34-37 | each extra cluster adds 5 to the cost |
| Annealing.Argmin | strategies/simulated_annealing_placement.py:59 | the chosen candidate has the least cost and is the first with that cost |
| Annealing.PerturbGuard | strategies/simulated_annealing_placement.py:101-102 | once the list covers the cells to fill, every action but "remove" returns it unchanged |
| Annealing.PerturbRemove | strategies/simulated_annealing_placement.py:104-105 | "remove" on a non-empty list drops exactly the drawn index |
| Annealing.PerturbAdd | strategies/simulated_annealing_placement.py:106-112 | "add" keeps the list as a prefix and appends at most one brick, the head of a cached layer |
| Annealing.PerturbReplace | strategies/simulated_annealing_placement.py:113-121 | "replace" drops the drawn index and may append the head of the cached layer of the dropped brick's z |
| Annealing.PerturbLength | strategies/simulated_annealing_placement.py:95-123 | a perturbation changes the length by at most one |
| Annealing.PerturbDrawn | strategies/simulated_annealing_placement.py:95-123 | a perturbation of cache bricks consists of cache bricks |
| Annealing.AddFromLayerSpec | strategies/simulated_annealing_placement.py:152-166 | one layer of the local search only appends cached bricks that overlap nothing already listed, while coverage is below the target; at full coverage it changes nothing |
| Annealing.LocalOptSpec | strategies/simulated_annealing_placement.py:125-168 | the local search extends its input by non-overlapping cache bricks, and leaves a list already at coverage unchanged |
| Annealing.GrowsKeepsApart | strategies/simulated_annealing_placement.py:151-166 | a list without overlaps stays without overlaps through the local search |
| Annealing.ApartMeansDisjoint | strategies/simulated_annealing_placement.py:158-160 | a list of non-empty boxes that pass the pairwise overlap test shares no cell |
| Annealing.Candidates | strategies/simulated_annealing_placement.py:52-57 | each iteration samples exactly three perturbations |
| Annealing.IterateSpec | strategies/simulated_annealing_placement.py:59-69 | a strictly cheaper candidate is always accepted; the chosen candidate costs no more than any sampled one; the new list is the local search of the chosen candidate or of the old best |
| Annealing.IterateDrawn | strategies/simulated_annealing_placement.py:52-69 | an iteration over cache bricks yields cache bricks |
| Annealing.Anneal | strategies/simulated_annealing_placement.py:44-77 | the loop stops within the iteration cap, and only at the cap, below the minimum temperature, or on a cancelling callback |
| Annealing.AnnealDrawn | strategies/simulated_annealing_placement.py:44-77 | the cooling loop only ever holds cache bricks |
| Annealing.Finalize | strategies/simulated_annealing_placement.py:79-83 | the output keeps count, order and geometry, with palette or black colours and the given brick type |
| Annealing.NoIterationsGivesSeed | strategies/simulated_annealing_placement.py:39-45 | with no iteration allowed, or a start temperature not above the minimum, the result is the seed |
| Annealing.AnnealFromSeed | strategies/simulated_annealing_placement.py:39-83 | every brick of the result is a brick of the seed |
| Annealing.AnnealInside | strategies/simulated_annealing_placement.py:14-83 | every brick of the result lies on the model's cells and in the array |
| Annealing.EmptySeedStep | strategies/simulated_annealing_placement.py:87-92 | an empty seed from layer z means the pass over z placed nothing and left the grids alone, and the seed from the next layer is empty |
| Annealing.LayerPassTakesCell | strategies/utils.py:85-95 | a layer pass places a brick whenever a cell of its layer takes a size in its start grids |
| Annealing.EmptySeedRefusesAll | strategies/simulated_annealing_placement.py:85-93 | if seeding places nothing, no occupied in-grid cell at or above the start layer takes any size in the start grids |
| Annealing.FirstLayerBrick | strategies/utils.py:85-95 | with positive sizes, a layer pass's first brick starts at an occupied in-grid cell of its layer where a size fits |
| Annealing.RefusedAllSeedsNothing | strategies/simulated_annealing_placement.py:85-93 | conversely, with positive sizes, if no such cell takes a size, seeding places nothing |
| Annealing.PlaceBricksAsWritten | strategies/simulated_annealing_placement.py:39-93 | the strategy as written either fails with "ValueError" or returns no cubes |
| Annealing.EmptySeedGivesNothing | strategies/simulated_annealing_placement.py:39-83 | from an empty seed the strategy returns no cubes |
| Annealing.AsWrittenFailsIff | strategies/simulated_annealing_placement.py:85-93 | with positive sizes, the strategy as written fails iff some cell of the input takes a size in the start grids |
| Annealing.AsWrittenFails | strategies/simulated_annealing_placement.py:91 | with a 1x1x1 entry, the strategy as written fails on any input with a ground-layer cell, and on any non-empty input when top placements are allowed |
| Facade.GetBlockSize | brick_optimization.py:20-22 | the block size lies in [5, 20] |
| Facade.BlockSizeFormula | brick_optimization.py:20-22 | between the clamps the block size is the truncated extent sum over 30; small grids get 5 and large ones 20 |
| Facade.BlockSizeMonotone | brick_optimization.py:20-22 | a larger extent sum never gives a smaller block |
| Facade.AlignedDisjoint | brick_optimization.py:24-40 | two blocks of the tiling with different origins share no cell |
| Facade.DensityFailure | brick_optimization.py:24-40 | the tiling fails (an unassigned loop variable) iff the array has layers but an empty row or column extent; with no layers it returns no blocks |
| Facade.DensityTiling | brick_optimization.py:24-40 | on an array with positive extents the blocks are inside the array, at most base on each side, pairwise disjoint, cover every cell, and come in z, y, x order |
| Facade.Filled | brick_optimization.py:42-54 | after the fill, a cell is set iff it is in the array and its column has a set cell at or above it |
| Facade.FillHollow | brick_optimization.py:42-54 | the three nested loops compute the fill |
| Facade.FilledGrows | brick_optimization.py:42-54 | the fill never clears a cell |
| Facade.FilledDownward | brick_optimization.py:48-53 | below a filled cell its whole column is filled |
| Facade.FilledIdempotent | brick_optimization.py:42-54 | filling twice is filling once |
| Facade.ParseMethod | processing.py:63-70 | the three method names parse to their strategy; any other name is an error |
| Facade.StrategyFor | brick_optimization.py:68-73 | a known name selects its strategy; an unknown one silently selects greedy |
| Facade.MethodRoundTrip | processing.py:63-70 | each strategy's name parses back to it, and the façade's lookup agrees |
| Facade.SubGrid | brick_optimization.py:59 | a cell of the block view is set iff it lies in the clipped block and the cell it views is set |
| Facade.GreedyRunSound | brick_optimization.py:80 | the greedy strategy's cubes lie on the block's cells and are pairwise disjoint |
| Facade.AnnealingRunSound | brick_optimization.py:80 | the annealing run either fails with "ValueError" or returns no cubes; with a 1x1x1 entry it fails on any grid with a ground-layer cell, or with any cell when top placements are allowed |
| Facade.AnnealingIntendedInside | brick_optimization.py:80 | with the seeding unpack corrected, the annealing strategy's cubes lie on the block's cells |
| Facade.BranchBoundRunSound | brick_optimization.py:80 | the branch-and-bound cubes lie on the block's cells and are pairwise disjoint |
| Facade.RunStrategySound | brick_optimization.py:73-80 | any strategy's successful cubes lie on the block's cells and are pairwise disjoint; a successful annealing run returns no cubes |
| Facade.ProcessBlock | brick_optimization.py:56-83 | a block run reports the block's own origin |
| Facade.ProcessBlockEmpty | brick_optimization.py:63-65 | a block with no set cell yields no cubes and its origin |
| Facade.ProcessBlockRuns | brick_optimization.py:67-83 | a non-empty block runs the looked-up strategy on the (filled) block view with top placement allowed iff not filling, and its cubes lie on that view and are pairwise disjoint |
| Facade.WorkStartCell | brick_optimization.py:59-62 | a block with a set cell gives the strategy a set cell; with the fill, one in the ground layer |
| Facade.ProcessBlockAnnealingFails | brick_optimization.py:67-83 | with a 1x1x1 entry, annealing fails with "ValueError" on every block holding a set cell, filled or not |
| BrickPlacer.SourceSizes | brick_optimization.py:101 | the allowed sizes are used when given, the catalog otherwise |
| BrickPlacer.PlacerSizesOrder | brick_optimization.py:117 | sizes are tried by footprint area, largest first, stably, as a permutation of the source sizes |
| BrickPlacer.CoveredLayers | brick_optimization.py:119 | a brick marks at least one layer, and exactly its layer quotient when that is at least 1 |
| BrickPlacer.DefaultCoversOneLayer | brick_optimization.py:118-119 | at the default voxel size of 7.8 mm every class marks one layer |
| BrickPlacer.PlacerColor | brick_optimization.py:123 | with colours on, the colour is palette entry (x+y+z) mod 19; with colours off, it is white |
| BrickPlacer.FirstFittingFirst | brick_optimization.py:117-122 | the chosen size is the first that fits on set, unmarked cells; none is chosen iff none fits |
| BrickPlacer.VisitSound | brick_optimization.py:116-128 | a cube placed at a cell has a listed size, the placer's colour and class, and a marked box on set, unmarked cells |
| BrickPlacer.PlaceFromChain | brick_optimization.py:113-129 | each placement of the scan marks only set cells that no earlier placement, and nothing marked before the scan, has marked |
| BrickPlacer.ChainApart | brick_optimization.py:121-128 | placements that each mark only still-unmarked set cells lie on set cells and never share a cell |
| BrickPlacer.PlaceFromFree | brick_optimization.py:113-129 | the scan marks only set cells that were unmarked when it started |
| BrickPlacer.PlaceFromDisjoint | brick_optimization.py:113-129 | the marked boxes of the scan are pairwise disjoint |
| BrickPlacer.PlaceFromCovers | brick_optimization.py:113-129 | with a one-layer 1x1 size and positive sizes, every set cell the scan has yet to reach ends up marked |
| BrickPlacer.PlaceBricks | brick_optimization.py:98-132 | one cube per placement of the scan |
| BrickPlacer.PlacerSound | brick_optimization.py:98-132 | every placement is well formed, its marked box lies on set cells of the working grid, the marked boxes are pairwise disjoint, and the sizes tried are exactly the source sizes |
| BrickPlacer.PlacerStaysOnModel | brick_optimization.py:102-128 | without filling, every marked box lies on the model's cells |
| BrickPlacer.PermutationKeepsUnit | brick_optimization.py:117 | reordering the sizes keeps the one-layer 1x1 size and positive extents |
| BrickPlacer.PlacerCovers | brick_optimization.py:98-132 | with a one-layer 1x1 size and positive sizes, every set cell of the working grid is marked |
| BrickPlacer.CatalogCovers | brick_optimization.py:101 | at the default voxel size the catalog meets the coverage condition |
| BrickPlacer.StrategyIgnored | brick_optimization.py:85-132 | the stored strategy does not affect the result |
| Instructions.Clipped | instruction_generation.py:44-46 | the cells the overlap loops visit are the box's cells below the array's upper bounds |
| Instructions.ValidateSnoc | instruction_generation.py:41-61 | a further box is accepted iff its visited cells miss every cell the accepted boxes marked |
| Instructions.ValidateSubseq | instruction_generation.py:41-61 | the accepted boxes are a subsequence of the input |
| Instructions.ValidateDisjoint | instruction_generation.py:54-60 | the accepted boxes visit pairwise disjoint cells |
| Instructions.ValidateKeepsDisjoint | instruction_generation.py:37-61 | re-validating boxes that already visit disjoint cells keeps every box |
| Instructions.ValidateLoop | instruction_generation.py:37-61 | the loop with its occupancy mask computes the validation |
| Instructions.LookupLatest | instruction_generation.py:99-103 | an origin with no cube gets ("gray", "brick"); otherwise it gets the colour and class of the last cube with that origin |
| Instructions.ForComponent | instruction_generation.py:88-108 | no cubes give no instructions; never more instructions than cubes |
| Instructions.ForComponentOrder | instruction_generation.py:92-96 | the instructions are a subsequence of the cubes sorted by z, ascending in z, and visit disjoint cells |
| Instructions.ForComponentOrigins | instruction_generation.py:99-104 | each instruction's box is an input box, with the colour and class of the last input cube at its origin |
| Instructions.FindComponents | instruction_generation.py:63-86 | an empty grid gives count 0 and all labels 0; "connected" gives the connected-components labelling |
| Instructions.FindComponentsFails | instruction_generation.py:82-83 | labelling fails iff the grid is non-empty and the method is neither "connected" nor "dbscan", with the message naming the method |
| Instructions.DbscanLabels | instruction_generation.py:70-81 | the count is the number of distinct non-noise clusters; noise and unset cells get label 0; other cells get their cluster + 1 |
| Instructions.GroupMembers | instruction_generation.py:128-136 | a cube is in component l's group iff its origin is in the grid with label l; groups keep input order |
| Instructions.GenerateInstructions | instruction_generation.py:120-122 | a labelling failure makes the whole generation fail |
| Instructions.GenerateNoComponents | instruction_generation.py:123-125 | no components give no instructions |
| Instructions.ComponentsOrdered | instruction_generation.py:147-155 | the instructions of components l and up are input boxes on those components, in non-decreasing component order |
| Instructions.GenerateSound | instruction_generation.py:120-158 | generation fails iff labelling fails or a kept cube's label exceeds the count; otherwise instructions are input boxes on components 1..count, in component order |
| Instructions.LayerSteps | instruction_generation.py:226-237 | splitting fails iff there are cubes and the step size is 0 |
| Instructions.ChunksSpec | instruction_generation.py:235-236 | slicing a layer by n gives steps of 1 to n cubes that concatenate back to the layer, every step but the last holds exactly n, and there are ceil(len / n) steps |
| Instructions.LayersFull | instruction_generation.py:233-236 | every step followed by a step on the same layer holds exactly n cubes |
| Instructions.LayersKeyFilter | instruction_generation.py:227-236 | for every z, the cubes on layer z appear in the steps in their input order, none lost and none added |
| Instructions.AscendingConcat | instruction_generation.py:233-236 | steps on one layer, followed by ascending steps on that layer or above, are ascending |
| Instructions.LayersAscending | instruction_generation.py:233-236 | steps come in non-decreasing layer order |
| Instructions.LayerStepsSound | instruction_generation.py:226-237 | for n > 0, steps hold 1 to n cubes of one layer, every step but the last of its layer holds exactly n, they come in ascending layer order, and flattened they are the cubes sorted stably by z; for n < 0 there are no steps |
| Instructions.LayersEmpty | instruction_generation.py:235 | a negative step size gives no steps |

## Left out

**Outside the core**

- GUI, export, voxelization, PDF and icon rendering, logging: outside the placement and sequencing core.
- Parallel paths: the thread pool in the annealing loop and the process pool of `generate_instructions` (instruction_generation.py:139-146) are concurrency. The model uses the sequential path.
- `process_component`: not modelled, because it is only used by the parallel path.
- Progress callbacks:
  - Greedy and branch-and-bound cancellation are parameters (`stop`).
  - The per-cube and per-component progress reports of instruction generation are not modelled, because they return nothing the result depends on.
- `BRICK_PROPERTIES`, the curvature radii and the GUI constants of config/config.py: no core operation reads them.

**Oracles and values the model takes as given**

- Randomness is a parameter, as are the scipy labelling, DBSCAN's cluster ids and `scipy.ndimage.label`'s cluster count. The model does not check that they compute connected components or clusters.
- BrickPlacer.PlaceBricks:
  - the layer quotient `int(height / voxel_size)` is a parameter, because floating-point division is not modelled (9.6 / 3.2 truncates to 2 in floating point);
  - `minimal_support` and `progress_callback` are accepted by the source but unused.
- Facade.ProcessBlockRuns: the greedy strategy object is a parameter (`Oracles.greedy`) rather than constructed in place. The same holds for Facade.RunStrategy, Facade.ProcessBlock, Facade.ProcessBlockEmpty, Facade.RunStrategySound and Facade.GreedyRunSound. These members require only `GreedyStrategy.Valid`: sorted by volume, positive sizes, and holding the unit brick. They do not require that the sizes are the catalog's. `Greedy.NewGreedyStrategy` states that separately for the object the source constructs. None of their contracts depends on which sizes are used.

**Simulated annealing**

- Annealing.AnnealBricks: models the intended algorithm, with bricks as one record throughout:
  - the seeding unpack at strategies/simulated_annealing_placement.py:91 is modelled separately by Annealing.PlaceBricksAsWritten (see "## Findings");
  - the later mismatches (eight names at :143 and :157, seven at :152 over six-field cache entries) are reached only with a non-empty list, which the code as written never holds, so they are not modelled;
  - on an empty grid the source computes 0/0 costs, and the model returns the seed directly.
- Annealing.Argmin: it picks the first least-cost candidate in draw order. The source collects futures in completion order.
- Annealing.Iterate: the recorded cost is the cost of the candidate before the local search, as in the source. It is not recomputed.
- Annealing.PerturbAdd: `np.random.randint` on a zero-layer grid is not modelled, because the empty grid is short-circuited.

**Branch and bound**

- BranchBound.MinIndex: ties in (f, g) make the heap compare states, which holds numpy arrays. The model picks the earliest entry instead. No tie can arise, because the first pop returns.
- BranchBound.MaxDepth: the quotient is exact rather than a float.

**Requires clauses stricter than the source**

- Facade.DensityTiling: requires base ≥ 1, because the source loops forever at base 0 on a non-empty grid. The same holds for Facade.DensityFailure.
- Facade.SubGrid: requires a non-negative block origin and extents. Negative slice bounds wrap around in numpy, and the tiling never produces them.
- Placement.PlaceBricksOnLayerSound: the claim that every cell left to fill had every size refused is stated for positive sizes only. A zero-extent entry is accepted without clearing its cell, so the cell can stay to fill after the scan placed a brick there. For any sizes the lemma states the weaker form that the scan passed over no cell where a size fits. The same holds for Greedy.GreedyComplete.
- Greedy.GreedyComplete: stated for the uncancelled run only. A cancelled run stops at a layer boundary and returns a prefix of it, as Greedy.GreedyCancelPrefix states; its later layers are never scanned. The same holds for Greedy.GreedySound.
- Greedy.GreedySound: requires non-negative brick extents. The same holds for BranchBound.BranchBoundSound, Annealing.AnnealInside and Facade.ProcessBlock. Negative extents make numpy slices empty or wrapped, and the catalog has none.

**Numeric and aliasing details**

- Instructions.Clipped:
  - coordinates are unbounded integers, so the `int32` conversion of the cube array is not modelled;
  - negative coordinates index distinct cells instead of wrapping around.
- Instructions.GenerateInstructions: a kept cube whose label exceeds the count raises `KeyError` in the source. The model returns a failure with the message "KeyError".
- Facade.Filled: the source fills in place, which also writes through the block view into the caller's array. The model returns a new grid.
- BranchBound.PlaceBricks: the source works on the caller's array itself (`voxel_copy = voxel_array`, strategies/branch_and_bound_placement.py:31). Its seeding pass therefore clears every seeded cell of that array, and the array is left empty when the strategy returns, as BranchBound.SeedSound's `seed.grids.occ == {}` shows. The model returns cubes only and does not model this write-back; the same holds for BranchBound.Seed. In the block driver the array is the block's view into the whole model, so a branch-and-bound run also empties that block of the caller's grid.

## Findings

| source | as written | input that shows it | evidently intended | confidence | as-written member | corrected member |
|---|---|---|---|---|---|---|
| strategies/simulated_annealing_placement.py:91 | the seed unpacks each seven-field record of `place_bricks_on_layer_fast` into six names, so the first layer pass that places a brick raises `ValueError`, and brick_optimization.py:80 does not catch it | any block with a set cell and the catalog, which holds the 1x1x1 brick: with top placements allowed any cell takes it, and the fill reaches the ground layer | the seed keeps the placed bricks and the cooling loop refines them | not executed | Annealing.PlaceBricksAsWritten, Annealing.AsWrittenFails, Facade.ProcessBlockAnnealingFails | Annealing.AnnealInside, Annealing.AnnealFromSeed, Facade.AnnealingIntendedInside |

=== FILE: annealing.dfy ===
/** The deterministic parts of the simulated-annealing strategy
    (strategies/simulated_annealing_placement.py): a layer-by-layer seed
    whose per-layer results are cached, then a cooling loop that samples
    three perturbations of the best list, keeps the cheapest by the cost
    function when it improves (or when the Metropolis draw says so), and
    tops the list up from the cache. Random draws, the Metropolis test and
    the cluster count of `scipy.ndimage.label` are oracles. */
module Annealing {
  import opened Wrappers
  import opened Config
  import opened Voxels
  import opened Sorting
  import opened Placement
  import opened Seqs

  // ---------------------------------------------------------------------
  // Schedule and action probabilities
  // ---------------------------------------------------------------------

  /** Initial temperature, stopping temperature and iteration cap. */
  datatype Schedule = Schedule(t0: real, minTemp: real, maxIter: nat)

  const DEFAULT_SCHEDULE: Schedule := Schedule(1000.0, 1.0, 100)

  /** The temperature after i iterations: T0 / (1 + 0.1 i). */
  function Temperature(t0: real, i: nat): (t: real)
    ensures t0 > 0.0 ==> 0.0 < t <= t0
  {
    assert 1.0 + 0.1 * i as real >= 1.0;
    t0 / (1.0 + 0.1 * i as real)
  }

  lemma DivDecreasing(t: real, a: real, b: real)
    requires t > 0.0 && 0.0 < a < b
    ensures t / b < t / a
  {
    var qa := t / a;
    var qb := t / b;
    assert qa * a == t && qb * b == t;
  }

  /** With a positive start the schedule strictly cools at every iteration. */
  lemma TemperatureDecreasing(t0: real, i: nat, j: nat)
    requires t0 > 0.0 && i < j
    ensures Temperature(t0, j) < Temperature(t0, i)
  {
    DivDecreasing(t0, 1.0 + 0.1 * i as real, 1.0 + 0.1 * j as real);
  }

  datatype Action = Remove | Add | Replace

  /** Probabilities of the three actions given the coverage fraction c. */
  datatype ActionProbs = ActionProbs(remove: real, add: real, replace: real)

  function RealMin(a: real, b: real): real { if a <= b then a else b }

  /** remove = min(0.5, c), add = 0.3, replace = the rest: a distribution
      for every non-negative coverage. */
  function ActionProbabilities(c: real): (p: ActionProbs)
    ensures p.remove + p.add + p.replace == 1.0
    ensures c >= 0.0 ==> 0.0 <= p.remove <= 0.5 && 0.2 <= p.replace <= 0.7 && p.add == 0.3
  {
    var r := RealMin(0.5, c);
    ActionProbs(r, 0.3, 1.0 - r - 0.3)
  }

  /** More coverage shifts weight from "replace" to "remove", until half
      the model is covered; from then on the split is fixed at 0.5/0.3/0.2. */
  lemma ActionProbabilitiesMonotone(c1: real, c2: real)
    requires c1 <= c2
    ensures ActionProbabilities(c1).remove <= ActionProbabilities(c2).remove
    ensures ActionProbabilities(c1).replace >= ActionProbabilities(c2).replace
    ensures c1 >= 0.5 ==> ActionProbabilities(c1) == ActionProbabilities(c2) == ActionProbs(0.5, 0.3, 0.2)
  {
  }

  // ---------------------------------------------------------------------
  // Seeding and the layer cache
  // ---------------------------------------------------------------------

  /** `_initial_greedy_placement`: the layer pass on every layer in turn on
      the running grids, each layer's list kept as `layer_cache[z]`. */
  function SeedLayers(s: Grids, z: nat, sizes: seq<BrickSize>, allowTop: bool): (r: (Grids, seq<seq<Brick>>))
    requires NonNegativeSizes(sizes)
    ensures r.0.dims == s.dims
    ensures |r.1| == if z <= s.dims.depth then s.dims.depth - z else 0
    decreases s.dims.depth - z
  {
    if z >= s.dims.depth then (s, [])
    else
      var l := PlaceBricksOnLayer(s, z, sizes, allowTop);
      var r := SeedLayers(l.0, z + 1, sizes, allowTop);
      (r.0, [l.1] + r.1)
  }

  /** Entry k of the cache holds bricks of layer z + k only. */
  ghost predicate LayersFrom(ls: seq<seq<Brick>>, z: int) {
    forall k, i :: 0 <= k < |ls| && 0 <= i < |ls[k]| ==> ls[k][i].box.z == z + k
  }

  /** The cache's bricks, in order, are a first-fit run from s ending in u,
      layer by layer from z. */
  ghost predicate CacheRun(s: Grids, u: Grids, ls: seq<seq<Brick>>, z: int, sizes: seq<BrickSize>, allowTop: bool)
    requires NonNegativeSizes(sizes)
  {
    u == Replay(s, Flatten(ls)) && FirstFitRun(s, Flatten(ls), sizes, allowTop) && LayersFrom(ls, z)
  }

  /** The seed is a first-fit run from the start grids that ends in the
      grids the seeding leaves; cache entry k holds bricks of layer z + k
      only. */
  lemma {:induction false} SeedLayersSpec(s: Grids, z: nat, sizes: seq<BrickSize>, allowTop: bool)
    requires NonNegativeSizes(sizes)
    ensures var r := SeedLayers(s, z, sizes, allowTop); CacheRun(s, r.0, r.1, z, sizes, allowTop)
    decreases s.dims.depth - z
  {
    if z < s.dims.depth {
      var l := PlaceBricksOnLayer(s, z, sizes, allowTop);
      LayerRun(s, z, sizes, allowTop);
      var r := SeedLayers(l.0, z + 1, sizes, allowTop);
      SeedLayersSpec(l.0, z + 1, sizes, allowTop);
      CacheStep(s, l.1, l.0, r.1, r.0, z, sizes, allowTop);
      SeedLayersUnfold(s, z, sizes, allowTop);
    } else {
      assert Flatten<Brick>([]) == [];
    }
  }

  lemma SeedLayersUnfold(s: Grids, z: nat, sizes: seq<BrickSize>, allowTop: bool)
    requires NonNegativeSizes(sizes) && z < s.dims.depth
    ensures var l := PlaceBricksOnLayer(s, z, sizes, allowTop);
      var r := SeedLayers(l.0, z + 1, sizes, allowTop);
      SeedLayers(s, z, sizes, allowTop) == (r.0, [l.1] + r.1)
  {
  }

  /** One layer pass as a cache entry. */
  lemma LayerRun(s: Grids, z: nat, sizes: seq<BrickSize>, allowTop: bool)
    requires NonNegativeSizes(sizes) && z < s.dims.depth
    ensures var l := PlaceBricksOnLayer(s, z, sizes, allowTop);
      l.0 == Replay(s, l.1) && FirstFitRun(s, l.1, sizes, allowTop) && forall i :: 0 <= i < |l.1| ==> l.1[i].box.z == z
  {
    PlaceOnLayerSpec(s, z, 0, 0, sizes, allowTop);
  }

  /** Putting one layer's list in front of the cache of the layers above. */
  lemma CacheStep(s: Grids, bs: seq<Brick>, t: Grids, rest: seq<seq<Brick>>, u: Grids, z: int, sizes: seq<BrickSize>, allowTop: bool)
    requires NonNegativeSizes(sizes)
    requires t == Replay(s, bs) && FirstFitRun(s, bs, sizes, allowTop) && forall i :: 0 <= i < |bs| ==> bs[i].box.z == z
    requires CacheRun(t, u, rest, z + 1, sizes, allowTop)
    ensures CacheRun(s, u, [bs] + rest, z, sizes, allowTop)
  {
    var ls := [bs] + rest;
    assert ls[0] == bs && ls[1..] == rest;
    assert Flatten(ls) == bs + Flatten(rest);
    FirstFitRunAppend(s, bs, Flatten(rest), sizes, allowTop);
    ReplayAppend(s, bs, Flatten(rest));
    forall k, i | 0 <= k < |ls| && 0 <= i < |ls[k]|
      ensures ls[k][i].box.z == z + k
    {
      if k > 0 {
        assert ls[k] == rest[k - 1];
      }
    }
  }

  /** The seed's bricks are pairwise disjoint, inside the input's occupied
      cells and inside the array, and the grids left afterwards hold
      exactly the cells no seed brick covers. */
  lemma SeedSound(g: VoxelGrid, sizes: seq<BrickSize>, allowTop: bool)
    requires g.Valid() && NonNegativeSizes(sizes)
    ensures var r := SeedLayers(StartGrids(g), 0, sizes, allowTop);
      && PairwiseDisjoint(Flatten(r.1)) && AllInside(Flatten(r.1), g.cells)
      && (forall i :: 0 <= i < |Flatten(r.1)| ==> BoxInGrid(g.dims, Flatten(r.1)[i].box))
      && r.0.occ == g.cells - Footprint(Flatten(r.1))
      && |r.1| == g.dims.depth
  {
    var s0 := StartGrids(g);
    var r := SeedLayers(s0, 0, sizes, allowTop);
    SeedLayersSpec(s0, 0, sizes, allowTop);
    FirstFitRunFeasible(s0, Flatten(r.1), sizes, allowTop);
    FeasibleSound(s0, Flatten(r.1), allowTop);
  }

  // ---------------------------------------------------------------------
  // Cost and choice
  // ---------------------------------------------------------------------

  /** The cost of a list: minus its length, minus the fraction of the model
      it covers, plus 5 per connected cluster of its bricks. */
  function Cost(bs: seq<Brick>, total: nat, clusters: nat): real
    requires total > 0
  {
    -(|bs| as real) - TotalVolume(bs) as real / total as real + 5.0 * clusters as real
  }

  /** With the cluster count equal, a list with more bricks that covers at
      least as much costs strictly less. */
  lemma CostPrefersMoreBricks(a: seq<Brick>, b: seq<Brick>, total: nat, clusters: nat)
    requires total > 0 && |a| < |b| && TotalVolume(a) <= TotalVolume(b)
    ensures Cost(b, total, clusters) < Cost(a, total, clusters)
  {
    DivMonotone(TotalVolume(a) as real, TotalVolume(b) as real, total as real);
  }

  lemma DivMonotone(x: real, y: real, t: real)
    requires x <= y && t > 0.0
    ensures x / t <= y / t
  {
    var qx := x / t;
    var qy := y / t;
    assert qx * t == x && qy * t == y;
  }

  /** Each extra cluster adds exactly 5 to the cost. */
  lemma CostPenalisesClusters(bs: seq<Brick>, total: nat, k: nat)
    requires total > 0
    ensures Cost(bs, total, k + 1) == Cost(bs, total, k) + 5.0
  {
  }

  /** `min(candidates, key=cost_function)`: a candidate of least cost, the
      first such in the given order. */
  function Argmin(cands: seq<seq<Brick>>, cost: seq<Brick> -> real): (r: seq<Brick>)
    requires cands != []
    ensures exists k :: 0 <= k < |cands| && cands[k] == r && forall j :: 0 <= j < k ==> cost(cands[j]) > cost(r)
    ensures forall j :: 0 <= j < |cands| ==> cost(r) <= cost(cands[j])
    decreases |cands|
  {
    if |cands| == 1 then cands[0]
    else
      var m := Argmin(cands[1..], cost);
      assert forall j :: 1 <= j < |cands| ==> cands[j] == cands[1..][j - 1];
      if cost(m) < cost(cands[0]) then m else cands[0]
  }

  // ---------------------------------------------------------------------
  // Perturbation
  // ---------------------------------------------------------------------

  /** One draw for a perturbation: the action, a list index and a layer,
      both reduced to range where they are used. */
  datatype Choice = Choice(action: Action, index: nat, layer: nat)

  /** `new_cubes.append(layer_cache[z][0])` when that layer is non-empty. */
  function AppendHead(bs: seq<Brick>, cache: seq<seq<Brick>>, z: int): (r: seq<Brick>)
    ensures r == bs || (0 <= z < |cache| && cache[z] != [] && r == bs + [cache[z][0]])
  {
    if 0 <= z < |cache| && cache[z] != [] then bs + [cache[z][0]] else bs
  }

  /** `_perturb_solution` on a copy of the list. `left` is the count of
      cells still set in the grid the perturbation sees. */
  function Perturb(cubes: seq<Brick>, left: nat, cache: seq<seq<Brick>>, c: Choice): seq<Brick> {
    if TotalVolume(cubes) >= left && c.action != Remove then cubes
    else
      match c.action
      case Remove => if cubes == [] then cubes else RemoveAt(cubes, c.index % |cubes|)
      case Add => if cache == [] then cubes else AppendHead(cubes, cache, c.layer % |cache|)
      case Replace =>
        if cubes == [] then cubes
        else
          var k := c.index % |cubes|;
          AppendHead(RemoveAt(cubes, k), cache, cubes[k].box.z)
  }

  /** Every brick of the list occurs in the pool. */
  ghost predicate Drawn(bs: seq<Brick>, pool: seq<Brick>) {
    forall i :: 0 <= i < |bs| ==> bs[i] in pool
  }

  /** The first brick of a cached layer is a brick of the whole cache. */
  lemma AppendHeadDrawn(bs: seq<Brick>, cache: seq<seq<Brick>>, z: int)
    requires Drawn(bs, Flatten(cache))
    ensures Drawn(AppendHead(bs, cache, z), Flatten(cache))
  {
    if 0 <= z < |cache| && cache[z] != [] {
      FlattenHas(cache, z, 0);
    }
  }

  /** r is `cubes` with its element at position k taken out, the rest in
      order. */
  predicate RemovedAt(cubes: seq<Brick>, r: seq<Brick>, k: int) {
    0 <= k < |cubes| && |r| == |cubes| - 1 &&
    forall i :: 0 <= i < |r| ==> r[i] == (if i < k then cubes[i] else cubes[i + 1])
  }

  /** Once the list covers `left` cells, only "remove" changes it. */
  lemma PerturbGuard(cubes: seq<Brick>, left: nat, cache: seq<seq<Brick>>, c: Choice)
    requires TotalVolume(cubes) >= left && c.action != Remove
    ensures Perturb(cubes, left, cache, c) == cubes
  {
  }

  /** "remove" on a non-empty list takes out exactly the drawn element. */
  lemma PerturbRemove(cubes: seq<Brick>, left: nat, cache: seq<seq<Brick>>, c: Choice)
    requires c.action == Remove && cubes != []
    ensures RemovedAt(cubes, Perturb(cubes, left, cache, c), c.index % |cubes|)
  {
  }

  /** "add" keeps the list and appends at most one brick, the first brick of
      a cached layer. */
  lemma PerturbAdd(cubes: seq<Brick>, left: nat, cache: seq<seq<Brick>>, c: Choice)
    requires c.action == Add
    ensures var r := Perturb(cubes, left, cache, c);
      && |cubes| <= |r| <= |cubes| + 1 && r[..|cubes|] == cubes
      && (|r| > |cubes| ==> exists z :: 0 <= z < |cache| && cache[z] != [] && r[|cubes|] == cache[z][0])
  {
    var r := Perturb(cubes, left, cache, c);
    assert cubes + [] == cubes;
    if |r| > |cubes| {
      assert r[|cubes|] == cache[c.layer % |cache|][0];
    }
  }

  /** "replace" on a list short of `left` cells is remove-then-append. */
  lemma PerturbReplaceIs(cubes: seq<Brick>, left: nat, cache: seq<seq<Brick>>, c: Choice)
    requires c.action == Replace && cubes != [] && TotalVolume(cubes) < left
    ensures Perturb(cubes, left, cache, c) == AppendHead(RemoveAt(cubes, c.index % |cubes|), cache, cubes[c.index % |cubes|].box.z)
  {
  }

  /** Appending at most one brick after a removal. */
  lemma AppendAfterRemove(cubes: seq<Brick>, k: nat, cache: seq<seq<Brick>>)
    requires k < |cubes|
    ensures var r := AppendHead(RemoveAt(cubes, k), cache, cubes[k].box.z);
      && |cubes| - 1 <= |r| <= |cubes|
      && RemovedAt(cubes, r[..|cubes| - 1], k)
      && (|r| == |cubes| ==> var z := cubes[k].box.z; 0 <= z < |cache| && cache[z] != [] && r[|cubes| - 1] == cache[z][0])
  {
    var rest := RemoveAt(cubes, k);
    var z := cubes[k].box.z;
    var r := AppendHead(rest, cache, z);
    assert RemovedAt(cubes, rest, k);
    if 0 <= z < |cache| && cache[z] != [] {
      assert r == rest + [cache[z][0]];
    } else {
      assert r == rest;
    }
    assert r[..|cubes| - 1] == rest;
  }

  /** "replace" on a list short of `left` cells takes out the drawn element
      and appends at most one brick, the first brick of the removed brick's
      layer in the cache. */
  lemma PerturbReplace(cubes: seq<Brick>, left: nat, cache: seq<seq<Brick>>, c: Choice)
    requires c.action == Replace && cubes != [] && TotalVolume(cubes) < left
    ensures var r := Perturb(cubes, left, cache, c);
      var k := c.index % |cubes|;
      && |cubes| - 1 <= |r| <= |cubes|
      && RemovedAt(cubes, r[..|cubes| - 1], k)
      && (|r| == |cubes| ==> var z := cubes[k].box.z; 0 <= z < |cache| && cache[z] != [] && r[|cubes| - 1] == cache[z][0])
  {
    PerturbReplaceIs(cubes, left, cache, c);
    AppendAfterRemove(cubes, c.index % |cubes|, cache);
  }

  /** Every perturbation moves the length by at most one. */
  lemma PerturbLength(cubes: seq<Brick>, left: nat, cache: seq<seq<Brick>>, c: Choice)
    ensures |cubes| - 1 <= |Perturb(cubes, left, cache, c)| <= |cubes| + 1
  {
  }

  /** A list drawn from the cache stays so under perturbation. */
  lemma PerturbDrawn(cubes: seq<Brick>, left: nat, cache: seq<seq<Brick>>, c: Choice)
    requires Drawn(cubes, Flatten(cache))
    ensures Drawn(Perturb(cubes, left, cache, c), Flatten(cache))
  {
    if !(TotalVolume(cubes) >= left && c.action != Remove) && cubes != [] {
      var k := c.index % |cubes|;
      var rest := RemoveAt(cubes, k);
      assert Drawn(rest, Flatten(cache));
      AppendHeadDrawn(rest, cache, cubes[k].box.z);
    }
    if !(TotalVolume(cubes) >= left && c.action != Remove) && cache != [] {
      AppendHeadDrawn(cubes, cache, c.layer % |cache|);
    }
  }

  // ---------------------------------------------------------------------
  // Local optimisation
  // ---------------------------------------------------------------------

  /** Some brick of the list meets box b by the strict AABB test. */
  predicate OverlapsAny(b: Box, bs: seq<Brick>) {
    exists i :: 0 <= i < |bs| && AabbOverlap(b, bs[i].box)
  }

  /** The inner loop of `_local_optimization` over one cached layer: while
      the list covers fewer than `left` cells, append each cached brick that
      overlaps no brick already in the list. The running coverage is the
      list's total volume. */
  function AddFromLayer(opt: seq<Brick>, layer: seq<Brick>, left: int): seq<Brick>
    decreases |layer|
  {
    if layer == [] then opt
    else if TotalVolume(opt) < left && !OverlapsAny(layer[0].box, opt) then AddFromLayer(opt + [layer[0]], layer[1..], left)
    else AddFromLayer(opt, layer[1..], left)
  }

  /** `_local_optimization`: the inner loop over layers z, z+1, ... of the
      cache. */
  function LocalOptFrom(opt: seq<Brick>, cache: seq<seq<Brick>>, z: nat, left: int): seq<Brick>
    decreases |cache| - z
  {
    if z >= |cache| then opt else LocalOptFrom(AddFromLayer(opt, cache[z], left), cache, z + 1, left)
  }

  function LocalOpt(cubes: seq<Brick>, cache: seq<seq<Brick>>, left: int): seq<Brick> {
    LocalOptFrom(cubes, cache, 0, left)
  }

  /** r extends opt by bricks of the pool, each appended while the list
      before it covered fewer than `left` cells and overlapping none of the
      bricks before it. */
  ghost predicate Grows(opt: seq<Brick>, r: seq<Brick>, pool: seq<Brick>, left: int) {
    && |opt| <= |r| && r[..|opt|] == opt
    && forall i :: |opt| <= i < |r| ==> r[i] in pool && TotalVolume(r[..i]) < left && !OverlapsAny(r[i].box, r[..i])
  }

  lemma GrowsRefl(opt: seq<Brick>, pool: seq<Brick>, left: int)
    ensures Grows(opt, opt, pool, left)
  {
    assert opt[..|opt|] == opt;
  }

  lemma GrowsTrans(a: seq<Brick>, b: seq<Brick>, c: seq<Brick>, pool: seq<Brick>, left: int)
    requires Grows(a, b, pool, left) && Grows(b, c, pool, left)
    ensures Grows(a, c, pool, left)
  {
    assert c[..|a|] == c[..|b|][..|a|];
    forall i | |a| <= i < |b|
      ensures c[i] == b[i] && c[..i] == b[..i]
    {
      assert c[..|b|][i] == c[i];
      assert c[..i] == c[..|b|][..i];
    }
  }

  lemma GrowsOne(opt: seq<Brick>, b: Brick, pool: seq<Brick>, left: int)
    requires b in pool && TotalVolume(opt) < left && !OverlapsAny(b.box, opt)
    ensures Grows(opt, opt + [b], pool, left)
  {
    var r := opt + [b];
    assert r[..|opt|] == opt;
  }

  lemma {:induction false} AddFromLayerSpec(opt: seq<Brick>, layer: seq<Brick>, pool: seq<Brick>, left: int)
    requires forall j :: 0 <= j < |layer| ==> layer[j] in pool
    ensures Grows(opt, AddFromLayer(opt, layer, left), pool, left)
    ensures TotalVolume(opt) >= left ==> AddFromLayer(opt, layer, left) == opt
    decreases |layer|
  {
    if layer == [] {
      GrowsRefl(opt, pool, left);
    } else {
      assert forall j :: 0 <= j < |layer[1..]| ==> layer[1..][j] == layer[j + 1];
      if TotalVolume(opt) < left && !OverlapsAny(layer[0].box, opt) {
        var opt' := opt + [layer[0]];
        GrowsOne(opt, layer[0], pool, left);
        AddFromLayerSpec(opt', layer[1..], pool, left);
        GrowsTrans(opt, opt', AddFromLayer(opt', layer[1..], left), pool, left);
      } else {
        AddFromLayerSpec(opt, layer[1..], pool, left);
      }
    }
  }

  lemma {:induction false} LocalOptFromSpec(opt: seq<Brick>, cache: seq<seq<Brick>>, z: nat, left: int)
    ensures Grows(opt, LocalOptFrom(opt, cache, z, left), Flatten(cache), left)
    ensures TotalVolume(opt) >= left ==> LocalOptFrom(opt, cache, z, left) == opt
    decreases |cache| - z
  {
    if z >= |cache| {
      GrowsRefl(opt, Flatten(cache), left);
    } else {
      forall j | 0 <= j < |cache[z]|
        ensures cache[z][j] in Flatten(cache)
      {
        FlattenHas(cache, z, j);
      }
      var opt' := AddFromLayer(opt, cache[z], left);
      AddFromLayerSpec(opt, cache[z], Flatten(cache), left);
      LocalOptFromSpec(opt', cache, z + 1, left);
      GrowsTrans(opt, opt', LocalOptFrom(opt', cache, z + 1, left), Flatten(cache), left);
    }
  }

  /** The local search keeps its input as a prefix and appends only cached
      bricks, each while the list covered fewer than `left` cells and each
      overlapping, by the strict AABB test, no brick before it; a list that
      already covers `left` cells comes back unchanged. */
  lemma LocalOptSpec(cubes: seq<Brick>, cache: seq<seq<Brick>>, left: int)
    ensures Grows(cubes, LocalOpt(cubes, cache, left), Flatten(cache), left)
    ensures TotalVolume(cubes) >= left ==> LocalOpt(cubes, cache, left) == cubes
  {
    LocalOptFromSpec(cubes, cache, 0, left);
  }

  /** No brick meets an earlier one by the strict AABB test. */
  predicate Apart(bs: seq<Brick>) {
    forall i, j :: 0 <= j < i < |bs| ==> !AabbOverlap(bs[i].box, bs[j].box)
  }

  /** Growing keeps a list apart. */
  lemma GrowsKeepsApart(opt: seq<Brick>, r: seq<Brick>, pool: seq<Brick>, left: int)
    requires Grows(opt, r, pool, left) && Apart(opt)
    ensures Apart(r)
  {
    forall i, j | 0 <= j < i < |r|
      ensures !AabbOverlap(r[i].box, r[j].box)
    {
      if i < |opt| {
        assert r[i] == opt[i] && r[j] == opt[j];
      } else {
        assert r[..i][j] == r[j];
      }
    }
  }

  /** For bricks of positive size, apart means pairwise disjoint: touching
      faces share no cell. */
  lemma ApartMeansDisjoint(bs: seq<Brick>)
    requires Apart(bs) && forall i :: 0 <= i < |bs| ==> bs[i].box.Positive()
    ensures PairwiseDisjoint(bs)
  {
    forall i, j | 0 <= i < j < |bs|
      ensures Cells(bs[i].box) !! Cells(bs[j].box)
    {
      AabbOverlapIffShareCell(bs[j].box, bs[i].box);
    }
  }

  // ---------------------------------------------------------------------
  // The cooling loop
  // ---------------------------------------------------------------------

  /** The run's fixed data: the input's cell count, the cells the seed left
      unfilled (the count the guards compare with), and the layer cache. */
  datatype Env = Env(total: nat, left: nat, cache: seq<seq<Brick>>)

  /** The oracles: the draw for candidate j of iteration i, the Metropolis
      test `random() < exp(-delta / T)` of iteration i, and the cluster
      count of a list. */
  datatype Draws = Draws(choose: (nat, nat) -> Choice, metropolis: (nat, real) -> bool, clusters: seq<Brick> -> nat)

  function Score(bs: seq<Brick>, env: Env, d: Draws): real
    requires env.total > 0
  {
    Cost(bs, env.total, d.clusters(bs))
  }

  /** The three sampled perturbations of iteration i. */
  function Candidates(best: seq<Brick>, env: Env, d: Draws, i: nat): (r: seq<seq<Brick>>)
    ensures |r| == 3
  {
    seq(3, j requires 0 <= j < 3 => Perturb(best, env.left, env.cache, d.choose(i, j)))
  }

  /** The loop body after the callback: the cheapest candidate replaces the
      best list when it is cheaper or the Metropolis draw accepts it; then
      the local search tops the list up. Returns the new list and the cost
      recorded for it. */
  function Iterate(best: seq<Brick>, bestCost: real, i: nat, env: Env, d: Draws): (seq<Brick>, real)
    requires env.total > 0
  {
    var nw := Argmin(Candidates(best, env, d, i), bs => Score(bs, env, d));
    var newCost := Score(nw, env, d);
    var delta := newCost - bestCost;
    if delta < 0.0 || d.metropolis(i, delta) then (LocalOpt(nw, env.cache, env.left), newCost)
    else (LocalOpt(best, env.cache, env.left), bestCost)
  }

  /** A candidate strictly cheaper than the recorded cost is always taken,
      whatever the Metropolis draw says; the kept list is then the local
      search applied to a least-cost candidate or to the old best. */
  lemma IterateSpec(best: seq<Brick>, bestCost: real, i: nat, env: Env, d: Draws)
    requires env.total > 0
    ensures var cands := Candidates(best, env, d, i);
      var nw := Argmin(cands, bs => Score(bs, env, d));
      var r := Iterate(best, bestCost, i, env, d);
      && (Score(nw, env, d) < bestCost ==> r == (LocalOpt(nw, env.cache, env.left), Score(nw, env, d)))
      && (forall j :: 0 <= j < 3 ==> Score(nw, env, d) <= Score(cands[j], env, d))
      && (r.0 == LocalOpt(nw, env.cache, env.left) || r.0 == LocalOpt(best, env.cache, env.left))
  {
  }

  /** Drawing from the cache is kept by an iteration. */
  lemma IterateDrawn(best: seq<Brick>, bestCost: real, i: nat, env: Env, d: Draws)
    requires env.total > 0 && Drawn(best, Flatten(env.cache))
    ensures Drawn(Iterate(best, bestCost, i, env, d).0, Flatten(env.cache))
  {
    var cands := Candidates(best, env, d, i);
    var nw := Argmin(cands, bs => Score(bs, env, d));
    forall j | 0 <= j < 3
      ensures Drawn(cands[j], Flatten(env.cache))
    {
      PerturbDrawn(best, env.left, env.cache, d.choose(i, j));
    }
    LocalOptSpec(nw, env.cache, env.left);
    LocalOptSpec(best, env.cache, env.left);
    GrowsDrawn(nw, LocalOpt(nw, env.cache, env.left), Flatten(env.cache), env.left);
    GrowsDrawn(best, LocalOpt(best, env.cache, env.left), Flatten(env.cache), env.left);
  }

  lemma GrowsDrawn(opt: seq<Brick>, r: seq<Brick>, pool: seq<Brick>, left: int)
    requires Grows(opt, r, pool, left) && Drawn(opt, pool)
    ensures Drawn(r, pool)
  {
    forall i | 0 <= i < |opt|
      ensures r[i] in pool
    {
      assert r[i] == r[..|opt|][i];
    }
  }

  /** How the loop ended, and after how many iterations. */
  datatype Run = Run(best: seq<Brick>, iterations: nat)

  /** `while temperature > min_temp and iteration < max_iterations`, with the
      progress callback `stop` asked the covered fraction before each pass;
      a cancelled run returns the best list as it stands. */
  function Anneal(best: seq<Brick>, bestCost: real, iteration: nat, p: Schedule, env: Env, d: Draws, stop: real -> bool): (r: Run)
    requires env.total > 0
    ensures iteration <= r.iterations && (iteration <= p.maxIter ==> r.iterations <= p.maxIter)
    ensures iteration <= p.maxIter ==>
      || r.iterations == p.maxIter
      || Temperature(p.t0, r.iterations) <= p.minTemp
      || stop(TotalVolume(r.best) as real / env.total as real)
    decreases p.maxIter - iteration
  {
    if !(Temperature(p.t0, iteration) > p.minTemp && iteration < p.maxIter) then Run(best, iteration)
    else if stop(TotalVolume(best) as real / env.total as real) then Run(best, iteration)
    else
      var next := Iterate(best, bestCost, iteration + 1, env, d);
      Anneal(next.0, next.1, iteration + 1, p, env, d, stop)
  }

  /** The loop goes on: still hot enough, below the cap, and not cancelled. */
  predicate Continues(best: seq<Brick>, iteration: nat, p: Schedule, env: Env, stop: real -> bool)
    requires env.total > 0
  {
    Temperature(p.t0, iteration) > p.minTemp && iteration < p.maxIter && !stop(TotalVolume(best) as real / env.total as real)
  }

  /** One turn of the loop: an iteration when the loop goes on, the current
      list otherwise. */
  lemma AnnealUnfold(best: seq<Brick>, bestCost: real, iteration: nat, p: Schedule, env: Env, d: Draws, stop: real -> bool)
    requires env.total > 0
    ensures var next := Iterate(best, bestCost, iteration + 1, env, d);
      Anneal(best, bestCost, iteration, p, env, d, stop).best
      == if Continues(best, iteration, p, env, stop) then Anneal(next.0, next.1, iteration + 1, p, env, d, stop).best else best
  {
  }

  /** Every brick the loop ends with is a brick of the cache. */
  lemma {:induction false} AnnealDrawn(best: seq<Brick>, bestCost: real, iteration: nat, p: Schedule, env: Env, d: Draws, stop: real -> bool)
    requires env.total > 0 && Drawn(best, Flatten(env.cache))
    ensures Drawn(Anneal(best, bestCost, iteration, p, env, d, stop).best, Flatten(env.cache))
    decreases p.maxIter - iteration
  {
    AnnealUnfold(best, bestCost, iteration, p, env, d, stop);
    if Continues(best, iteration, p, env, stop) {
      var next := Iterate(best, bestCost, iteration + 1, env, d);
      IterateDrawn(best, bestCost, iteration + 1, env, d);
      AnnealDrawn(next.0, next.1, iteration + 1, p, env, d, stop);
    }
  }

  /** The strategy's bricks. With an empty input the source divides 0 by 0;
      the resulting NaN costs fail every comparison and the seed comes back
      unchanged, which is what the model returns directly. */
  function AnnealBricks(g: VoxelGrid, sizes: seq<BrickSize>, allowTop: bool, p: Schedule, d: Draws, stop: real -> bool): seq<Brick>
    requires g.Valid() && NonNegativeSizes(sizes)
  {
    var sd := SeedLayers(StartGrids(g), 0, sizes, allowTop);
    var seed := Flatten(sd.1);
    if |g.cells| == 0 then seed
    else
      var env := Env(|g.cells|, |sd.0.occ|, sd.1);
      Anneal(seed, Score(seed, env, d), 0, p, env, d, stop).best
  }

  /** The output records: geometry kept, a palette colour drawn by `pick`
      (black when colours are off), and the given brick type as the class. */
  function Finalize(bs: seq<Brick>, useColors: bool, brickType: Option<string>, pick: nat -> nat): (r: seq<Cube>)
    ensures |r| == |bs|
    ensures forall i :: 0 <= i < |r| ==> r[i].box == bs[i].box && r[i].kind == brickType
    ensures forall i :: 0 <= i < |r| ==> (useColors ==> r[i].color in LEGO_COLORS) && (!useColors ==> r[i].color == BLACK)
  {
    seq(|bs|, i requires 0 <= i < |bs| => Cube(bs[i].box, CubeColor(i, useColors, pick), brickType))
  }

  /** `SimulatedAnnealingPlacementStrategy.place_bricks`. */
  function PlaceBricks(g: VoxelGrid, useColors: bool, sizes: seq<BrickSize>, allowTop: bool, p: Schedule, d: Draws,
                       stop: real -> bool, brickType: Option<string>, pick: nat -> nat): seq<Cube>
    requires g.Valid() && NonNegativeSizes(sizes)
  {
    Finalize(AnnealBricks(g, sizes, allowTop, p, d, stop), useColors, brickType, pick)
  }

  /** With no iteration allowed, or a start temperature not above the
      stopping one, the result is the seed, in order, with colours. */
  lemma NoIterationsGivesSeed(g: VoxelGrid, sizes: seq<BrickSize>, allowTop: bool, p: Schedule, d: Draws, stop: real -> bool)
    requires g.Valid() && NonNegativeSizes(sizes) && (p.maxIter == 0 || p.t0 <= p.minTemp)
    ensures AnnealBricks(g, sizes, allowTop, p, d, stop) == Flatten(SeedLayers(StartGrids(g), 0, sizes, allowTop).1)
  {
  }

  /** Every brick of the result is a brick of the seed. */
  lemma AnnealFromSeed(g: VoxelGrid, sizes: seq<BrickSize>, allowTop: bool, p: Schedule, d: Draws, stop: real -> bool)
    requires g.Valid() && NonNegativeSizes(sizes)
    ensures Drawn(AnnealBricks(g, sizes, allowTop, p, d, stop), Flatten(SeedLayers(StartGrids(g), 0, sizes, allowTop).1))
  {
    var sd := SeedLayers(StartGrids(g), 0, sizes, allowTop);
    var seed := Flatten(sd.1);
    assert Drawn(seed, seed);
    if |g.cells| > 0 {
      var env := Env(|g.cells|, |sd.0.occ|, sd.1);
      AnnealDrawn(seed, Score(seed, env, d), 0, p, env, d, stop);
    }
  }

  /** Bricks drawn from a list inside the cells and the array are so too. */
  lemma DrawnInside(r: seq<Brick>, pool: seq<Brick>, cells: set<Cell>, dims: Dims)
    requires Drawn(r, pool) && AllInside(pool, cells) && forall j :: 0 <= j < |pool| ==> BoxInGrid(dims, pool[j].box)
    ensures AllInside(r, cells) && forall i :: 0 <= i < |r| ==> BoxInGrid(dims, r[i].box)
  {
    forall i | 0 <= i < |r|
      ensures Cells(r[i].box) <= cells && BoxInGrid(dims, r[i].box)
    {
      var j :| 0 <= j < |pool| && pool[j] == r[i];
    }
  }

  /** Every brick of the result is a brick of the seed, so it lies inside
      the input's occupied cells and inside the array. */
  lemma AnnealInside(g: VoxelGrid, sizes: seq<BrickSize>, allowTop: bool, p: Schedule, d: Draws, stop: real -> bool)
    requires g.Valid() && NonNegativeSizes(sizes)
    ensures var r := AnnealBricks(g, sizes, allowTop, p, d, stop);
      AllInside(r, g.cells) && forall i :: 0 <= i < |r| ==> BoxInGrid(g.dims, r[i].box)
  {
    SeedSound(g, sizes, allowTop);
    AnnealFromSeed(g, sizes, allowTop, p, d, stop);
    DrawnInside(AnnealBricks(g, sizes, allowTop, p, d, stop), Flatten(SeedLayers(StartGrids(g), 0, sizes, allowTop).1), g.cells, g.dims);
  }

  // ---------------------------------------------------------------------
  // The strategy as written: the seeding unpack
  // ---------------------------------------------------------------------

  /** The seed places nothing from layer z on exactly when no layer pass
      from z on finds a cell that takes a size: with nothing placed the
      grids never change, so each pass sees the grids seeding started with. */
  lemma {:induction false} EmptySeedRefusesAll(s: Grids, z: nat, c: Cell, sizes: seq<BrickSize>, allowTop: bool)
    requires NonNegativeSizes(sizes) && Flatten(SeedLayers(s, z, sizes, allowTop).1) == []
    requires c in s.occ && InGrid(s.dims, c) && z <= c.z
    ensures FirstFit(sizes, c.x, c.y, c.z, s, allowTop).None?
    decreases s.dims.depth - z
  {
    EmptySeedStep(s, z, sizes, allowTop);
    if c.z == z {
      if FirstFit(sizes, c.x, c.y, c.z, s, allowTop).Some? {
        LayerPassTakesCell(s, c, sizes, allowTop);
      }
    } else {
      EmptySeedRefusesAll(s, z + 1, c, sizes, allowTop);
    }
  }

  /** A layer pass places a brick whenever some cell of its layer takes a
      size in the grids it starts from. */
  lemma LayerPassTakesCell(s: Grids, c: Cell, sizes: seq<BrickSize>, allowTop: bool)
    requires NonNegativeSizes(sizes) && c in s.occ && InGrid(s.dims, c)
    requires FirstFit(sizes, c.x, c.y, c.z, s, allowTop).Some?
    ensures PlaceBricksOnLayer(s, c.z, sizes, allowTop).1 != []
  {
    PlaceBricksOnLayerSound(s, c.z, sizes, allowTop);
  }

  /** An empty seed from layer z: the pass over z placed nothing and left
      the grids alone, and the seed from the next layer is empty too. */
  lemma EmptySeedStep(s: Grids, z: nat, sizes: seq<BrickSize>, allowTop: bool)
    requires NonNegativeSizes(sizes) && z < s.dims.depth && Flatten(SeedLayers(s, z, sizes, allowTop).1) == []
    ensures PlaceBricksOnLayer(s, z, sizes, allowTop) == (s, [])
    ensures Flatten(SeedLayers(s, z + 1, sizes, allowTop).1) == []
  {
    var l := PlaceBricksOnLayer(s, z, sizes, allowTop);
    var r := SeedLayers(l.0, z + 1, sizes, allowTop);
    SeedLayersUnfold(s, z, sizes, allowTop);
    FlattenConcat([l.1], r.1);
    assert Flatten([l.1]) == l.1 + Flatten<Brick>([]);
    LayerRun(s, z, sizes, allowTop);
  }

  /** The first brick of a layer pass starts at an occupied in-grid cell of
      that layer where a size fits. */
  lemma FirstLayerBrick(s: Grids, z: nat, sizes: seq<BrickSize>, allowTop: bool)
    requires PositiveSizes(sizes) && NonNegativeSizes(sizes) && z < s.dims.depth
    requires PlaceBricksOnLayer(s, z, sizes, allowTop).1 != []
    ensures var o := PlaceBricksOnLayer(s, z, sizes, allowTop).1[0].box.Origin();
      o in s.occ && InGrid(s.dims, o) && o.z == z && FirstFit(sizes, o.x, o.y, o.z, s, allowTop).Some?
  {
    var bs := PlaceBricksOnLayer(s, z, sizes, allowTop).1;
    LayerRun(s, z, sizes, allowTop);
    var b := bs[0];
    var o := b.box.Origin();
    assert IsFirstFit(s, b, sizes, allowTop);
    var k := FirstFit(sizes, o.x, o.y, o.z, s, allowTop).value;
    FirstFitSpec(sizes, o.x, o.y, o.z, s, allowTop);
    assert sizes[k].Positive();
    assert o in Cells(b.box);
  }

  /** Conversely, with positive sizes, when no occupied in-grid cell from
      layer z on takes a size, seeding places nothing. */
  lemma {:induction false} RefusedAllSeedsNothing(s: Grids, z: nat, sizes: seq<BrickSize>, allowTop: bool)
    requires PositiveSizes(sizes) && NonNegativeSizes(sizes)
    requires forall c :: c in s.occ && InGrid(s.dims, c) && z <= c.z ==> FirstFit(sizes, c.x, c.y, c.z, s, allowTop).None?
    ensures Flatten(SeedLayers(s, z, sizes, allowTop).1) == []
    decreases s.dims.depth - z
  {
    if z < s.dims.depth {
      var l := PlaceBricksOnLayer(s, z, sizes, allowTop);
      if l.1 != [] {
        FirstLayerBrick(s, z, sizes, allowTop);
        assert false;
      }
      LayerRun(s, z, sizes, allowTop);
      assert l.0 == s;
      var r := SeedLayers(l.0, z + 1, sizes, allowTop);
      RefusedAllSeedsNothing(l.0, z + 1, sizes, allowTop);
      SeedLayersUnfold(s, z, sizes, allowTop);
      FlattenConcat([l.1], r.1);
      assert Flatten([l.1]) == l.1 + Flatten<Brick>([]);
    } else {
      assert Flatten<seq<Brick>>([]) == [];
    }
  }

  /** `place_bricks` as the source runs it. The layer pass returns 7-field
      records (position, extents and class), and `_initial_greedy_placement`
      unpacks each into six names, so the first layer pass that places a
      brick raises `ValueError`, and nothing in the caller catches it. When
      no pass places anything, the cache is empty, perturbation and local
      search have nothing to add, and the result is the empty list. */
  function PlaceBricksAsWritten(g: VoxelGrid, useColors: bool, sizes: seq<BrickSize>, allowTop: bool, p: Schedule, d: Draws,
                                stop: real -> bool, brickType: Option<string>, pick: nat -> nat): (r: Result<seq<Cube>>)
    requires g.Valid() && NonNegativeSizes(sizes)
    ensures r.Success? ==> r.value == []
    ensures r.Failure? ==> r.error == "ValueError"
  {
    if Flatten(SeedLayers(StartGrids(g), 0, sizes, allowTop).1) != [] then Failure("ValueError")
    else
      EmptySeedGivesNothing(g, useColors, sizes, allowTop, p, d, stop, brickType, pick);
      Success(PlaceBricks(g, useColors, sizes, allowTop, p, d, stop, brickType, pick))
  }

  /** From an empty seed the strategy returns nothing: every result brick is
      a seed brick. */
  lemma EmptySeedGivesNothing(g: VoxelGrid, useColors: bool, sizes: seq<BrickSize>, allowTop: bool, p: Schedule, d: Draws,
                              stop: real -> bool, brickType: Option<string>, pick: nat -> nat)
    requires g.Valid() && NonNegativeSizes(sizes) && Flatten(SeedLayers(StartGrids(g), 0, sizes, allowTop).1) == []
    ensures PlaceBricks(g, useColors, sizes, allowTop, p, d, stop, brickType, pick) == []
  {
    var bs := AnnealBricks(g, sizes, allowTop, p, d, stop);
    AnnealFromSeed(g, sizes, allowTop, p, d, stop);
    if bs != [] {
      assert false;
    }
    assert |Finalize(bs, useColors, brickType, pick)| == 0;
  }

  /** With positive sizes, the strategy as written fails exactly when some
      occupied cell of the input takes a size in the start grids. */
  lemma AsWrittenFailsIff(g: VoxelGrid, useColors: bool, sizes: seq<BrickSize>, allowTop: bool, p: Schedule, d: Draws,
                          stop: real -> bool, brickType: Option<string>, pick: nat -> nat)
    requires g.Valid() && NonNegativeSizes(sizes) && PositiveSizes(sizes)
    ensures PlaceBricksAsWritten(g, useColors, sizes, allowTop, p, d, stop, brickType, pick).Failure? <==>
      exists c :: c in g.cells && FirstFit(sizes, c.x, c.y, c.z, StartGrids(g), allowTop).Some?
  {
    var s := StartGrids(g);
    if Flatten(SeedLayers(s, 0, sizes, allowTop).1) == [] {
      forall c | c in g.cells
        ensures FirstFit(sizes, c.x, c.y, c.z, s, allowTop).None?
      {
        EmptySeedRefusesAll(s, 0, c, sizes, allowTop);
      }
    } else if forall c :: c in g.cells ==> FirstFit(sizes, c.x, c.y, c.z, s, allowTop).None? {
      RefusedAllSeedsNothing(s, 0, sizes, allowTop);
    }
  }

  /** A 1x1x1 entry in the list makes the strategy as written fail on any
      input with a cell in the ground layer, and on any non-empty input
      when top placements are allowed: the 1x1x1 brick fits there. */
  lemma AsWrittenFails(g: VoxelGrid, c: Cell, useColors: bool, sizes: seq<BrickSize>, allowTop: bool, p: Schedule, d: Draws,
                       stop: real -> bool, brickType: Option<string>, pick: nat -> nat)
    requires g.Valid() && NonNegativeSizes(sizes) && HasUnitSize(sizes)
    requires c in g.cells && (allowTop || c.z == 0)
    ensures PlaceBricksAsWritten(g, useColors, sizes, allowTop, p, d, stop, brickType, pick) == Failure("ValueError")
  {
    var s := StartGrids(g);
    UnitCellFits(s, c, sizes, allowTop);
    if Flatten(SeedLayers(s, 0, sizes, allowTop).1) == [] {
      EmptySeedRefusesAll(s, 0, c, sizes, allowTop);
    }
  }
}

=== FILE: arith.dfy ===
/** Integer division facts shared by the block tiling and the step count
    of the instructions: Dafny's `/` and `%` are Euclidean, which agrees
    with Python's floor division for the non-negative operands used here. */
module Arith {

  /** Euclidean division is determined by quotient and remainder. */
  lemma DivModUnique(v: int, b: int, q: int, r: int)
    requires b >= 1 && 0 <= r < b && v == q * b + r
    ensures v / b == q && v % b == r
  {
    var q', r' := v / b, v % b;
    assert v == q' * b + r';
    assert (q - q') * b == r' - r;
    MulBand(q - q', b, r' - r);
  }

  /** A multiple of b strictly between -b and b is zero. */
  lemma MulBand(t: int, b: int, e: int)
    requires b >= 1 && t * b == e && -b < e < b
    ensures t == 0
  {
    MulSign(t, b);
  }

  lemma MulSign(t: int, b: int)
    requires b >= 1
    ensures t >= 1 ==> t * b >= b
    ensures t <= -1 ==> t * b <= -b
  {
  }

  lemma DivMonotone(s: int, t: int, b: int)
    requires b >= 1 && s <= t
    ensures s / b <= t / b
  {
    var qs, qt := s / b, t / b;
    assert s == qs * b + s % b && t == qt * b + t % b;
    MulSign(qs - qt, b);
  }
}

=== FILE: bnb.dfy ===
/** The branch-and-bound strategy (strategies/branch_and_bound_placement.py):
    a greedy seeding pass that works through the grid layer by layer until
    every layer is empty, then a best-first search over placement lists,
    bounded to 10000 iterations, that starts from the seeded state. The
    progress callback is the oracle `stop(processed)` and the colour draw
    is `pick(i)`. */
module BranchBound {
  import opened Wrappers
  import opened Config
  import opened Voxels
  import opened Sorting
  import opened Placement

  // ---------------------------------------------------------------------
  // Heuristic
  // ---------------------------------------------------------------------

  /** The volume the heuristic divides by, taken as the largest brick. */
  const MAX_BRICK_VOLUME: nat := 24

  /** `compute_heuristic`: zero when nothing remains, otherwise the volume
      estimate remaining/24 plus a penalty of 0.1 per placed brick. */
  function Heuristic(remaining: nat, count: nat): (h: real)
    ensures h >= 0.0
  {
    if remaining == 0 then 0.0
    else remaining as real / MAX_BRICK_VOLUME as real + count as real * 0.1
  }

  /** The heuristic vanishes exactly on states with no cell left. */
  lemma HeuristicZeroIff(remaining: nat, count: nat)
    ensures Heuristic(remaining, count) == 0.0 <==> remaining == 0
  {
  }

  /** More cells left or more bricks placed never lowers the estimate. */
  lemma HeuristicMonotone(r1: nat, c1: nat, r2: nat, c2: nat)
    requires r1 <= r2 && c1 <= c2
    ensures Heuristic(r1, c1) <= Heuristic(r2, c2)
  {
  }

  lemma {:induction false} TotalVolumeAtMost(bs: seq<Brick>)
    requires forall i :: 0 <= i < |bs| ==> bs[i].box.Volume() <= MAX_BRICK_VOLUME
    ensures TotalVolume(bs) <= MAX_BRICK_VOLUME * |bs|
    decreases |bs|
  {
    if bs != [] {
      assert forall i :: 0 <= i < |bs[1..]| ==> bs[1..][i] == bs[i + 1];
      TotalVolumeAtMost(bs[1..]);
    }
  }

  /** The volume term never overestimates: bricks of volume at most 24 that
      together cover `remaining` cells number at least remaining/24. Every
      catalog entry qualifies (`CatalogMaxVolume`). */
  lemma VolumeTermIsLowerBound(bs: seq<Brick>, remaining: nat)
    requires forall i :: 0 <= i < |bs| ==> bs[i].box.Volume() <= MAX_BRICK_VOLUME
    requires TotalVolume(bs) >= remaining
    ensures remaining as real / MAX_BRICK_VOLUME as real <= |bs| as real
  {
    TotalVolumeAtMost(bs);
  }

  // ---------------------------------------------------------------------
  // Seeding
  // ---------------------------------------------------------------------

  /** `find_next_voxel_in_layer`: the row-major first occupied cell of layer
      z as (x, y, z, True), or (-1, -1, z, False) when the layer is empty. */
  function FindNextVoxelInLayer(dims: Dims, occ: set<Cell>, z: int): (r: (int, int, int, bool))
    requires 0 <= z < dims.depth
    ensures r.2 == z
    ensures r.3 ==> Cell(z, r.1, r.0) in occ && InGrid(dims, Cell(z, r.1, r.0))
    ensures r.3 ==> forall c :: c in occ && c.z == z && InGrid(dims, c) ==> !Precedes(c, Cell(z, r.1, r.0))
    ensures !r.3 <==> forall c :: c in occ && InGrid(dims, c) ==> c.z != z
    ensures !r.3 ==> r == (-1, -1, z, false)
  {
    match FirstInLayerFrom(dims, occ, z, 0, 0)
    case Some(c) => (c.x, c.y, z, true)
    case None => (-1, -1, z, false)
  }

  /** State of the seeding pass: the grids, the origins already tried
      (`visited_voxels`), and the bricks placed so far. */
  datatype Seeding = Seeding(grids: Grids, visited: set<Cell>, bricks: seq<Brick>)

  /** `voxel_copy[z, y, x] = 0`: drops one cell from the cells to fill and
      leaves the covered cells alone. */
  function ClearCell(s: Grids, c: Cell): (r: Grids)
    ensures Dominated(r, s) && c !in r.occ && s.occ - {c} <= r.occ
  {
    s.(occ := s.occ - {c})
  }

  /** Every pass of the seeding loop lowers |occ| + |occ - visited|: it
      either drops the found cell or marks it visited. */
  lemma SeedMeasureDrops(occ: set<Cell>, occ': set<Cell>, v: set<Cell>, v': set<Cell>, c: Cell)
    requires occ' <= occ && v <= v' && c in occ
    requires c !in occ' || (c in v' && c !in v)
    ensures |occ'| + |occ' - v'| < |occ| + |occ - v|
  {
    if c !in occ' {
      StrictSubsetCard(occ', occ, c);
      SubsetCard(occ' - v', occ - v);
    } else {
      StrictSubsetCard(occ' - v', occ - v, c);
      SubsetCard(occ', occ);
    }
  }

  /** The `while np.any(voxel_copy[z])` loop on layer z: a visited origin is
      cleared; otherwise the first size that fits is committed, or the cell
      is cleared when none fits. */
  function SeedLayer(s: Grids, visited: set<Cell>, z: nat, sizes: seq<BrickSize>, allowTop: bool): (r: Seeding)
    requires z < s.dims.depth && NonNegativeSizes(sizes)
    ensures r.grids.dims == s.dims
    decreases |s.occ| + |s.occ - visited|
  {
    var (x, y, _, found) := FindNextVoxelInLayer(s.dims, s.occ, z);
    if !found then Seeding(s, visited, [])
    else
      var c := Cell(z, y, x);
      if c in visited then
        var t := ClearCell(s, c);
        SeedMeasureDrops(s.occ, t.occ, visited, visited, c);
        SeedLayer(t, visited, z, sizes, allowTop)
      else
        match FirstFit(sizes, x, y, z, s, allowTop)
        case Some(k) =>
          var b := Brick(SizeBox(x, y, z, sizes[k]), sizes[k].kind);
          var t := PlaceBrick(s, b.box);
          SeedMeasureDrops(s.occ, t.occ, visited, visited + {c}, c);
          var r := SeedLayer(t, visited + {c}, z, sizes, allowTop);
          Seeding(r.grids, r.visited, [b] + r.bricks)
        case None =>
          var t := ClearCell(s, c);
          SeedMeasureDrops(s.occ, t.occ, visited, visited + {c}, c);
          SeedLayer(t, visited + {c}, z, sizes, allowTop)
  }

  /** The seeding loop over layers z, z+1, ..., depth-1. */
  function SeedFrom(s: Grids, visited: set<Cell>, z: nat, sizes: seq<BrickSize>, allowTop: bool): (r: Seeding)
    requires NonNegativeSizes(sizes)
    ensures r.grids.dims == s.dims
    decreases s.dims.depth - z
  {
    if z >= s.dims.depth then Seeding(s, visited, [])
    else
      var l := SeedLayer(s, visited, z, sizes, allowTop);
      var r := SeedFrom(l.grids, l.visited, z + 1, sizes, allowTop);
      Seeding(r.grids, r.visited, l.bricks + r.bricks)
  }

  /** A list of one brick is feasible exactly when the placement check accepts it. */
  lemma FeasibleSingle(u: Grids, b: Brick, rest: seq<Brick>, allowTop: bool)
    requires b.box.NonNegative() && CanPlaceBrick(b.box, u, allowTop)
    requires Feasible(PlaceBrick(u, b.box), rest, allowTop)
    ensures Feasible(u, [b] + rest, allowTop)
    ensures Replay(u, [b] + rest) == Replay(PlaceBrick(u, b.box), rest)
  {
    var l := [b] + rest;
    assert l[0] == b && l[1..] == rest;
  }

  /** The placing case of `SeedLayerSpec`. */
  lemma SeedPlaceStep(s: Grids, u: Grids, b: Brick, rest: Seeding, z: nat, allowTop: bool)
    requires Dominated(s, u) && b.box.NonNegative() && CanPlaceBrick(b.box, s, allowTop) && b.box.z == z
    requires Feasible(PlaceBrick(u, b.box), rest.bricks, allowTop)
    requires Dominated(rest.grids, Replay(PlaceBrick(u, b.box), rest.bricks))
    requires forall i :: 0 <= i < |rest.bricks| ==> rest.bricks[i].box.z == z
    ensures Feasible(u, [b] + rest.bricks, allowTop)
    ensures Dominated(rest.grids, Replay(u, [b] + rest.bricks))
    ensures forall i :: 0 <= i < |[b] + rest.bricks| ==> ([b] + rest.bricks)[i].box.z == z
  {
    CanPlaceMonotone(b.box, s, u, allowTop);
    FeasibleSingle(u, b, rest.bricks, allowTop);
  }

  /** The seeding pass on layer z leaves no occupied cell in that layer and
      only ever drops cells. Its bricks all start in layer z, and measured
      against plain replay from any `u` that dominates the start they form a
      feasible run whose end still dominates the pass's grids: clearing a
      cell only makes the placement check stricter. */
  lemma {:induction false} SeedLayerSpec(s: Grids, u: Grids, visited: set<Cell>, z: nat, sizes: seq<BrickSize>, allowTop: bool)
    requires z < s.dims.depth && NonNegativeSizes(sizes) && Dominated(s, u)
    ensures var r := SeedLayer(s, visited, z, sizes, allowTop);
      && Feasible(u, r.bricks, allowTop)
      && Dominated(r.grids, Replay(u, r.bricks))
      && r.grids.occ <= s.occ
      && (forall c :: c in r.grids.occ && InGrid(s.dims, c) ==> c.z != z)
      && (forall i :: 0 <= i < |r.bricks| ==> r.bricks[i].box.z == z)
    decreases |s.occ| + |s.occ - visited|
  {
    var (x, y, _, found) := FindNextVoxelInLayer(s.dims, s.occ, z);
    if found {
      var c := Cell(z, y, x);
      if c in visited {
        var t := ClearCell(s, c);
        SeedMeasureDrops(s.occ, t.occ, visited, visited, c);
        SeedLayerSpec(t, u, visited, z, sizes, allowTop);
      } else if FirstFit(sizes, x, y, z, s, allowTop).Some? {
        var k := FirstFit(sizes, x, y, z, s, allowTop).value;
        FirstFitSpec(sizes, x, y, z, s, allowTop);
        var b := Brick(SizeBox(x, y, z, sizes[k]), sizes[k].kind);
        var t := PlaceBrick(s, b.box);
        SeedMeasureDrops(s.occ, t.occ, visited, visited + {c}, c);
        PlaceBrickDominated(s, u, b.box);
        SeedLayerSpec(t, PlaceBrick(u, b.box), visited + {c}, z, sizes, allowTop);
        SeedPlaceStep(s, u, b, SeedLayer(t, visited + {c}, z, sizes, allowTop), z, allowTop);
      } else {
        var t := ClearCell(s, c);
        SeedMeasureDrops(s.occ, t.occ, visited, visited + {c}, c);
        SeedLayerSpec(t, u, visited + {c}, z, sizes, allowTop);
      }
    }
  }

  /** The seeding loop from layer z on leaves no occupied in-grid cell at
      layer z or above, and its bricks form a feasible run against plain
      replay from any `u` dominating the start. */
  lemma {:induction false} SeedFromSpec(s: Grids, u: Grids, visited: set<Cell>, z: nat, sizes: seq<BrickSize>, allowTop: bool)
    requires NonNegativeSizes(sizes) && Dominated(s, u)
    ensures var r := SeedFrom(s, visited, z, sizes, allowTop);
      && Feasible(u, r.bricks, allowTop)
      && Dominated(r.grids, Replay(u, r.bricks))
      && r.grids.occ <= s.occ
      && (forall c :: c in r.grids.occ && InGrid(s.dims, c) ==> c.z < z)
    decreases s.dims.depth - z
  {
    if z < s.dims.depth {
      var l := SeedLayer(s, visited, z, sizes, allowTop);
      SeedLayerSpec(s, u, visited, z, sizes, allowTop);
      var u1 := Replay(u, l.bricks);
      SeedFromSpec(l.grids, u1, l.visited, z + 1, sizes, allowTop);
      var r := SeedFrom(l.grids, l.visited, z + 1, sizes, allowTop);
      FeasibleAppend(u, l.bricks, r.bricks, allowTop);
      ReplayAppend(u, l.bricks, r.bricks);
      assert SeedFrom(s, visited, z, sizes, allowTop) == Seeding(r.grids, r.visited, l.bricks + r.bricks);
    }
  }

  /** A grid dominated by a consistent one is consistent. */
  lemma DominatedConsistent(t: Grids, u: Grids)
    requires Dominated(t, u) && Consistent(u)
    ensures Consistent(t)
  {
  }

  // ---------------------------------------------------------------------
  // Best-first search
  // ---------------------------------------------------------------------

  const MAX_ITERATIONS: nat := 10000

  /** A heap entry (f, g, state): the state's grids and placement list. */
  datatype Node = Node(f: real, g: nat, grids: Grids, cubes: seq<Brick>)

  /** The search's mutable state: the heap, `g_score`, `best_cubes` and
      `processed_voxels`. `f_score` is written but never read, so it is not
      kept. */
  datatype Frontier = Frontier(open: seq<Node>, gScore: map<seq<Brick>, nat>, best: seq<Brick>, processed: int)

  /** `_state_key`: a state is identified by its placement list. */
  function StateKey(n: Node): seq<Brick> { n.cubes }

  /** The heap's order on entries: by f, then by g. */
  predicate NodeLeq(a: Node, b: Node) {
    a.f < b.f || (a.f == b.f && a.g <= b.g)
  }

  /** `heappop`: the position of an entry with the least (f, g), the
      earliest among equals. */
  function MinIndex(open: seq<Node>): (i: nat)
    requires open != []
    ensures i < |open| && forall j :: 0 <= j < |open| ==> NodeLeq(open[i], open[j])
  {
    if |open| == 1 then 0
    else
      var k := MinIndex(open[1..]) + 1;
      assert forall j :: 1 <= j < |open| ==> open[j] == open[1..][j - 1];
      if NodeLeq(open[0], open[k]) then 0 else k
  }

  /** `int(remaining / (total * 0.1))` floored at 1, with the quotient taken
      exactly. */
  function MaxDepth(remaining: nat, total: nat): (m: nat)
    requires total > 0
    ensures m >= 1 && m >= (10 * remaining) / total
    ensures m == 1 || m == (10 * remaining) / total
  {
    Max(1, (10 * remaining) / total)
  }

  /** One child of the popped state: commit brick b, score it, and push it
      when its key is new or its depth beats the recorded one. */
  function Push(fr: Frontier, node: Node, b: Brick, total: nat, remaining: nat): Frontier {
    var child := PlaceBrick(node.grids, b.box);
    var cubes := node.cubes + [b];
    var g := node.g + 1;
    var n := Node(g as real + Heuristic(|child.occ|, |cubes|), g, child, cubes);
    if StateKey(n) !in fr.gScore || g < fr.gScore[StateKey(n)] then
      Frontier(fr.open + [n], fr.gScore[StateKey(n) := g],
               if |cubes| > |fr.best| then cubes else fr.best, total - remaining)
    else fr
  }

  /** The loop over the sizes at the found cell (x, y, z). */
  function Expand(fr: Frontier, node: Node, x: int, y: int, z: int, sizes: seq<BrickSize>, allowTop: bool, total: nat, remaining: nat): Frontier
    requires NonNegativeSizes(sizes)
    decreases |sizes|
  {
    if sizes == [] then fr
    else
      var b := Brick(SizeBox(x, y, z, sizes[0]), sizes[0].kind);
      var fr' := if CanPlaceBrick(b.box, node.grids, allowTop) then Push(fr, node, b, total, remaining) else fr;
      Expand(fr', node, x, y, z, sizes[1..], allowTop, total, remaining)
  }

  /** What one pass of the search loop does with a non-empty heap. */
  datatype Outcome = Done(result: Result<seq<Brick>>) | Next(frontier: Frontier)

  /** One pass of the `while open_set and iteration < max_iterations` loop
      after the callback: pop the least entry; return its list when no cell
      is left; record it as best when no occupied cell is found; skip it
      beyond the depth bound; otherwise expand it. It fails where the
      source's depth bound evaluates `int` of an infinite float, which needs
      an empty input grid with a non-empty state. */
  function Step(fr: Frontier, total: nat, sizes: seq<BrickSize>, allowTop: bool): Outcome
    requires fr.open != [] && NonNegativeSizes(sizes)
  {
    var i := MinIndex(fr.open);
    var node := fr.open[i];
    var rest := fr.(open := RemoveAt(fr.open, i));
    var remaining := |node.grids.occ|;
    if remaining == 0 then Done(Success(node.cubes))
    else
      var (x, y, z, found) := FindNextVoxel(node.grids.dims, node.grids.occ);
      if !found then Next(rest.(best := if |node.cubes| > |fr.best| then node.cubes else fr.best))
      else if total == 0 then Done(Failure("cannot convert float infinity to integer"))
      else if node.g > MaxDepth(remaining, total) then Next(rest)
      else Next(Expand(rest, node, x, y, z, sizes, allowTop, total, remaining))
  }

  /** The search loop: stops on an empty heap, at the iteration cap, or when
      the callback asks to, returning the best list so far. */
  function Search(fr: Frontier, iteration: nat, total: nat, sizes: seq<BrickSize>, allowTop: bool, stop: int -> bool): Result<seq<Brick>>
    requires NonNegativeSizes(sizes)
    decreases MAX_ITERATIONS - iteration
  {
    if fr.open == [] || iteration >= MAX_ITERATIONS then Success(fr.best)
    else if stop(fr.processed) then Success(fr.best)
    else
      match Step(fr, total, sizes, allowTop)
      case Done(r) => r
      case Next(f) => Search(f, iteration + 1, total, sizes, allowTop, stop)
  }

  /** n is parent extended by one brick at (x, y, z) that the placement check accepts
      on the parent's grids; n's grids are the parent's after the commit,
      its depth one more, and its score depth plus heuristic. */
  ghost predicate ChildOf(n: Node, parent: Node, x: int, y: int, z: int, allowTop: bool) {
    && |n.cubes| == |parent.cubes| + 1
    && n.cubes[..|parent.cubes|] == parent.cubes
    && var b := n.cubes[|parent.cubes|];
       && b.box.x == x && b.box.y == y && b.box.z == z
       && b.box.NonNegative() && CanPlaceBrick(b.box, parent.grids, allowTop)
       && n.grids == PlaceBrick(parent.grids, b.box)
       && n.g == parent.g + 1
       && n.f == n.g as real + Heuristic(|n.grids.occ|, |n.cubes|)
  }

  /** The size a brick was cut from. */
  function SizeOf(b: Brick): BrickSize {
    BrickSize(b.box.w, b.box.h, b.box.d, b.kind)
  }

  /** A pushed entry: a child of `parent` at (x, y, z), cut from one of the
      sizes `all`, whose key was unseen in `gs` or whose depth is strictly
      below the recorded one. */
  ghost predicate PushedEntry(n: Node, parent: Node, x: int, y: int, z: int, all: seq<BrickSize>, allowTop: bool, gs: map<seq<Brick>, nat>) {
    && ChildOf(n, parent, x, y, z, allowTop)
    && SizeOf(n.cubes[|parent.cubes|]) in all
    && (StateKey(n) !in gs || n.g < gs[StateKey(n)])
  }

  /** Recorded depths only go down and no key is forgotten. */
  predicate GScoreShrinks(gs: map<seq<Brick>, nat>, gs': map<seq<Brick>, nat>) {
    forall key :: key in gs ==> key in gs' && gs'[key] <= gs[key]
  }

  /** r is fr after expanding `parent` at (x, y, z): the old heap is a prefix
      of the new one and every added entry is a pushed entry; recorded
      depths only go down; the best list is kept or replaced by a strictly
      longer added list. */
  ghost predicate Extends(fr: Frontier, r: Frontier, parent: Node, x: int, y: int, z: int, all: seq<BrickSize>, allowTop: bool) {
    && |fr.open| <= |r.open| && r.open[..|fr.open|] == fr.open
    && (forall k :: |fr.open| <= k < |r.open| ==> PushedEntry(r.open[k], parent, x, y, z, all, allowTop, fr.gScore))
    && GScoreShrinks(fr.gScore, r.gScore)
    && (r.best == fr.best || (|r.best| > |fr.best| && exists k :: |fr.open| <= k < |r.open| && r.open[k].cubes == r.best))
  }

  /** A pushed entry stays one against an earlier, larger depth record. */
  lemma PushedEntryWeaken(n: Node, parent: Node, x: int, y: int, z: int, all: seq<BrickSize>, allowTop: bool, gs: map<seq<Brick>, nat>, gs': map<seq<Brick>, nat>)
    requires GScoreShrinks(gs, gs') && PushedEntry(n, parent, x, y, z, all, allowTop, gs')
    ensures PushedEntry(n, parent, x, y, z, all, allowTop, gs)
  {
  }

  lemma ExtendsTrans(fr: Frontier, fr': Frontier, r: Frontier, parent: Node, x: int, y: int, z: int, all: seq<BrickSize>, allowTop: bool)
    requires Extends(fr, fr', parent, x, y, z, all, allowTop) && Extends(fr', r, parent, x, y, z, all, allowTop)
    ensures Extends(fr, r, parent, x, y, z, all, allowTop)
  {
    forall k | |fr.open| <= k < |r.open|
      ensures PushedEntry(r.open[k], parent, x, y, z, all, allowTop, fr.gScore)
    {
      if k < |fr'.open| {
        assert r.open[k] == r.open[..|fr'.open|][k];
      } else {
        PushedEntryWeaken(r.open[k], parent, x, y, z, all, allowTop, fr.gScore, fr'.gScore);
      }
    }
    assert r.open[..|fr.open|] == r.open[..|fr'.open|][..|fr.open|];
    if r.best != fr.best {
      if r.best == fr'.best {
        var k :| |fr.open| <= k < |fr'.open| && fr'.open[k].cubes == r.best;
        assert r.open[k] == r.open[..|fr'.open|][k];
      }
    }
  }

  /** A single push, when the placement check accepts the brick, extends the state. */
  lemma PushSpec(fr: Frontier, node: Node, b: Brick, x: int, y: int, z: int, all: seq<BrickSize>, allowTop: bool, total: nat, remaining: nat)
    requires b.box.x == x && b.box.y == y && b.box.z == z && b.box.NonNegative() && SizeOf(b) in all
    ensures var r := if CanPlaceBrick(b.box, node.grids, allowTop) then Push(fr, node, b, total, remaining) else fr;
      Extends(fr, r, node, x, y, z, all, allowTop)
  {
    var r := if CanPlaceBrick(b.box, node.grids, allowTop) then Push(fr, node, b, total, remaining) else fr;
    var cubes := node.cubes + [b];
    assert cubes[..|node.cubes|] == node.cubes && cubes[|node.cubes|] == b;
    assert r.open[..|fr.open|] == fr.open;
    if r.best != fr.best {
      assert r.open[|fr.open|].cubes == r.best;
    }
  }

  /** What one expansion does to the search state (see `Extends`), the
      sizes tried being among `all`. */
  lemma {:induction false} ExpandSpec(fr: Frontier, node: Node, x: int, y: int, z: int, sizes: seq<BrickSize>, all: seq<BrickSize>, allowTop: bool, total: nat, remaining: nat)
    requires NonNegativeSizes(sizes) && forall i :: 0 <= i < |sizes| ==> sizes[i] in all
    ensures Extends(fr, Expand(fr, node, x, y, z, sizes, allowTop, total, remaining), node, x, y, z, all, allowTop)
    decreases |sizes|
  {
    if sizes == [] {
      assert fr.open[..|fr.open|] == fr.open;
    } else {
      var b := Brick(SizeBox(x, y, z, sizes[0]), sizes[0].kind);
      var fr' := if CanPlaceBrick(b.box, node.grids, allowTop) then Push(fr, node, b, total, remaining) else fr;
      assert SizeOf(b) == sizes[0];
      PushSpec(fr, node, b, x, y, z, all, allowTop, total, remaining);
      assert forall i :: 0 <= i < |sizes[1..]| ==> sizes[1..][i] == sizes[i + 1];
      ExpandSpec(fr', node, x, y, z, sizes[1..], all, allowTop, total, remaining);
      ExtendsTrans(fr, fr', Expand(fr', node, x, y, z, sizes[1..], allowTop, total, remaining), node, x, y, z, all, allowTop);
    }
  }

  // ---------------------------------------------------------------------
  // Soundness of the search
  // ---------------------------------------------------------------------

  /** Along the node's placement list every brick passed the placement check against
      plain replay from s0, and the node's grids are that replay with some
      cells still to fill dropped. */
  ghost predicate NodeSound(n: Node, s0: Grids, allowTop: bool) {
    Feasible(s0, n.cubes, allowTop) && Dominated(n.grids, Replay(s0, n.cubes))
  }

  ghost predicate FrontierSound(fr: Frontier, s0: Grids, allowTop: bool) {
    (forall k :: 0 <= k < |fr.open| ==> NodeSound(fr.open[k], s0, allowTop)) && Feasible(s0, fr.best, allowTop)
  }

  /** A child of a sound node is sound. */
  lemma ChildSound(n: Node, parent: Node, s0: Grids, x: int, y: int, z: int, allowTop: bool)
    requires NodeSound(parent, s0, allowTop) && ChildOf(n, parent, x, y, z, allowTop)
    ensures NodeSound(n, s0, allowTop)
  {
    var b := n.cubes[|parent.cubes|];
    assert n.cubes == parent.cubes + [b];
    var u := Replay(s0, parent.cubes);
    CanPlaceMonotone(b.box, parent.grids, u, allowTop);
    FeasibleSingle(u, b, [], allowTop);
    assert [b] + [] == [b];
    FeasibleAppend(s0, parent.cubes, [b], allowTop);
    ReplayAppend(s0, parent.cubes, [b]);
    PlaceBrickDominated(parent.grids, u, b.box);
  }

  /** Extending a sound state by children of a sound node keeps it sound. */
  lemma ExtendsSound(fr: Frontier, r: Frontier, node: Node, s0: Grids, x: int, y: int, z: int, all: seq<BrickSize>, allowTop: bool)
    requires FrontierSound(fr, s0, allowTop) && NodeSound(node, s0, allowTop)
    requires Extends(fr, r, node, x, y, z, all, allowTop)
    ensures FrontierSound(r, s0, allowTop)
  {
    forall k | 0 <= k < |r.open|
      ensures NodeSound(r.open[k], s0, allowTop)
    {
      if k < |fr.open| {
        assert r.open[k] == r.open[..|fr.open|][k];
      } else {
        assert PushedEntry(r.open[k], node, x, y, z, all, allowTop, fr.gScore);
        ChildSound(r.open[k], node, s0, x, y, z, allowTop);
      }
    }
    if r.best != fr.best {
      var k :| |fr.open| <= k < |r.open| && r.open[k].cubes == r.best;
      assert NodeSound(r.open[k], s0, allowTop);
    }
  }

  /** Dropping the popped entry and updating the best list keeps the search
      state sound. */
  lemma PopSound(fr: Frontier, i: nat, s0: Grids, best: seq<Brick>, allowTop: bool)
    requires i < |fr.open| && FrontierSound(fr, s0, allowTop) && Feasible(s0, best, allowTop)
    ensures FrontierSound(fr.(open := RemoveAt(fr.open, i), best := best), s0, allowTop)
  {
  }

  /** One pass from a sound state leads to a sound state, or returns a
      list every brick of which passed the placement check against replay from s0. */
  lemma StepSound(fr: Frontier, s0: Grids, total: nat, sizes: seq<BrickSize>, allowTop: bool)
    requires fr.open != [] && NonNegativeSizes(sizes) && FrontierSound(fr, s0, allowTop)
    ensures var o := Step(fr, total, sizes, allowTop);
      && (o.Done? && o.result.Success? ==> Feasible(s0, o.result.value, allowTop))
      && (o.Next? ==> FrontierSound(o.frontier, s0, allowTop))
  {
    var i := MinIndex(fr.open);
    var node := fr.open[i];
    assert NodeSound(node, s0, allowTop);
    var remaining := |node.grids.occ|;
    var best := if |node.cubes| > |fr.best| then node.cubes else fr.best;
    PopSound(fr, i, s0, best, allowTop);
    PopSound(fr, i, s0, fr.best, allowTop);
    var rest := fr.(open := RemoveAt(fr.open, i));
    assert rest == fr.(open := RemoveAt(fr.open, i), best := fr.best);
    if remaining > 0 {
      var (x, y, z, found) := FindNextVoxel(node.grids.dims, node.grids.occ);
      if found && total > 0 && node.g <= MaxDepth(remaining, total) {
        ExpandSpec(rest, node, x, y, z, sizes, sizes, allowTop, total, remaining);
        ExtendsSound(rest, Expand(rest, node, x, y, z, sizes, allowTop, total, remaining), node, s0, x, y, z, sizes, allowTop);
      }
    }
  }

  /** A pass of the loop that the callback lets through. */
  lemma SearchUnfold(fr: Frontier, iteration: nat, total: nat, sizes: seq<BrickSize>, allowTop: bool, stop: int -> bool)
    requires NonNegativeSizes(sizes) && fr.open != [] && iteration < MAX_ITERATIONS && !stop(fr.processed)
    ensures var o := Step(fr, total, sizes, allowTop);
      Search(fr, iteration, total, sizes, allowTop, stop) == if o.Done? then o.result else Search(o.frontier, iteration + 1, total, sizes, allowTop, stop)
  {
  }

  /** Whatever the search returns from a sound state is a placement list
      every brick of which passed the placement check against plain replay from s0. */
  lemma {:induction false} SearchSound(fr: Frontier, s0: Grids, iteration: nat, total: nat, sizes: seq<BrickSize>, allowTop: bool, stop: int -> bool)
    requires NonNegativeSizes(sizes) && FrontierSound(fr, s0, allowTop)
    ensures var r := Search(fr, iteration, total, sizes, allowTop, stop);
      r.Success? ==> Feasible(s0, r.value, allowTop)
    decreases MAX_ITERATIONS - iteration
  {
    if fr.open == [] || iteration >= MAX_ITERATIONS || stop(fr.processed) {
      SearchReturnsBest(fr, iteration, total, sizes, allowTop, stop);
    } else {
      var o := Step(fr, total, sizes, allowTop);
      StepSound(fr, s0, total, sizes, allowTop);
      SearchUnfold(fr, iteration, total, sizes, allowTop, stop);
      if o.Next? {
        SearchSound(o.frontier, s0, iteration + 1, total, sizes, allowTop, stop);
      }
    }
  }

  /** A popped state with no cell left ends the search with its own list. */
  lemma SearchStopsOnEmptyState(fr: Frontier, iteration: nat, total: nat, sizes: seq<BrickSize>, allowTop: bool, stop: int -> bool)
    requires NonNegativeSizes(sizes) && fr.open != [] && iteration < MAX_ITERATIONS && !stop(fr.processed)
    requires |fr.open[MinIndex(fr.open)].grids.occ| == 0
    ensures Search(fr, iteration, total, sizes, allowTop, stop) == Success(fr.open[MinIndex(fr.open)].cubes)
  {
  }

  /** Cancelling, an empty heap, or the iteration cap return the best list. */
  lemma SearchReturnsBest(fr: Frontier, iteration: nat, total: nat, sizes: seq<BrickSize>, allowTop: bool, stop: int -> bool)
    requires NonNegativeSizes(sizes)
    requires fr.open == [] || iteration >= MAX_ITERATIONS || stop(fr.processed)
    ensures Search(fr, iteration, total, sizes, allowTop, stop) == Success(fr.best)
  {
  }

  // ---------------------------------------------------------------------
  // The strategy
  // ---------------------------------------------------------------------

  /** `brick_type or t`: a given non-empty class replaces the brick's own. */
  function ClassOf(brickType: Option<string>, own: string): (k: string)
    ensures brickType.Some? && brickType.value != "" ==> k == brickType.value
    ensures brickType.None? || brickType.value == "" ==> k == own
  {
    if brickType.Some? && brickType.value != "" then brickType.value else own
  }

  /** `_finalize_cubes`: keeps count, order and geometry, attaches a colour
      and the class. */
  function Finalize(bs: seq<Brick>, useColors: bool, brickType: Option<string>, pick: nat -> nat): (r: seq<Cube>)
    ensures |r| == |bs|
    ensures forall i :: 0 <= i < |r| ==> r[i].box == bs[i].box && r[i].kind == Some(ClassOf(brickType, bs[i].kind))
    ensures forall i :: 0 <= i < |r| ==> (useColors ==> r[i].color in LEGO_COLORS) && (!useColors ==> r[i].color == BLACK)
  {
    seq(|bs|, i requires 0 <= i < |bs| => Cube(bs[i].box, CubeColor(i, useColors, pick), Some(ClassOf(brickType, bs[i].kind))))
  }

  /** The sizes sorted by volume, largest first, stably. */
  function SearchSizes(allowed: seq<BrickSize>): (r: seq<BrickSize>)
    requires NonNegativeSizes(allowed)
    ensures NonNegativeSizes(r) && SortedDesc(r, VolumeKey) && multiset(r) == multiset(allowed)
  {
    var r := ByVolumeDesc(allowed);
    PermutationKeepsNonNegative(allowed, r);
    r
  }

  /** The seeded state on grid g. */
  function Seed(g: VoxelGrid, allowed: seq<BrickSize>, allowTop: bool): Seeding
    requires g.Valid() && NonNegativeSizes(allowed)
  {
    SeedFrom(StartGrids(g), {}, 0, SearchSizes(allowed), allowTop)
  }

  /** The search started from the seeded state: one heap entry with f = g = 0,
      its key recorded at depth 0, the seed as the best list. */
  function BranchBoundBricks(g: VoxelGrid, allowed: seq<BrickSize>, allowTop: bool, stop: int -> bool): Result<seq<Brick>>
    requires g.Valid() && NonNegativeSizes(allowed)
  {
    var seed := Seed(g, allowed, allowTop);
    var root := Node(0.0, 0, seed.grids, seed.bricks);
    Search(Frontier([root], map[StateKey(root) := 0], seed.bricks, TotalVolume(seed.bricks)),
           0, |g.cells|, SearchSizes(allowed), allowTop, stop)
  }

  /** `BranchBoundPlacementStrategy.place_bricks`. */
  function PlaceBricks(g: VoxelGrid, useColors: bool, allowed: seq<BrickSize>, allowTop: bool, stop: int -> bool,
                       brickType: Option<string>, pick: nat -> nat): Result<seq<Cube>>
    requires g.Valid() && NonNegativeSizes(allowed)
  {
    var bs :- BranchBoundBricks(g, allowed, allowTop, stop);
    Success(Finalize(bs, useColors, brickType, pick))
  }

  /** The seeding pass leaves no cell to fill, and its bricks are pairwise
      disjoint, inside the input's occupied cells and inside the array. */
  lemma SeedSound(g: VoxelGrid, allowed: seq<BrickSize>, allowTop: bool)
    requires g.Valid() && NonNegativeSizes(allowed)
    ensures var seed := Seed(g, allowed, allowTop);
      && seed.grids.occ == {}
      && Feasible(StartGrids(g), seed.bricks, allowTop)
      && PairwiseDisjoint(seed.bricks) && AllInside(seed.bricks, g.cells)
      && (forall i :: 0 <= i < |seed.bricks| ==> BoxInGrid(g.dims, seed.bricks[i].box))
  {
    var s0 := StartGrids(g);
    var seed := Seed(g, allowed, allowTop);
    SeedFromSpec(s0, s0, {}, 0, SearchSizes(allowed), allowTop);
    ReplayConsistent(s0, seed.bricks);
    DominatedConsistent(seed.grids, Replay(s0, seed.bricks));
    FeasibleSound(s0, seed.bricks, allowTop);
  }

  /** The search's first pop already finds no cell left, so the strategy
      returns the seed, whatever the callback answers. */
  lemma ReturnsSeed(g: VoxelGrid, allowed: seq<BrickSize>, allowTop: bool, stop: int -> bool)
    requires g.Valid() && NonNegativeSizes(allowed)
    ensures BranchBoundBricks(g, allowed, allowTop, stop) == Success(Seed(g, allowed, allowTop).bricks)
  {
    SeedSound(g, allowed, allowTop);
    var seed := Seed(g, allowed, allowTop);
    var root := Node(0.0, 0, seed.grids, seed.bricks);
    var fr := Frontier([root], map[StateKey(root) := 0], seed.bricks, TotalVolume(seed.bricks));
    var sizes := SearchSizes(allowed);
    if stop(fr.processed) {
      SearchReturnsBest(fr, 0, |g.cells|, sizes, allowTop, stop);
    } else {
      assert MinIndex(fr.open) == 0;
      SearchStopsOnEmptyState(fr, 0, |g.cells|, sizes, allowTop, stop);
    }
  }

  /** Whatever the search returns is a list of pairwise-disjoint bricks
      inside the input's occupied cells and inside the array. */
  lemma BranchBoundSound(g: VoxelGrid, allowed: seq<BrickSize>, allowTop: bool, stop: int -> bool)
    requires g.Valid() && NonNegativeSizes(allowed)
    ensures var r := BranchBoundBricks(g, allowed, allowTop, stop);
      r.Success? ==>
        && PairwiseDisjoint(r.value) && AllInside(r.value, g.cells)
        && (forall i :: 0 <= i < |r.value| ==> BoxInGrid(g.dims, r.value[i].box))
  {
    var s0 := StartGrids(g);
    var seed := Seed(g, allowed, allowTop);
    var root := Node(0.0, 0, seed.grids, seed.bricks);
    var fr := Frontier([root], map[StateKey(root) := 0], seed.bricks, TotalVolume(seed.bricks));
    SeedFromSpec(s0, s0, {}, 0, SearchSizes(allowed), allowTop);
    assert NodeSound(root, s0, allowTop);
    SearchSound(fr, s0, 0, |g.cells|, SearchSizes(allowed), allowTop, stop);
    var r := BranchBoundBricks(g, allowed, allowTop, stop);
    if r.Success? {
      FeasibleSound(s0, r.value, allowTop);
    }
  }
}

=== FILE: brick_placer.dfy ===
/** `BrickPlacer` (brick_optimization.py): the façade's own placement pass.
    It fills the model first when asked, then scans the grid in row-major
    order and, at every set cell not yet covered, commits the first size,
    by descending footprint w*h, whose box of w x h x (voxel layers) cells
    is entirely set and uncovered. The strategy object the placer is built
    with is stored and never consulted. */
module BrickPlacer {
  import opened Wrappers
  import opened Config
  import opened Voxels
  import opened Sorting
  import Facade

  /** The placer object: it keeps the strategy it was given. */
  datatype Placer = Placer(strategy: Facade.Method)

  function AreaKey(s: BrickSize): int { s.Area() }

  /** `allowed_sizes or BRICK_SIZES`: a missing or empty list means the
      whole catalog. */
  function SourceSizes(allowed: seq<BrickSize>): (r: seq<BrickSize>)
    ensures allowed != [] ==> r == allowed
    ensures allowed == [] ==> r == BRICK_SIZES
  {
    if allowed == [] then BRICK_SIZES else allowed
  }

  /** The order in which sizes are tried: the source list sorted by
      footprint w*h, largest first. Python's `sorted(..., reverse=True)`
      keeps equal keys in their original order, as the stable sort does. */
  function PlacerSizes(allowed: seq<BrickSize>): (r: seq<BrickSize>)
    ensures multiset(r) == multiset(SourceSizes(allowed))
  {
    SortDesc(SourceSizes(allowed), AreaKey)
  }

  /** The try order is by non-increasing footprint, holds exactly the
      source list's entries, and keeps entries of equal footprint in the
      source list's order. */
  lemma PlacerSizesOrder(allowed: seq<BrickSize>)
    ensures SortedDesc(PlacerSizes(allowed), AreaKey)
    ensures multiset(PlacerSizes(allowed)) == multiset(SourceSizes(allowed))
    ensures forall v :: KeyFilter(PlacerSizes(allowed), AreaKey, v) == KeyFilter(SourceSizes(allowed), AreaKey, v)
  {
    SortDescCorrect(SourceSizes(allowed), AreaKey);
  }

  /** `d_voxels = max(1, int(height / voxel_size))`: the number of voxel
      layers a brick of the class covers, where `quotient(kind)` is the
      truncated quotient of the class height by the voxel size. */
  function CoveredLayers(quotient: string -> int, kind: string): (n: int)
    ensures n >= 1 && n >= quotient(kind)
    ensures quotient(kind) >= 1 ==> n == quotient(kind)
  {
    Max(1, quotient(kind))
  }

  /** The quotient at the default voxel size, one stud (7.8 mm), in exact
      arithmetic on tenths of a millimetre; 96/78 and 32/78 truncate as the
      floats 9.6/7.8 and 3.2/7.8 do. */
  function StudQuotient(kind: string): int {
    GetBrickHeight(kind) as int / STUD_SIZE_TENTHS as int
  }

  /** At the default voxel size every class covers exactly one layer,
      whatever height the catalog records for the size. */
  lemma DefaultCoversOneLayer(kind: string)
    ensures CoveredLayers(StudQuotient, kind) == 1
  {
  }

  /** The colour of a cube at (x, y, z): a palette entry fixed by the
      position, or white when colours are off. */
  function PlacerColor(x: int, y: int, z: int, useColors: bool): (c: string)
    ensures useColors ==> c in LEGO_COLORS && c == LEGO_COLORS[(x + y + z) % 19]
    ensures !useColors ==> c == WHITE
  {
    if useColors then LEGO_COLORS[(x + y + z) % |LEGO_COLORS|] else WHITE
  }

  /** The cells a size marks as covered at (x, y, z). */
  function CoverBox(x: int, y: int, z: int, s: BrickSize, quotient: string -> int): Box {
    Box(x, y, z, s.w, s.h, CoveredLayers(quotient, s.kind))
  }

  /** The acceptance test: the box stays below the far faces of the grid
      and every one of its cells is set and not yet covered. */
  predicate Fits(g: VoxelGrid, covered: set<Cell>, b: Box) {
    && b.x + b.w <= g.dims.width && b.y + b.h <= g.dims.height && b.z + b.d <= g.dims.depth
    && Cells(b) <= g.cells - covered
  }

  /** The first size, from position i of the try order on, that fits at
      (x, y, z). */
  function FirstFitting(g: VoxelGrid, covered: set<Cell>, x: int, y: int, z: int, sizes: seq<BrickSize>,
                        quotient: string -> int, i: nat): (r: Option<nat>)
    requires i <= |sizes|
    ensures r.Some? ==> i <= r.value < |sizes| && Fits(g, covered, CoverBox(x, y, z, sizes[r.value], quotient))
    decreases |sizes| - i
  {
    if i == |sizes| then None
    else if Fits(g, covered, CoverBox(x, y, z, sizes[i], quotient)) then Some(i)
    else FirstFitting(g, covered, x, y, z, sizes, quotient, i + 1)
  }

  /** The size chosen is the first of the try order that fits, and none is
      chosen exactly when none fits. */
  lemma {:induction false} FirstFittingFirst(g: VoxelGrid, covered: set<Cell>, x: int, y: int, z: int, sizes: seq<BrickSize>,
                                             quotient: string -> int, i: nat)
    requires i <= |sizes|
    ensures var r := FirstFitting(g, covered, x, y, z, sizes, quotient, i);
      r.Some? ==> forall k :: i <= k < r.value ==> !Fits(g, covered, CoverBox(x, y, z, sizes[k], quotient))
    ensures FirstFitting(g, covered, x, y, z, sizes, quotient, i).None?
            <==> forall k :: i <= k < |sizes| ==> !Fits(g, covered, CoverBox(x, y, z, sizes[k], quotient))
    decreases |sizes| - i
  {
    if i < |sizes| && !Fits(g, covered, CoverBox(x, y, z, sizes[i], quotient)) {
      FirstFittingFirst(g, covered, x, y, z, sizes, quotient, i + 1);
    }
  }

  /** One accepted placement: the size used, the cube as reported (with
      the catalog's d) and the box of cells it marks as covered (with the
      class's voxel layers). */
  datatype Placed = Placed(size: BrickSize, cube: Cube, cover: Box)

  /** What the scan commits at in-grid cell (z, y, x): nothing when the
      cell is empty or already covered or no size fits, otherwise the
      first size that fits. */
  function Visit(g: VoxelGrid, sizes: seq<BrickSize>, quotient: string -> int, useColors: bool,
                 covered: set<Cell>, z: int, y: int, x: int): Option<Placed>
  {
    if Cell(z, y, x) in g.cells && Cell(z, y, x) !in covered then
      match FirstFitting(g, covered, x, y, z, sizes, quotient, 0)
      case None => None
      case Some(k) => Some(PlacedAt(x, y, z, sizes[k], quotient, useColors))
    else None
  }

  function Emitted(o: Option<Placed>): seq<Placed> {
    if o.Some? then [o.value] else []
  }

  function CoveredAfter(covered: set<Cell>, o: Option<Placed>): set<Cell> {
    if o.Some? then covered + Cells(o.value.cover) else covered
  }

  /** The scan from cell (z, y, x) on, row-major, with `covered` the cells
      marked so far. */
  function PlaceFrom(g: VoxelGrid, sizes: seq<BrickSize>, quotient: string -> int, useColors: bool,
                     covered: set<Cell>, z: int, y: int, x: int): seq<Placed>
    decreases g.dims.depth - z, g.dims.height - y, g.dims.width - x
  {
    if z >= g.dims.depth then []
    else if y >= g.dims.height then PlaceFrom(g, sizes, quotient, useColors, covered, z + 1, 0, 0)
    else if x >= g.dims.width then PlaceFrom(g, sizes, quotient, useColors, covered, z, y + 1, 0)
    else
      var o := Visit(g, sizes, quotient, useColors, covered, z, y, x);
      Emitted(o) + PlaceFrom(g, sizes, quotient, useColors, CoveredAfter(covered, o), z, y, x + 1)
  }

  /** A placement as the pass records it: a size of the list at a
      non-negative origin, the reported cube carrying the catalog extents,
      the origin's colour and the size's class, and the covered box the
      same footprint over the class's voxel layers, inside the grid. */
  ghost predicate WellPlaced(p: Placed, g: VoxelGrid, sizes: seq<BrickSize>, quotient: string -> int, useColors: bool) {
    var o := p.cube.box;
    && p.size in sizes
    && o.x >= 0 && o.y >= 0 && o.z >= 0
    && o == Box(o.x, o.y, o.z, p.size.w, p.size.h, p.size.d)
    && p.cover == CoverBox(o.x, o.y, o.z, p.size, quotient)
    && p.cube.color == PlacerColor(o.x, o.y, o.z, useColors)
    && p.cube.kind == Some(p.size.kind)
    && BoxInGrid(g.dims, p.cover)
  }

  /** Every placement of the pass is well formed. */
  ghost predicate AllWellPlaced(r: seq<Placed>, g: VoxelGrid, sizes: seq<BrickSize>, quotient: string -> int, useColors: bool) {
    forall i :: 0 <= i < |r| ==> WellPlaced(r[i], g, sizes, quotient, useColors)
  }

  /** Every placement covers only cells set in the grid and outside `covered`. */
  ghost predicate AllFree(r: seq<Placed>, g: VoxelGrid, covered: set<Cell>) {
    forall i :: 0 <= i < |r| ==> Cells(r[i].cover) <= g.cells - covered
  }

  /** Two placements cover no common cell. */
  ghost predicate Apart(a: Placed, b: Placed) {
    Cells(a.cover) !! Cells(b.cover)
  }

  /** No two placements cover a common cell. */
  ghost predicate CoversDisjoint(r: seq<Placed>) {
    forall i, j :: 0 <= i < j < |r| ==> Apart(r[i], r[j])
  }

  /** The placement committed at (x, y, z) with size s. */
  function PlacedAt(x: int, y: int, z: int, s: BrickSize, quotient: string -> int, useColors: bool): Placed {
    Placed(s, Cube(Box(x, y, z, s.w, s.h, s.d), PlacerColor(x, y, z, useColors), Some(s.kind)), CoverBox(x, y, z, s, quotient))
  }

  /** A committed placement is well formed when the cell is in the grid
      and covers only set, uncovered cells. */
  lemma VisitSound(g: VoxelGrid, sizes: seq<BrickSize>, quotient: string -> int, useColors: bool,
                   covered: set<Cell>, z: int, y: int, x: int)
    requires 0 <= z && 0 <= y && 0 <= x
    ensures var o := Visit(g, sizes, quotient, useColors, covered, z, y, x);
      o.Some? ==> WellPlaced(o.value, g, sizes, quotient, useColors) && Cells(o.value.cover) <= g.cells - covered
  {
  }

  lemma ConsShape(o: Option<Placed>, rest: seq<Placed>, g: VoxelGrid, sizes: seq<BrickSize>, quotient: string -> int, useColors: bool)
    requires o.Some? ==> WellPlaced(o.value, g, sizes, quotient, useColors)
    requires AllWellPlaced(rest, g, sizes, quotient, useColors)
    ensures AllWellPlaced(Emitted(o) + rest, g, sizes, quotient, useColors)
  {
    assert forall i :: |Emitted(o)| <= i < |Emitted(o) + rest| ==> (Emitted(o) + rest)[i] == rest[i - |Emitted(o)|];
  }

  lemma {:induction false} PlaceFromShape(g: VoxelGrid, sizes: seq<BrickSize>, quotient: string -> int, useColors: bool,
                                          covered: set<Cell>, z: int, y: int, x: int)
    requires 0 <= z && 0 <= y && 0 <= x
    ensures AllWellPlaced(PlaceFrom(g, sizes, quotient, useColors, covered, z, y, x), g, sizes, quotient, useColors)
    decreases g.dims.depth - z, g.dims.height - y, g.dims.width - x
  {
    if z >= g.dims.depth {
    } else if y >= g.dims.height {
      assert PlaceFrom(g, sizes, quotient, useColors, covered, z, y, x) == PlaceFrom(g, sizes, quotient, useColors, covered, z + 1, 0, 0);
      PlaceFromShape(g, sizes, quotient, useColors, covered, z + 1, 0, 0);
    } else if x >= g.dims.width {
      assert PlaceFrom(g, sizes, quotient, useColors, covered, z, y, x) == PlaceFrom(g, sizes, quotient, useColors, covered, z, y + 1, 0);
      PlaceFromShape(g, sizes, quotient, useColors, covered, z, y + 1, 0);
    } else {
      var o := Visit(g, sizes, quotient, useColors, covered, z, y, x);
      var rest := PlaceFrom(g, sizes, quotient, useColors, CoveredAfter(covered, o), z, y, x + 1);
      assert PlaceFrom(g, sizes, quotient, useColors, covered, z, y, x) == Emitted(o) + rest;
      VisitSound(g, sizes, quotient, useColors, covered, z, y, x);
      PlaceFromShape(g, sizes, quotient, useColors, CoveredAfter(covered, o), z, y, x + 1);
      ConsShape(o, rest, g, sizes, quotient, useColors);
    }
  }

  /** Each placement covers only set cells that neither `covered` nor an
      earlier placement covers. */
  ghost predicate FreeChain(r: seq<Placed>, g: VoxelGrid, covered: set<Cell>)
    decreases |r|
  {
    r == [] || (Cells(r[0].cover) <= g.cells - covered && FreeChain(r[1..], g, covered + Cells(r[0].cover)))
  }

  /** A free chain covers only free cells, with no cell covered twice. */
  lemma {:induction false} ChainApart(r: seq<Placed>, g: VoxelGrid, covered: set<Cell>)
    requires FreeChain(r, g, covered)
    ensures AllFree(r, g, covered) && CoversDisjoint(r)
    decreases |r|
  {
    if r != [] {
      var first := Cells(r[0].cover);
      var tail := r[1..];
      ChainApart(tail, g, covered + first);
      forall i | 0 <= i < |r|
        ensures Cells(r[i].cover) <= g.cells - covered
      {
        if i > 0 {
          assert r[i] == tail[i - 1];
        }
      }
      forall i, j | 0 <= i < j < |r|
        ensures Apart(r[i], r[j])
      {
        assert r[j] == tail[j - 1];
        if i > 0 {
          assert r[i] == tail[i - 1];
        }
      }
    }
  }

  lemma ConsChain(o: Option<Placed>, rest: seq<Placed>, g: VoxelGrid, covered: set<Cell>)
    requires o.Some? ==> Cells(o.value.cover) <= g.cells - covered
    requires FreeChain(rest, g, CoveredAfter(covered, o))
    ensures FreeChain(Emitted(o) + rest, g, covered)
  {
    var r := Emitted(o) + rest;
    if o.Some? {
      assert r[0] == o.value;
      assert r[1..] == rest;
    } else {
      assert r == rest;
    }
  }

  /** The scan's placements form a free chain over the cells marked before
      it starts. */
  lemma {:induction false} PlaceFromChain(g: VoxelGrid, sizes: seq<BrickSize>, quotient: string -> int, useColors: bool,
                                          covered: set<Cell>, z: int, y: int, x: int)
    requires 0 <= z && 0 <= y && 0 <= x
    ensures FreeChain(PlaceFrom(g, sizes, quotient, useColors, covered, z, y, x), g, covered)
    decreases g.dims.depth - z, g.dims.height - y, g.dims.width - x
  {
    if z >= g.dims.depth {
    } else if y >= g.dims.height {
      PlaceFromChain(g, sizes, quotient, useColors, covered, z + 1, 0, 0);
    } else if x >= g.dims.width {
      PlaceFromChain(g, sizes, quotient, useColors, covered, z, y + 1, 0);
    } else {
      var o := Visit(g, sizes, quotient, useColors, covered, z, y, x);
      PlaceFromChain(g, sizes, quotient, useColors, CoveredAfter(covered, o), z, y, x + 1);
      ChainStep(g, sizes, quotient, useColors, covered, z, y, x);
    }
  }

  /** The scan from an in-grid cell is a free chain when the scan from the
      next cell is one over the cells marked after this one. */
  lemma ChainStep(g: VoxelGrid, sizes: seq<BrickSize>, quotient: string -> int, useColors: bool,
                  covered: set<Cell>, z: int, y: int, x: int)
    requires 0 <= z < g.dims.depth && 0 <= y < g.dims.height && 0 <= x < g.dims.width
    requires var o := Visit(g, sizes, quotient, useColors, covered, z, y, x);
      FreeChain(PlaceFrom(g, sizes, quotient, useColors, CoveredAfter(covered, o), z, y, x + 1), g, CoveredAfter(covered, o))
    ensures FreeChain(PlaceFrom(g, sizes, quotient, useColors, covered, z, y, x), g, covered)
  {
    var o := Visit(g, sizes, quotient, useColors, covered, z, y, x);
    var rest := PlaceFrom(g, sizes, quotient, useColors, CoveredAfter(covered, o), z, y, x + 1);
    assert PlaceFrom(g, sizes, quotient, useColors, covered, z, y, x) == Emitted(o) + rest;
    VisitSound(g, sizes, quotient, useColors, covered, z, y, x);
    ConsChain(o, rest, g, covered);
  }

  /** The scan covers only set cells not marked before it starts. */
  lemma PlaceFromFree(g: VoxelGrid, sizes: seq<BrickSize>, quotient: string -> int, useColors: bool,
                      covered: set<Cell>, z: int, y: int, x: int)
    requires 0 <= z && 0 <= y && 0 <= x
    ensures AllFree(PlaceFrom(g, sizes, quotient, useColors, covered, z, y, x), g, covered)
  {
    PlaceFromChain(g, sizes, quotient, useColors, covered, z, y, x);
    ChainApart(PlaceFrom(g, sizes, quotient, useColors, covered, z, y, x), g, covered);
  }

  /** No cell is covered by two placements of the scan. */
  lemma PlaceFromDisjoint(g: VoxelGrid, sizes: seq<BrickSize>, quotient: string -> int, useColors: bool,
                          covered: set<Cell>, z: int, y: int, x: int)
    requires 0 <= z && 0 <= y && 0 <= x
    ensures CoversDisjoint(PlaceFrom(g, sizes, quotient, useColors, covered, z, y, x))
  {
    PlaceFromChain(g, sizes, quotient, useColors, covered, z, y, x);
    ChainApart(PlaceFrom(g, sizes, quotient, useColors, covered, z, y, x), g, covered);
  }

  /** Some placement of the pass covers cell c. */
  ghost predicate CoveredBy(r: seq<Placed>, c: Cell) {
    exists i :: 0 <= i < |r| && c in Cells(r[i].cover)
  }

  /** The try order holds a 1x1 size whose class covers one voxel layer,
      so that every set, uncovered cell can take at least that size. */
  predicate UnitFits(sizes: seq<BrickSize>, quotient: string -> int) {
    exists k :: 0 <= k < |sizes| && sizes[k].w == 1 && sizes[k].h == 1 && CoveredLayers(quotient, sizes[k].kind) == 1
  }

  /** At a set, uncovered cell, some size is committed when the unit size
      is on the list, and its covered box holds the cell when all sizes
      have positive footprints. */
  lemma VisitCommits(g: VoxelGrid, sizes: seq<BrickSize>, quotient: string -> int, useColors: bool,
                     covered: set<Cell>, z: int, y: int, x: int)
    requires UnitFits(sizes, quotient) && PositiveSizes(sizes)
    requires InGrid(g.dims, Cell(z, y, x)) && Cell(z, y, x) in g.cells - covered
    ensures var o := Visit(g, sizes, quotient, useColors, covered, z, y, x);
      o.Some? && Cell(z, y, x) in Cells(o.value.cover)
  {
    var k :| 0 <= k < |sizes| && sizes[k].w == 1 && sizes[k].h == 1 && CoveredLayers(quotient, sizes[k].kind) == 1;
    var unit := CoverBox(x, y, z, sizes[k], quotient);
    assert Cells(unit) == {Cell(z, y, x)};
    FirstFittingFirst(g, covered, x, y, z, sizes, quotient, 0);
    var f := FirstFitting(g, covered, x, y, z, sizes, quotient, 0);
    assert f.Some?;
    assert sizes[f.value].Positive();
  }

  lemma {:induction false} PlaceFromCovers(g: VoxelGrid, sizes: seq<BrickSize>, quotient: string -> int, useColors: bool,
                                           covered: set<Cell>, z: int, y: int, x: int, c: Cell)
    requires 0 <= z && 0 <= y && 0 <= x
    requires UnitFits(sizes, quotient) && PositiveSizes(sizes)
    requires InGrid(g.dims, c) && c in g.cells && !Precedes(c, Cell(z, y, x))
    ensures c in covered || CoveredBy(PlaceFrom(g, sizes, quotient, useColors, covered, z, y, x), c)
    decreases g.dims.depth - z, g.dims.height - y, g.dims.width - x
  {
    if z >= g.dims.depth {
    } else if y >= g.dims.height {
      assert PlaceFrom(g, sizes, quotient, useColors, covered, z, y, x) == PlaceFrom(g, sizes, quotient, useColors, covered, z + 1, 0, 0);
      PlaceFromCovers(g, sizes, quotient, useColors, covered, z + 1, 0, 0, c);
    } else if x >= g.dims.width {
      assert PlaceFrom(g, sizes, quotient, useColors, covered, z, y, x) == PlaceFrom(g, sizes, quotient, useColors, covered, z, y + 1, 0);
      PlaceFromCovers(g, sizes, quotient, useColors, covered, z, y + 1, 0, c);
    } else {
      var o := Visit(g, sizes, quotient, useColors, covered, z, y, x);
      var rest := PlaceFrom(g, sizes, quotient, useColors, CoveredAfter(covered, o), z, y, x + 1);
      assert PlaceFrom(g, sizes, quotient, useColors, covered, z, y, x) == Emitted(o) + rest;
      if c == Cell(z, y, x) {
        if c !in covered {
          VisitCommits(g, sizes, quotient, useColors, covered, z, y, x);
        }
      } else {
        PlaceFromCovers(g, sizes, quotient, useColors, CoveredAfter(covered, o), z, y, x + 1, c);
      }
      ConsCovers(o, rest, covered, c);
    }
  }

  lemma ConsCovers(o: Option<Placed>, rest: seq<Placed>, covered: set<Cell>, c: Cell)
    requires c in CoveredAfter(covered, o) || CoveredBy(rest, c)
    ensures c in covered || CoveredBy(Emitted(o) + rest, c)
  {
    var r := Emitted(o) + rest;
    if c in covered {
    } else if c in CoveredAfter(covered, o) {
      assert r[0] == o.value;
    } else {
      var i :| 0 <= i < |rest| && c in Cells(rest[i].cover);
      assert r[i + |Emitted(o)|] == rest[i];
    }
  }

  /** The grid the pass works on: the filled grid when asked, otherwise
      the caller's grid. */
  function WorkGrid(g: VoxelGrid, fillHollow: bool): (r: VoxelGrid)
    requires g.Valid()
    ensures r.Valid() && r.dims == g.dims
  {
    if fillHollow then Facade.Filled(g) else g
  }

  /** The pass over the (optionally filled) grid, before the cubes are
      read off. */
  function PlacerRun(g: VoxelGrid, allowed: seq<BrickSize>, fillHollow: bool, quotient: string -> int, useColors: bool): seq<Placed>
    requires g.Valid()
  {
    PlaceFrom(WorkGrid(g, fillHollow), PlacerSizes(allowed), quotient, useColors, {}, 0, 0, 0)
  }

  function CubesOf(r: seq<Placed>): (cs: seq<Cube>)
    ensures |cs| == |r| && forall i :: 0 <= i < |r| ==> cs[i] == r[i].cube
  {
    seq(|r|, i requires 0 <= i < |r| => r[i].cube)
  }

  /** `BrickPlacer.place_bricks(voxel_array, use_colors, allowed_sizes,
      fill_hollow, ...)`. The caller's array is copied, `minimal_support`
      and the progress callback are never read, and the stored strategy is
      not used. */
  function PlaceBricks(p: Placer, g: VoxelGrid, useColors: bool, allowed: seq<BrickSize>, fillHollow: bool,
                       quotient: string -> int): (r: seq<Cube>)
    requires g.Valid()
    ensures |r| == |PlacerRun(g, allowed, fillHollow, quotient, useColors)|
  {
    CubesOf(PlacerRun(g, allowed, fillHollow, quotient, useColors))
  }

  /** The pass marks pairwise-disjoint boxes of set cells of the grid it
      works on (the filled grid when asked), inside the grid; each cube has
      a size of the given list, or of the catalog when the list is empty,
      at its origin, the colour of its position and the size's class. */
  lemma PlacerSound(g: VoxelGrid, allowed: seq<BrickSize>, fillHollow: bool, quotient: string -> int, useColors: bool)
    requires g.Valid()
    ensures var work := WorkGrid(g, fillHollow);
      && AllWellPlaced(PlacerRun(g, allowed, fillHollow, quotient, useColors), work, PlacerSizes(allowed), quotient, useColors)
      && AllFree(PlacerRun(g, allowed, fillHollow, quotient, useColors), work, {})
    ensures CoversDisjoint(PlacerRun(g, allowed, fillHollow, quotient, useColors))
    ensures forall s :: s in PlacerSizes(allowed) <==> s in SourceSizes(allowed)
  {
    var work := WorkGrid(g, fillHollow);
    PlaceFromShape(work, PlacerSizes(allowed), quotient, useColors, {}, 0, 0, 0);
    PlaceFromFree(work, PlacerSizes(allowed), quotient, useColors, {}, 0, 0, 0);
    PlaceFromDisjoint(work, PlacerSizes(allowed), quotient, useColors, {}, 0, 0, 0);
    forall s
      ensures s in PlacerSizes(allowed) <==> s in SourceSizes(allowed)
    {
      assert s in PlacerSizes(allowed) <==> s in multiset(PlacerSizes(allowed));
      assert s in SourceSizes(allowed) <==> s in multiset(SourceSizes(allowed));
    }
  }

  /** Without the fill, every covered cell was set in the caller's grid. */
  lemma PlacerStaysOnModel(g: VoxelGrid, allowed: seq<BrickSize>, quotient: string -> int, useColors: bool)
    requires g.Valid()
    ensures AllFree(PlacerRun(g, allowed, false, quotient, useColors), g, {})
  {
    PlaceFromFree(g, PlacerSizes(allowed), quotient, useColors, {}, 0, 0, 0);
  }

  /** Sorting keeps the completeness conditions: the try order holds the
      unit size and only positive sizes when the source list does. */
  lemma SortKeepsUnit(allowed: seq<BrickSize>, quotient: string -> int)
    requires UnitFits(SourceSizes(allowed), quotient) && PositiveSizes(SourceSizes(allowed))
    ensures UnitFits(PlacerSizes(allowed), quotient) && PositiveSizes(PlacerSizes(allowed))
  {
    PermutationKeepsUnit(SourceSizes(allowed), PlacerSizes(allowed), quotient);
  }

  lemma PermutationKeepsUnit(src: seq<BrickSize>, sizes: seq<BrickSize>, quotient: string -> int)
    requires multiset(src) == multiset(sizes)
    requires UnitFits(src, quotient) && PositiveSizes(src)
    ensures UnitFits(sizes, quotient) && PositiveSizes(sizes)
  {
    var k :| 0 <= k < |src| && src[k].w == 1 && src[k].h == 1 && CoveredLayers(quotient, src[k].kind) == 1;
    var m := SameMember(src, sizes, k);
    forall i | 0 <= i < |sizes|
      ensures sizes[i].Positive()
    {
      var j := SameMember(sizes, src, i);
    }
  }

  /** An element of a sequence is at some position of any permutation of
      it. */
  lemma SameMember(a: seq<BrickSize>, b: seq<BrickSize>, k: int) returns (m: int)
    requires multiset(a) == multiset(b) && 0 <= k < |a|
    ensures 0 <= m < |b| && b[m] == a[k]
  {
    assert a[k] in multiset(b);
    m :| 0 <= m < |b| && b[m] == a[k];
  }

  /** A whole pass over a valid grid covers every set cell. */
  lemma GridCovered(g: VoxelGrid, sizes: seq<BrickSize>, quotient: string -> int, useColors: bool)
    requires g.Valid()
    requires UnitFits(sizes, quotient) && PositiveSizes(sizes)
    ensures forall c :: c in g.cells ==> CoveredBy(PlaceFrom(g, sizes, quotient, useColors, {}, 0, 0, 0), c)
  {
    forall c | c in g.cells
      ensures CoveredBy(PlaceFrom(g, sizes, quotient, useColors, {}, 0, 0, 0), c)
    {
      PlaceFromCovers(g, sizes, quotient, useColors, {}, 0, 0, 0, c);
    }
  }

  /** With a unit size on the list and positive sizes, every set cell of
      the grid the pass works on ends up covered; with the cells covered
      being set cells (`PlacerSound`), the covered boxes partition the
      working grid's cells. */
  lemma PlacerCovers(g: VoxelGrid, allowed: seq<BrickSize>, fillHollow: bool, quotient: string -> int, useColors: bool)
    requires g.Valid()
    requires UnitFits(SourceSizes(allowed), quotient) && PositiveSizes(SourceSizes(allowed))
    ensures var work := WorkGrid(g, fillHollow);
      forall c :: c in work.cells ==> CoveredBy(PlacerRun(g, allowed, fillHollow, quotient, useColors), c)
  {
    SortKeepsUnit(allowed, quotient);
    var work := WorkGrid(g, fillHollow);
    GridCovered(work, PlacerSizes(allowed), quotient, useColors);
  }

  /** The catalog, at the default voxel size, meets the completeness
      conditions: it holds the 1x1x1 brick and only positive sizes. */
  lemma CatalogCovers()
    ensures UnitFits(SourceSizes([]), StudQuotient) && PositiveSizes(SourceSizes([]))
  {
    CatalogPositive();
    CatalogHasUnitBrick();
    DefaultCoversOneLayer(BRICK_SIZES[0].kind);
  }

  /** The result does not depend on the stored strategy. */
  lemma StrategyIgnored(p: Placer, q: Placer, g: VoxelGrid, useColors: bool, allowed: seq<BrickSize>, fillHollow: bool,
                        quotient: string -> int)
    requires g.Valid()
    ensures PlaceBricks(p, g, useColors, allowed, fillHollow, quotient) == PlaceBricks(q, g, useColors, allowed, fillHollow, quotient)
  {
  }
}

=== FILE: config.dfy ===
/** Static configuration: the brick catalog, the per-class height table,
    the colour palette and the two physical constants of the lateral
    support test. Lengths are held as integer tenths of a millimetre so
    that the source's float constants (7.8, 8.0, 9.6, 3.2) are exact. */
module Config {

  /** One catalog entry: width (x), depth-in-plane (y), height units (z)
      and class name. */
  datatype BrickSize = BrickSize(w: int, h: int, d: int, kind: string) {
    function Volume(): int { w * h * d }
    function Area(): int { w * h }
    predicate Positive() { w >= 1 && h >= 1 && d >= 1 }
  }

  /** STUD_SIZE = 7.8 mm and MIN_OVERLAP = 8.0 mm, in tenths of a mm. */
  const STUD_SIZE_TENTHS: nat := 78
  const MIN_OVERLAP_TENTHS: nat := 80

  /** Heights of one layer of each class, in tenths of a mm. */
  const BRICK_HEIGHT_TENTHS: nat := 96
  const PLATE_HEIGHT_TENTHS: nat := 32

  const BLACK: string := "#000000"
  const WHITE: string := "#FFFFFF"

  const LEGO_COLORS: seq<string> := [
    "#FF0000", "#0000FF", "#FFFF00", "#008000", "#000000", "#FFFFFF",
    "#FFA500", "#800080", "#A52A2A", "#008080", "#FF69B4", "#645452",
    "#C0C0C0", "#FFD700", "#2F4F4F", "#FFC0CB", "#87CEEB", "#98FB98", "#F5F5DC"
  ]

  const BRICK_SIZES: seq<BrickSize> := [
    BrickSize(1, 1, 1, "brick"), BrickSize(1, 2, 1, "brick"), BrickSize(1, 3, 1, "brick"),
    BrickSize(1, 4, 1, "brick"), BrickSize(1, 6, 1, "brick"), BrickSize(2, 2, 1, "brick"),
    BrickSize(2, 3, 1, "brick"), BrickSize(2, 4, 1, "brick"), BrickSize(2, 6, 1, "brick"),
    BrickSize(3, 3, 1, "brick"), BrickSize(4, 4, 1, "brick"),
    BrickSize(1, 1, 2, "brick"), BrickSize(1, 2, 2, "brick"), BrickSize(2, 2, 2, "brick"),
    BrickSize(2, 4, 2, "brick"),
    BrickSize(1, 1, 1, "plate"), BrickSize(1, 2, 1, "plate"), BrickSize(1, 3, 1, "plate"),
    BrickSize(1, 4, 1, "plate"), BrickSize(1, 6, 1, "plate"), BrickSize(2, 2, 1, "plate"),
    BrickSize(2, 3, 1, "plate"), BrickSize(2, 4, 1, "plate"), BrickSize(2, 6, 1, "plate"),
    BrickSize(3, 3, 1, "plate"), BrickSize(4, 2, 1, "plate"), BrickSize(4, 4, 1, "plate"),
    BrickSize(1, 1, 1, "tile"), BrickSize(1, 2, 1, "tile"), BrickSize(1, 4, 1, "tile"),
    BrickSize(2, 2, 1, "tile"), BrickSize(2, 4, 1, "tile")
  ]

  predicate NonNegativeSizes(sizes: seq<BrickSize>) {
    forall i :: 0 <= i < |sizes| ==> sizes[i].w >= 0 && sizes[i].h >= 0 && sizes[i].d >= 0
  }

  predicate PositiveSizes(sizes: seq<BrickSize>) {
    forall i :: 0 <= i < |sizes| ==> sizes[i].Positive()
  }

  predicate KnownClass(kind: string) {
    kind == "brick" || kind == "plate" || kind == "tile"
  }

  /** Height of one layer of the given class; unknown classes fall back to
      the brick height, as the lookup's default does. */
  function GetBrickHeight(kind: string): (r: nat)
    ensures r == PLATE_HEIGHT_TENTHS <==> kind == "plate" || kind == "tile"
    ensures r == BRICK_HEIGHT_TENTHS <==> !(kind == "plate" || kind == "tile")
  {
    if kind == "plate" || kind == "tile" then PLATE_HEIGHT_TENTHS else BRICK_HEIGHT_TENTHS
  }

  /** Colour of the i-th output cube: a palette entry chosen by the random
      draw `pick`, or black when colours are off. */
  function CubeColor(i: nat, useColors: bool, pick: nat -> nat): (c: string)
    ensures useColors ==> c in LEGO_COLORS
    ensures !useColors ==> c == BLACK
  {
    if useColors then LEGO_COLORS[pick(i) % |LEGO_COLORS|] else BLACK
  }

  /** The lateral test `n * STUD_SIZE >= MIN_OVERLAP` on a count of
      supported neighbour cells. */
  predicate LateralEnough(n: int) {
    n * STUD_SIZE_TENTHS as int >= MIN_OVERLAP_TENTHS as int
  }

  /** With the configured constants the lateral test means "at least two
      supported neighbour cells". */
  lemma LateralThreshold(n: nat)
    ensures LateralEnough(n) <==> n >= 2
  {
  }

  /** Every catalog entry has positive dimensions and a known class. */
  lemma CatalogWellFormed()
    ensures forall i :: 0 <= i < |BRICK_SIZES| ==> BRICK_SIZES[i].Positive() && KnownClass(BRICK_SIZES[i].kind)
  {
  }

  lemma CatalogPositive()
    ensures PositiveSizes(BRICK_SIZES) && NonNegativeSizes(BRICK_SIZES)
  {
    CatalogWellFormed();
  }

  /** The list holds a 1x1x1 entry. */
  predicate HasUnitSize(sizes: seq<BrickSize>) {
    exists k :: 0 <= k < |sizes| && sizes[k].w == 1 && sizes[k].h == 1 && sizes[k].d == 1
  }

  /** The catalog holds the 1x1x1 brick that the greedy layer probe uses. */
  lemma CatalogHasUnitBrick()
    ensures BRICK_SIZES[0] == BrickSize(1, 1, 1, "brick") && HasUnitSize(BRICK_SIZES)
  {
  }

  /** The largest catalog volume is 16, below the 24 the branch-and-bound
      heuristic divides by. */
  lemma CatalogMaxVolume()
    ensures forall i :: 0 <= i < |BRICK_SIZES| ==> BRICK_SIZES[i].Volume() <= 16
    ensures BRICK_SIZES[10].Volume() == 16 && BRICK_SIZES[14].Volume() == 16
  {
  }

  /** The palette has nineteen colours. */
  lemma PaletteSize()
    ensures |LEGO_COLORS| == 19
  {
  }
}

=== FILE: facade.dfy ===
/** The façade of brick_optimization.py: the block-size rule and the block
    tiling of the density analysis, the column fill applied before
    placement, the per-block driver `_process_block`, and `BrickPlacer`,
    whose `place_bricks` is a greedy of its own that never consults the
    strategy it stores. The method names of the pipeline (processing.py)
    live here too. */
module Facade {
  import opened Wrappers
  import opened Config
  import opened Voxels
  import opened Sorting
  import Greedy
  import BranchBound
  import Annealing
  import opened Arith

  const MIN_BLOCK_SIZE: int := 5
  const MAX_BLOCK_SIZE: int := 20

  // ---------------------------------------------------------------------
  // Block size

  /** `get_block_size`: a tenth of the mean extent, truncated, clamped to
      [5, 20]. For non-negative extents the float quotient sum/3/10
      truncates to the integer quotient sum/30: a multiple of 30 divides
      exactly, and any other sum stays at least 1/30 below the next
      integer, far beyond rounding error. */
  function GetBlockSize(d: Dims): (r: int)
    ensures MIN_BLOCK_SIZE <= r <= MAX_BLOCK_SIZE
  {
    Max(MIN_BLOCK_SIZE, Min(MAX_BLOCK_SIZE, (d.depth + d.height + d.width) / 30))
  }

  /** Between the clamps the block size is the truncated thirtieth of the
      extent sum; small grids get 5 and large ones 20. */
  lemma BlockSizeFormula(d: Dims)
    ensures var s := d.depth + d.height + d.width;
      && (150 <= s < 630 ==> 30 * GetBlockSize(d) <= s < 30 * (GetBlockSize(d) + 1))
      && (s < 180 ==> GetBlockSize(d) == MIN_BLOCK_SIZE)
      && (s >= 600 ==> GetBlockSize(d) == MAX_BLOCK_SIZE)
  {
    var s := d.depth + d.height + d.width;
    DivModUnique(s, 30, s / 30, s % 30);
  }

  /** A larger grid never gets a smaller block. */
  lemma BlockSizeMonotone(a: Dims, b: Dims)
    requires a.depth + a.height + a.width <= b.depth + b.height + b.width
    ensures GetBlockSize(a) <= GetBlockSize(b)
  {
    var s, t := a.depth + a.height + a.width, b.depth + b.height + b.width;
    DivMonotone(s, t, 30);
  }

  // ---------------------------------------------------------------------
  // Density tiling

  /** `analyze_voxel_density`, row loop: blocks along x at fixed (z, y);
      every block of the row has the z and y extents computed afresh in
      the inner loop, which depend only on z and y. */
  function TileRow(d: Dims, base: int, z: int, y: int, x: int): seq<Box>
    requires base >= 1
    decreases d.width - x
  {
    if x >= d.width then []
    else
      var zs := Min(base, d.depth - z);
      var ys := Min(base, d.height - y);
      var xs := Min(base, d.width - x);
      [Box(x, y, z, xs, ys, zs)] + TileRow(d, base, z, y, x + xs)
  }

  /** The y loop of one z slab. Its step `y += y_size` reads the extent
      bound inside the x loop, which is unbound when the grid has no
      columns: Python raises UnboundLocalError. */
  function TileLayer(d: Dims, base: int, z: int, y: int): Result<seq<Box>>
    requires base >= 1
    decreases d.height - y
  {
    if y >= d.height then Success([])
    else if d.width == 0 then Failure("local variable 'y_size' referenced before assignment")
    else
      var rest :- TileLayer(d, base, z, y + Min(base, d.height - y));
      Success(TileRow(d, base, z, y, 0) + rest)
  }

  /** The z loop; `z += z_size` likewise fails on a grid without rows. */
  function TileFrom(d: Dims, base: int, z: int): Result<seq<Box>>
    requires base >= 1
    decreases d.depth - z
  {
    if z >= d.depth then Success([])
    else if d.height == 0 then Failure("local variable 'z_size' referenced before assignment")
    else
      var layer :- TileLayer(d, base, z, 0);
      var rest :- TileFrom(d, base, z + Min(base, d.depth - z));
      Success(layer + rest)
  }

  /** `analyze_voxel_density(voxel_array, base_size)`: the blocks, each as
      a box at (x, y, z) with extents (x_size, y_size, z_size). With a base
      below 1 the source never leaves its loops on a non-empty grid. */
  function AnalyzeVoxelDensity(d: Dims, base: int): Result<seq<Box>>
    requires base >= 1
  {
    TileFrom(d, base, 0)
  }

  /** The start of the base-aligned stretch holding v. */
  function Snap(v: int, base: int): int
    requires base >= 1
  {
    v / base * base
  }

  function SnapCell(c: Cell, base: int): Cell
    requires base >= 1
  {
    Cell(Snap(c.z, base), Snap(c.y, base), Snap(c.x, base))
  }

  /** A block as the loops produce it: each coordinate a multiple of base
      inside the grid, each extent the shorter of base and the distance to
      the grid's far side. */
  predicate Aligned(d: Dims, base: int, b: Box) {
    && base >= 1
    && 0 <= b.z < d.depth && 0 <= b.y < d.height && 0 <= b.x < d.width
    && b.z % base == 0 && b.y % base == 0 && b.x % base == 0
    && b.d == Min(base, d.depth - b.z) && b.h == Min(base, d.height - b.y) && b.w == Min(base, d.width - b.x)
  }

  /** Block origins strictly increase in the row-major order z, y, x. */
  predicate InScanOrder(bs: seq<Box>) {
    forall i, j :: 0 <= i < j < |bs| ==> Precedes(bs[i].Origin(), bs[j].Origin())
  }

  lemma AlignedStep(x: int, base: int)
    requires base >= 1 && x % base == 0
    ensures (x + base) % base == 0
  {
    DivModUnique(x, base, x / base, 0);
    DivModUnique(x + base, base, x / base + 1, 0);
  }

  /** Every point of an aligned stretch snaps to the stretch's start. */
  lemma AlignedSnap(s: int, v: int, base: int)
    requires base >= 1 && s % base == 0 && s <= v < s + base
    ensures Snap(v, base) == s
  {
    var q := s / base;
    assert s == q * base + s % base;
    DivModUnique(v, base, q, v - s);
  }

  /** A point lies in the stretch of its snap. */
  lemma SnapBounds(v: int, base: int)
    requires base >= 1
    ensures Snap(v, base) <= v < Snap(v, base) + base && Snap(v, base) % base == 0
  {
    assert v == v / base * base + v % base;
    DivModUnique(Snap(v, base), base, v / base, 0);
  }

  /** The blocks of one row at (z, y) from x on: aligned, in the row, and
      strictly increasing in x. */
  ghost predicate RowShape(d: Dims, base: int, z: int, y: int, x: int, r: seq<Box>) {
    && (forall k :: 0 <= k < |r| ==> Aligned(d, base, r[k]) && r[k].z == z && r[k].y == y && r[k].x >= x)
    && (forall i, j :: 0 <= i < j < |r| ==> r[i].x < r[j].x)
  }

  /** Every column from x on has its aligned block in the row. */
  ghost predicate RowCovers(d: Dims, base: int, x: int, r: seq<Box>)
    requires base >= 1
  {
    forall v :: x <= v < d.width ==> HasStart(base, v, r)
  }

  /** Some block of the list starts at the aligned column of v. */
  ghost predicate HasStart(base: int, v: int, r: seq<Box>)
    requires base >= 1
  {
    exists k :: 0 <= k < |r| && r[k].x == Snap(v, base)
  }

  lemma {:induction false} RowShapeSpec(d: Dims, base: int, z: int, y: int, x: int)
    requires base >= 1 && 0 <= z < d.depth && z % base == 0 && 0 <= y < d.height && y % base == 0
    requires 0 <= x && (x % base == 0 || x >= d.width)
    ensures RowShape(d, base, z, y, x, TileRow(d, base, z, y, x))
    decreases d.width - x
  {
    if x < d.width {
      var xs := Min(base, d.width - x);
      var rest := TileRow(d, base, z, y, x + xs);
      var head := Box(x, y, z, xs, Min(base, d.height - y), Min(base, d.depth - z));
      assert TileRow(d, base, z, y, x) == [head] + rest;
      if xs == base {
        AlignedStep(x, base);
      }
      RowShapeSpec(d, base, z, y, x + xs);
      ConsRowShape(d, base, z, y, x, head, rest);
    }
  }

  /** An aligned block at column x in front of a row shaped from x + 1 on
      gives a row shaped from x on. */
  lemma ConsRowShape(d: Dims, base: int, z: int, y: int, x: int, head: Box, rest: seq<Box>)
    requires Aligned(d, base, head) && head.z == z && head.y == y && head.x == x && head.w >= 1
    requires RowShape(d, base, z, y, x + head.w, rest)
    ensures RowShape(d, base, z, y, x, [head] + rest)
  {
    var r := [head] + rest;
    forall k | 1 <= k < |r|
      ensures r[k] == rest[k - 1]
    {
    }
  }

  lemma {:induction false} RowCoversSpec(d: Dims, base: int, z: int, y: int, x: int)
    requires base >= 1 && 0 <= x && (x % base == 0 || x >= d.width)
    ensures RowCovers(d, base, x, TileRow(d, base, z, y, x))
    decreases d.width - x
  {
    if x < d.width {
      var xs := Min(base, d.width - x);
      var rest := TileRow(d, base, z, y, x + xs);
      var r := TileRow(d, base, z, y, x);
      assert r == [Box(x, y, z, xs, Min(base, d.height - y), Min(base, d.depth - z))] + rest;
      if xs == base {
        AlignedStep(x, base);
      }
      RowCoversSpec(d, base, z, y, x + xs);
      forall v | x <= v < d.width
        ensures HasStart(base, v, r)
      {
        if v < x + xs {
          AlignedSnap(x, v, base);
          assert r[0].x == Snap(v, base);
        } else {
          assert HasStart(base, v, rest);
          var k :| 0 <= k < |rest| && rest[k].x == Snap(v, base);
          assert r[k + 1] == rest[k];
        }
      }
    }
  }

  /** Concatenating two ordered lists, all of the first before all of the
      second, gives an ordered list. */
  lemma ConcatScanOrder(a: seq<Box>, b: seq<Box>)
    requires InScanOrder(a) && InScanOrder(b)
    requires forall i, j :: 0 <= i < |a| && 0 <= j < |b| ==> Precedes(a[i].Origin(), b[j].Origin())
    ensures InScanOrder(a + b)
  {
    var ab := a + b;
    forall i, j | 0 <= i < j < |ab|
      ensures Precedes(ab[i].Origin(), ab[j].Origin())
    {
      if j < |a| {
        assert ab[i] == a[i] && ab[j] == a[j];
      } else if i >= |a| {
        assert ab[i] == b[i - |a|] && ab[j] == b[j - |a|];
      } else {
        assert ab[i] == a[i] && ab[j] == b[j - |a|];
      }
    }
  }

  /** The blocks of one slab at z from row y on: aligned, in the slab,
      and in scan order. */
  ghost predicate LayerShape(d: Dims, base: int, z: int, y: int, r: seq<Box>) {
    && (forall k :: 0 <= k < |r| ==> Aligned(d, base, r[k]) && r[k].z == z && r[k].y >= y)
    && InScanOrder(r)
  }

  /** Every (row, column) from row y on has its aligned block in the slab. */
  ghost predicate LayerCovers(d: Dims, base: int, y: int, r: seq<Box>)
    requires base >= 1
  {
    forall v, u :: y <= v < d.height && 0 <= u < d.width ==> HasColumn(base, v, u, r)
  }

  /** Some block of the list starts at the aligned row and column of (v, u). */
  ghost predicate HasColumn(base: int, v: int, u: int, r: seq<Box>)
    requires base >= 1
  {
    exists k :: 0 <= k < |r| && r[k].y == Snap(v, base) && r[k].x == Snap(u, base)
  }

  lemma {:induction false} LayerShapeSpec(d: Dims, base: int, z: int, y: int)
    requires base >= 1 && 0 <= z < d.depth && z % base == 0 && d.width > 0
    requires 0 <= y && (y % base == 0 || y >= d.height)
    ensures TileLayer(d, base, z, y).Success?
    ensures LayerShape(d, base, z, y, TileLayer(d, base, z, y).value)
    decreases d.height - y
  {
    if y < d.height {
      var ys := Min(base, d.height - y);
      if ys == base {
        AlignedStep(y, base);
      }
      LayerShapeSpec(d, base, z, y + ys);
      var rest := TileLayer(d, base, z, y + ys).value;
      var row := TileRow(d, base, z, y, 0);
      RowShapeSpec(d, base, z, y, 0);
      var r := TileLayer(d, base, z, y).value;
      assert r == row + rest;
      assert InScanOrder(row) by {
        forall i, j | 0 <= i < j < |row|
          ensures Precedes(row[i].Origin(), row[j].Origin())
        {
        }
      }
      ConcatScanOrder(row, rest);
      forall k | 0 <= k < |r|
        ensures Aligned(d, base, r[k]) && r[k].z == z && r[k].y >= y
      {
        if k < |row| {
          assert r[k] == row[k];
        } else {
          assert r[k] == rest[k - |row|];
        }
      }
    }
  }

  lemma {:induction false} LayerCoversSpec(d: Dims, base: int, z: int, y: int)
    requires base >= 1 && 0 <= z < d.depth && z % base == 0 && d.width > 0
    requires 0 <= y && (y % base == 0 || y >= d.height)
    ensures TileLayer(d, base, z, y).Success?
    ensures LayerCovers(d, base, y, TileLayer(d, base, z, y).value)
    decreases d.height - y
  {
    if y < d.height {
      var ys := Min(base, d.height - y);
      if ys == base {
        AlignedStep(y, base);
      }
      LayerCoversSpec(d, base, z, y + ys);
      var rest := TileLayer(d, base, z, y + ys).value;
      var row := TileRow(d, base, z, y, 0);
      RowShapeSpec(d, base, z, y, 0);
      RowCoversSpec(d, base, z, y, 0);
      var r := TileLayer(d, base, z, y).value;
      assert r == row + rest;
      forall v, u | y <= v < d.height && 0 <= u < d.width
        ensures HasColumn(base, v, u, r)
      {
        if v < y + ys {
          AlignedSnap(y, v, base);
          assert HasStart(base, u, row);
          var k :| 0 <= k < |row| && row[k].x == Snap(u, base);
          assert r[k] == row[k];
        } else {
          assert HasColumn(base, v, u, rest);
          var k :| 0 <= k < |rest| && rest[k].y == Snap(v, base) && rest[k].x == Snap(u, base);
          assert r[k + |row|] == rest[k];
        }
      }
    }
  }

  /** The blocks from slab z on: aligned, at or above z, in scan order. */
  ghost predicate StackShape(d: Dims, base: int, z: int, r: seq<Box>) {
    && (forall k :: 0 <= k < |r| ==> Aligned(d, base, r[k]) && r[k].z >= z)
    && InScanOrder(r)
  }

  /** Every grid cell from slab z on has its aligned block in the list. */
  ghost predicate StackCovers(d: Dims, base: int, z: int, r: seq<Box>)
    requires base >= 1
  {
    forall c :: InGrid(d, c) && c.z >= z ==> exists k :: 0 <= k < |r| && r[k].Origin() == SnapCell(c, base)
  }

  lemma {:induction false} FromSpec(d: Dims, base: int, z: int)
    requires base >= 1 && d.height > 0 && d.width > 0
    requires 0 <= z && (z % base == 0 || z >= d.depth)
    ensures TileFrom(d, base, z).Success?
    ensures StackShape(d, base, z, TileFrom(d, base, z).value)
    ensures StackCovers(d, base, z, TileFrom(d, base, z).value)
    decreases d.depth - z
  {
    if z < d.depth {
      var zs := Min(base, d.depth - z);
      if zs == base {
        AlignedStep(z, base);
      }
      FromSpec(d, base, z + zs);
      LayerShapeSpec(d, base, z, 0);
      LayerCoversSpec(d, base, z, 0);
      var rest := TileFrom(d, base, z + zs).value;
      var layer := TileLayer(d, base, z, 0).value;
      assert TileFrom(d, base, z) == Success(layer + rest);
      StackShapeCons(d, base, z, zs, layer, rest);
      StackCoversCons(d, base, z, zs, layer, rest);
    }
  }

  /** A slab at z in front of a stack shaped from z + zs on is a stack
      shaped from z on. */
  lemma StackShapeCons(d: Dims, base: int, z: int, zs: int, layer: seq<Box>, rest: seq<Box>)
    requires zs >= 1
    requires LayerShape(d, base, z, 0, layer) && StackShape(d, base, z + zs, rest)
    ensures StackShape(d, base, z, layer + rest)
  {
    var r := layer + rest;
    ConcatScanOrder(layer, rest);
    forall k | 0 <= k < |r|
      ensures Aligned(d, base, r[k]) && r[k].z >= z
    {
      if k < |layer| {
        assert r[k] == layer[k];
      } else {
        assert r[k] == rest[k - |layer|];
      }
    }
  }

  /** A slab covering its rows and columns at z in front of a stack
      covering from z + zs on covers every cell from z on. */
  lemma StackCoversCons(d: Dims, base: int, z: int, zs: int, layer: seq<Box>, rest: seq<Box>)
    requires base >= 1 && 0 <= z && z % base == 0 && zs == Min(base, d.depth - z) && zs >= 1
    requires LayerShape(d, base, z, 0, layer) && LayerCovers(d, base, 0, layer)
    requires StackCovers(d, base, z + zs, rest)
    ensures StackCovers(d, base, z, layer + rest)
  {
    var r := layer + rest;
    forall c | InGrid(d, c) && c.z >= z
      ensures exists k :: 0 <= k < |r| && r[k].Origin() == SnapCell(c, base)
    {
      if c.z < z + zs {
        AlignedSnap(z, c.z, base);
        assert HasColumn(base, c.y, c.x, layer);
        var k :| 0 <= k < |layer| && layer[k].y == Snap(c.y, base) && layer[k].x == Snap(c.x, base);
        assert r[k] == layer[k];
      } else {
        var k :| 0 <= k < |rest| && rest[k].Origin() == SnapCell(c, base);
        assert r[k + |layer|] == rest[k];
      }
    }
  }

  /** Aligned blocks with different origins share no cell. */
  lemma AlignedDisjoint(d: Dims, base: int, a: Box, b: Box)
    requires Aligned(d, base, a) && Aligned(d, base, b) && a.Origin() != b.Origin()
    ensures Cells(a) !! Cells(b)
  {
    forall c | c in Cells(a) && c in Cells(b)
      ensures false
    {
      AlignedSnap(a.z, c.z, base);
      AlignedSnap(b.z, c.z, base);
      AlignedSnap(a.y, c.y, base);
      AlignedSnap(b.y, c.y, base);
      AlignedSnap(a.x, c.x, base);
      AlignedSnap(b.x, c.x, base);
    }
  }

  /** A grid cell lies in the aligned block at its snapped origin. */
  lemma SnapContains(d: Dims, base: int, b: Box, c: Cell)
    requires Aligned(d, base, b) && InGrid(d, c) && b.Origin() == SnapCell(c, base)
    ensures b.Contains(c)
  {
    SnapBounds(c.z, base);
    SnapBounds(c.y, base);
    SnapBounds(c.x, base);
  }

  /** The density analysis fails exactly on a grid with layers but no
      rows or no columns, and an empty stack of layers gives no block. */
  lemma DensityFailure(d: Dims, base: int)
    requires base >= 1
    ensures AnalyzeVoxelDensity(d, base).Failure? <==> d.depth > 0 && (d.height == 0 || d.width == 0)
    ensures d.depth == 0 ==> AnalyzeVoxelDensity(d, base) == Success([])
  {
    if d.depth > 0 && d.height > 0 && d.width > 0 {
      FromSpec(d, base, 0);
    } else if d.depth > 0 && d.height > 0 {
      assert TileLayer(d, base, 0, 0).Failure?;
    }
  }

  /** The blocks tile the grid: each lies inside it with every edge in
      [1, base], no two share a cell, and every grid cell is in one. */
  ghost predicate Tiles(d: Dims, base: int, bs: seq<Box>) {
    && (forall k :: 0 <= k < |bs| ==>
          BoxInGrid(d, bs[k]) && 1 <= bs[k].w <= base && 1 <= bs[k].h <= base && 1 <= bs[k].d <= base)
    && (forall i, j :: 0 <= i < j < |bs| ==> Cells(bs[i]) !! Cells(bs[j]))
    && (forall c :: InGrid(d, c) ==> exists k :: 0 <= k < |bs| && bs[k].Contains(c))
  }

  /** On a grid with positive extents the blocks tile it exactly and come
      out in z-major, then y, then x order of their origins. */
  lemma DensityTiling(d: Dims, base: int)
    requires base >= 1 && d.depth > 0 && d.height > 0 && d.width > 0
    ensures AnalyzeVoxelDensity(d, base).Success?
    ensures Tiles(d, base, AnalyzeVoxelDensity(d, base).value)
    ensures InScanOrder(AnalyzeVoxelDensity(d, base).value)
  {
    FromSpec(d, base, 0);
    var bs := AnalyzeVoxelDensity(d, base).value;
    forall i, j | 0 <= i < j < |bs|
      ensures Cells(bs[i]) !! Cells(bs[j])
    {
      AlignedDisjoint(d, base, bs[i], bs[j]);
    }
    forall c | InGrid(d, c)
      ensures exists k :: 0 <= k < |bs| && bs[k].Contains(c)
    {
      var k :| 0 <= k < |bs| && bs[k].Origin() == SnapCell(c, base);
      SnapContains(d, base, bs[k], c);
    }
  }

  // ---------------------------------------------------------------------
  // Column fill

  /** Some cell at or above c in its column is set. */
  predicate SetAtOrAbove(g: VoxelGrid, c: Cell) {
    exists z' :: c.z <= z' < g.dims.depth && Cell(z', c.y, c.x) in g.cells
  }

  /** The grid `fill_hollow_model` leaves: every grid cell with a set cell
      at or above it in its column. */
  function Filled(g: VoxelGrid): (r: VoxelGrid)
    ensures r.dims == g.dims && r.Valid()
    ensures forall c :: c in r.cells <==> InGrid(g.dims, c) && SetAtOrAbove(g, c)
  {
    var cs := set z, y, x | 0 <= z < g.dims.depth && 0 <= y < g.dims.height && 0 <= x < g.dims.width
                            && SetAtOrAbove(g, Cell(z, y, x)) :: Cell(z, y, x);
    assert forall c :: InGrid(g.dims, c) && SetAtOrAbove(g, c) ==> c in cs by {
      forall c | InGrid(g.dims, c) && SetAtOrAbove(g, c)
        ensures c in cs
      {
        assert c == Cell(c.z, c.y, c.x);
      }
    }
    VoxelGrid(g.dims, cs)
  }

  /** The cells set when the fill is about to test cell (z, y, x): the
      original ones, every finished column filled, and in the current
      column everything below a set cell among rows 1 to z-1. */
  ghost predicate FillState(g: VoxelGrid, c: Cell, y: int, x: int, z: int) {
    || c in g.cells
    || (InGrid(g.dims, c) && (c.y < y || (c.y == y && c.x < x)) && SetAtOrAbove(g, c))
    || (c.y == y && c.x == x && 0 <= c.z && exists z' :: c.z < z' < z && Cell(z', y, x) in g.cells)
  }

  /** `fill_hollow_model` as the source runs it, column by column, setting
      every cell below each set cell it meets going up. Only set cells of
      the array are read, so the result is the column rule: a cell ends up
      set iff it or a cell above it was set. */
  method FillHollow(g: VoxelGrid) returns (r: set<Cell>)
    requires g.Valid()
    ensures r == Filled(g).cells
  {
    var nz, ny, nx := g.dims.depth, g.dims.height, g.dims.width;
    r := g.cells;
    var y := 0;
    while y < ny
      invariant 0 <= y <= ny
      invariant forall c :: c in r <==> FillState(g, c, y, 0, 1)
    {
      var x := 0;
      while x < nx
        invariant 0 <= x <= nx
        invariant forall c :: c in r <==> FillState(g, c, y, x, 1)
      {
        var z := 1;
        while z < nz
          invariant 1 <= z <= Max(nz, 1)
          invariant forall c :: c in r <==> FillState(g, c, y, x, z)
        {
          if Cell(z, y, x) in r {
            assert Cell(z, y, x) in g.cells;
            r := r + set zb | 0 <= zb < z :: Cell(zb, y, x);
          }
          z := z + 1;
        }
        forall c
          ensures FillState(g, c, y, x, z) <==> FillState(g, c, y, x + 1, 1)
        {
          if c.y == y && c.x == x && InGrid(g.dims, c) && SetAtOrAbove(g, c) && c !in g.cells {
            var z' :| c.z <= z' < nz && Cell(z', c.y, c.x) in g.cells;
            assert c.z != z';
          }
        }
        x := x + 1;
      }
      y := y + 1;
    }
    forall c
      ensures c in r <==> c in Filled(g).cells
    {
      if c in g.cells {
        assert c == Cell(c.z, c.y, c.x);
      }
    }
  }

  /** The fill never clears a cell. */
  lemma FilledGrows(g: VoxelGrid)
    requires g.Valid()
    ensures g.cells <= Filled(g).cells
  {
    forall c | c in g.cells
      ensures c in Filled(g).cells
    {
      assert Cell(c.z, c.y, c.x) == c;
    }
  }

  /** Filled columns are solid from the ground to their top set cell. */
  lemma FilledDownward(g: VoxelGrid, c: Cell, z: int)
    requires c in Filled(g).cells && 0 <= z <= c.z
    ensures Cell(z, c.y, c.x) in Filled(g).cells
  {
    var z' :| c.z <= z' < g.dims.depth && Cell(z', c.y, c.x) in g.cells;
    assert SetAtOrAbove(g, Cell(z, c.y, c.x));
  }

  /** Filling twice is filling once. */
  lemma FilledIdempotent(g: VoxelGrid)
    requires g.Valid()
    ensures Filled(Filled(g)) == Filled(g)
  {
    var f := Filled(g);
    FilledGrows(f);
    forall c | c in Filled(f).cells
      ensures c in f.cells
    {
      var z' :| c.z <= z' < f.dims.depth && Cell(z', c.y, c.x) in f.cells;
      var z'' :| z' <= z'' < g.dims.depth && Cell(z'', c.y, c.x) in g.cells;
      assert SetAtOrAbove(g, c);
    }
  }

  // ---------------------------------------------------------------------
  // Placement methods

  /** The three placement strategies. */
  datatype Method = GreedyMethod | AnnealingMethod | BranchBoundMethod

  function MethodName(m: Method): string {
    match m
    case GreedyMethod => "greedy"
    case AnnealingMethod => "simulated_annealing"
    case BranchBoundMethod => "branch_and_bound"
  }

  /** The pipeline's choice of strategy: one of the three names, or
      ValueError. */
  function ParseMethod(name: string): (r: Result<Method>)
    ensures r.Success? ==> MethodName(r.value) == name
    ensures r.Failure? <==> forall m: Method :: MethodName(m) != name
  {
    if name == "greedy" then Success(GreedyMethod)
    else if name == "simulated_annealing" then Success(AnnealingMethod)
    else if name == "branch_and_bound" then Success(BranchBoundMethod)
    else
      Failure("Unknown placement method: " + name)
  }

  /** The façade's lookup `strategies.get(name, GreedyPlacementStrategy)`:
      an unknown name silently means greedy. */
  function StrategyFor(name: string): (m: Method)
    ensures ParseMethod(name).Success? ==> m == ParseMethod(name).value
    ensures ParseMethod(name).Failure? ==> m == GreedyMethod
  {
    match ParseMethod(name)
    case Success(m) => m
    case Failure(_) => GreedyMethod
  }

  /** Every method's name parses back to it, and the façade's lookup
      agrees. */
  lemma MethodRoundTrip(m: Method)
    ensures ParseMethod(MethodName(m)) == Success(m)
    ensures StrategyFor(MethodName(m)) == m
  {
  }

  // ---------------------------------------------------------------------
  // Per-block driver

  /** What a block run takes from outside: the palette picks, the
      annealing draws, and the greedy strategy object. The block drivers
      require only its `Valid` invariant; that the constructor's object is
      the catalog sorted by volume is stated by `Greedy.NewGreedyStrategy`.
      The strategies run without a progress callback. */
  datatype Oracles = Oracles(pick: nat -> nat, draws: Annealing.Draws, greedy: Greedy.GreedyStrategy)

  /** Extent of the slice [s, s+n) of an axis of length len, as numpy
      clips it for a non-negative start and size. */
  function ClipLen(s: int, n: int, len: nat): nat
    requires s >= 0 && n >= 0
  {
    Max(0, Min(s + n, len) - s)
  }

  /** A block argument as the tiling produces it: non-negative origin and
      extents (numpy would wrap a negative bound around). */
  predicate SliceBox(blk: Box) {
    blk.x >= 0 && blk.y >= 0 && blk.z >= 0 && blk.NonNegative()
  }

  function Shift(c: Cell, blk: Box): Cell {
    Cell(c.z + blk.z, c.y + blk.y, c.x + blk.x)
  }

  /** `voxel_array[z:z+zs, y:y+ys, x:x+xs]`, re-based at its own origin:
      a cell of the sub-array is set iff the cell it views is. */
  function SubGrid(g: VoxelGrid, blk: Box): (r: VoxelGrid)
    requires g.Valid() && SliceBox(blk)
    ensures r.Valid()
    ensures forall c :: c in r.cells <==> InGrid(r.dims, c) && Shift(c, blk) in g.cells
  {
    var dims := Dims(ClipLen(blk.z, blk.d, g.dims.depth), ClipLen(blk.y, blk.h, g.dims.height),
                     ClipLen(blk.x, blk.w, g.dims.width));
    var cs := set c | c in g.cells && blk.Contains(c) :: Cell(c.z - blk.z, c.y - blk.y, c.x - blk.x);
    assert forall c :: InGrid(dims, c) && Shift(c, blk) in g.cells ==> c in cs by {
      forall c | InGrid(dims, c) && Shift(c, blk) in g.cells
        ensures c in cs
      {
        var o := Shift(c, blk);
        assert blk.Contains(o);
        assert c == Cell(o.z - blk.z, o.y - blk.y, o.x - blk.x);
      }
    }
    VoxelGrid(dims, cs)
  }

  /** The grid the strategy works on: the sub-block, filled when asked. */
  function BlockWork(g: VoxelGrid, blk: Box, fillHollow: bool): (r: VoxelGrid)
    requires g.Valid() && SliceBox(blk)
    ensures r.Valid()
  {
    var sub := SubGrid(g, blk);
    if fillHollow then Filled(sub) else sub
  }

  function NoCancel(t: real): bool { false }
  function NoCancelCount(n: int): bool { false }

  /** `strategy.place_bricks(sub_voxel, use_colors, allowed_sizes,
      allow_top_layer)` with the class's defaults for everything else. The
      annealing strategy runs as written, seeding unpack included. */
  function RunStrategy(m: Method, g: VoxelGrid, useColors: bool, allowed: seq<BrickSize>, allowTop: bool, o: Oracles): Result<seq<Cube>>
    requires g.Valid() && NonNegativeSizes(allowed) && o.greedy.Valid()
  {
    match m
    case GreedyMethod =>
      Success(Greedy.PlaceBricks(o.greedy, g, useColors, allowed, allowTop, Greedy.NeverStop, None, o.pick))
    case AnnealingMethod =>
      Annealing.PlaceBricksAsWritten(g, useColors, allowed, allowTop, Annealing.DEFAULT_SCHEDULE, o.draws, NoCancel, None, o.pick)
    case BranchBoundMethod =>
      BranchBound.PlaceBricks(g, useColors, allowed, allowTop, NoCancelCount, None, o.pick)
  }

  /** Every cube lies on set cells of the grid. */
  ghost predicate CubesInside(cs: seq<Cube>, cells: set<Cell>) {
    forall i :: 0 <= i < |cs| ==> Cells(cs[i].box) <= cells
  }

  ghost predicate CubesDisjoint(cs: seq<Cube>) {
    forall i, j :: 0 <= i < j < |cs| ==> Cells(cs[i].box) !! Cells(cs[j].box)
  }

  /** Cubes carrying the boxes of a brick list inherit its disjointness
      and its containment. */
  lemma CubesFromBricks(cs: seq<Cube>, bs: seq<Brick>, cells: set<Cell>)
    requires |cs| == |bs| && forall i :: 0 <= i < |cs| ==> cs[i].box == bs[i].box
    ensures PairwiseDisjoint(bs) ==> CubesDisjoint(cs)
    ensures AllInside(bs, cells) ==> CubesInside(cs, cells)
  {
  }

  lemma GreedyRunSound(g: VoxelGrid, useColors: bool, allowed: seq<BrickSize>, allowTop: bool, o: Oracles)
    requires g.Valid() && NonNegativeSizes(allowed)
    requires o.greedy.Valid()
    ensures var cs := Greedy.PlaceBricks(o.greedy, g, useColors, allowed, allowTop, Greedy.NeverStop, None, o.pick);
      CubesInside(cs, g.cells) && CubesDisjoint(cs)
  {
    var st := o.greedy;
    Greedy.GreedySound(st, g, allowed, allowTop, Greedy.NeverStop);
    CubesFromBricks(Greedy.PlaceBricks(st, g, useColors, allowed, allowTop, Greedy.NeverStop, None, o.pick),
                    Greedy.GreedyBricks(st, g, allowed, allowTop, Greedy.NeverStop), g.cells);
  }

  /** The annealing strategy as written either raises `ValueError` or
      returns no cubes; with a 1x1x1 entry in the list it raises on any
      grid with a set cell in the ground layer, and on any non-empty grid
      when top placements are allowed. */
  lemma AnnealingRunSound(g: VoxelGrid, useColors: bool, allowed: seq<BrickSize>, allowTop: bool, o: Oracles)
    requires g.Valid() && NonNegativeSizes(allowed) && o.greedy.Valid()
    ensures var r := RunStrategy(AnnealingMethod, g, useColors, allowed, allowTop, o);
      && (r.Success? ==> r.value == [])
      && (r.Failure? ==> r.error == "ValueError")
      && (HasUnitSize(allowed) && (exists c :: c in g.cells && (allowTop || c.z == 0)) ==> r == Failure("ValueError"))
  {
    if HasUnitSize(allowed) && (exists c :: c in g.cells && (allowTop || c.z == 0)) {
      var c :| c in g.cells && (allowTop || c.z == 0);
      Annealing.AsWrittenFails(g, c, useColors, allowed, allowTop, Annealing.DEFAULT_SCHEDULE, o.draws, NoCancel, None, o.pick);
    }
  }

  /** The cubes of the annealing strategy with the seeding unpack
      corrected lie on the grid's set cells. */
  lemma AnnealingIntendedInside(g: VoxelGrid, useColors: bool, allowed: seq<BrickSize>, allowTop: bool, o: Oracles)
    requires g.Valid() && NonNegativeSizes(allowed)
    ensures CubesInside(Annealing.PlaceBricks(g, useColors, allowed, allowTop, Annealing.DEFAULT_SCHEDULE, o.draws, NoCancel, None, o.pick), g.cells)
  {
    Annealing.AnnealInside(g, allowed, allowTop, Annealing.DEFAULT_SCHEDULE, o.draws, NoCancel);
    CubesFromBricks(Annealing.PlaceBricks(g, useColors, allowed, allowTop, Annealing.DEFAULT_SCHEDULE, o.draws, NoCancel, None, o.pick),
                    Annealing.AnnealBricks(g, allowed, allowTop, Annealing.DEFAULT_SCHEDULE, o.draws, NoCancel), g.cells);
  }

  lemma BranchBoundRunSound(g: VoxelGrid, useColors: bool, allowed: seq<BrickSize>, allowTop: bool, o: Oracles)
    requires g.Valid() && NonNegativeSizes(allowed)
    ensures var r := BranchBound.PlaceBricks(g, useColors, allowed, allowTop, NoCancelCount, None, o.pick);
      r.Success? ==> CubesInside(r.value, g.cells) && CubesDisjoint(r.value)
  {
    var bs := BranchBound.BranchBoundBricks(g, allowed, allowTop, NoCancelCount);
    BranchBound.BranchBoundSound(g, allowed, allowTop, NoCancelCount);
    if bs.Success? {
      CubesFromBricks(BranchBound.Finalize(bs.value, useColors, None, o.pick), bs.value, g.cells);
    }
  }

  /** Whatever strategy runs, the cubes it returns lie on set cells of its
      grid and are pairwise disjoint; the only cubes annealing returns are
      none at all. */
  lemma RunStrategySound(m: Method, g: VoxelGrid, useColors: bool, allowed: seq<BrickSize>, allowTop: bool, o: Oracles)
    requires g.Valid() && NonNegativeSizes(allowed) && o.greedy.Valid()
    ensures var r := RunStrategy(m, g, useColors, allowed, allowTop, o);
      && (r.Success? ==> CubesInside(r.value, g.cells) && CubesDisjoint(r.value))
      && (m == AnnealingMethod && r.Success? ==> r.value == [])
  {
    match m
    case GreedyMethod => GreedyRunSound(g, useColors, allowed, allowTop, o);
    case AnnealingMethod => AnnealingRunSound(g, useColors, allowed, allowTop, o);
    case BranchBoundMethod => BranchBoundRunSound(g, useColors, allowed, allowTop, o);
  }

  /** `_process_block`: an all-false sub-block gives no cubes; otherwise
      the strategy named (greedy when the name is unknown) runs on the
      sub-block, filled first when asked, with the top layer allowed
      exactly when no fill was applied. The block's origin comes back
      with the cubes, which are in the block's own coordinates. */
  function ProcessBlock(g: VoxelGrid, useColors: bool, allowed: seq<BrickSize>, blk: Box, name: string,
                        fillHollow: bool, o: Oracles): (r: Result<(seq<Cube>, int, int, int)>)
    requires g.Valid() && NonNegativeSizes(allowed) && SliceBox(blk) && o.greedy.Valid()
    ensures r.Success? ==> r.value.1 == blk.z && r.value.2 == blk.y && r.value.3 == blk.x
  {
    if SubGrid(g, blk).cells == {} then Success(([], blk.z, blk.y, blk.x))
    else
      var cubes :- RunStrategy(StrategyFor(name), BlockWork(g, blk, fillHollow), useColors, allowed, !fillHollow, o);
      Success((cubes, blk.z, blk.y, blk.x))
  }

  /** A block holding no set cell of the grid yields no cubes. */
  lemma ProcessBlockEmpty(g: VoxelGrid, useColors: bool, allowed: seq<BrickSize>, blk: Box, name: string,
                          fillHollow: bool, o: Oracles)
    requires g.Valid() && NonNegativeSizes(allowed) && SliceBox(blk) && o.greedy.Valid()
    requires forall c :: c in g.cells ==> !blk.Contains(c)
    ensures ProcessBlock(g, useColors, allowed, blk, name, fillHollow, o) == Success(([], blk.z, blk.y, blk.x))
  {
    var sub := SubGrid(g, blk);
    forall c | c in sub.cells
      ensures false
    {
    }
  }

  /** A block with a set cell runs the chosen strategy with the top layer
      allowed iff no fill was applied, and its cubes lie on set cells of
      the (filled) sub-block, pairwise disjoint. */
  lemma ProcessBlockRuns(g: VoxelGrid, useColors: bool, allowed: seq<BrickSize>, blk: Box, name: string,
                         fillHollow: bool, o: Oracles, c: Cell)
    requires g.Valid() && NonNegativeSizes(allowed) && SliceBox(blk) && o.greedy.Valid()
    requires c in g.cells && blk.Contains(c)
    ensures var work := BlockWork(g, blk, fillHollow);
      var run := RunStrategy(StrategyFor(name), work, useColors, allowed, !fillHollow, o);
      var r := ProcessBlock(g, useColors, allowed, blk, name, fillHollow, o);
      && r.Success? == run.Success?
      && (r.Success? ==> r.value.0 == run.value && CubesInside(r.value.0, work.cells))
      && (r.Success? ==> CubesDisjoint(r.value.0))
  {
    BlockHasCell(g, blk, c);
    RunStrategySound(StrategyFor(name), BlockWork(g, blk, fillHollow), useColors, allowed, !fillHollow, o);
  }

  /** With a 1x1x1 entry in the list, annealing fails on every block that
      holds a set cell, filled or not: without the fill the top layer is
      allowed, and the fill reaches down to the ground layer. */
  lemma ProcessBlockAnnealingFails(g: VoxelGrid, useColors: bool, allowed: seq<BrickSize>, blk: Box, name: string,
                                   fillHollow: bool, o: Oracles, c: Cell)
    requires g.Valid() && NonNegativeSizes(allowed) && SliceBox(blk) && o.greedy.Valid()
    requires c in g.cells && blk.Contains(c) && HasUnitSize(allowed) && StrategyFor(name) == AnnealingMethod
    ensures ProcessBlock(g, useColors, allowed, blk, name, fillHollow, o) == Failure("ValueError")
  {
    BlockHasCell(g, blk, c);
    var work := BlockWork(g, blk, fillHollow);
    var w := WorkStartCell(g, blk, fillHollow);
    AnnealingRunSound(work, useColors, allowed, !fillHollow, o);
    assert RunStrategy(AnnealingMethod, work, useColors, allowed, !fillHollow, o) == Failure("ValueError");
  }

  /** A block with a set cell gives the strategy a cell it can start from:
      any set cell without the fill, a ground-layer cell with it. */
  lemma WorkStartCell(g: VoxelGrid, blk: Box, fillHollow: bool) returns (w: Cell)
    requires g.Valid() && SliceBox(blk) && SubGrid(g, blk).cells != {}
    ensures w in BlockWork(g, blk, fillHollow).cells && (!fillHollow || w.z == 0)
  {
    var sub := SubGrid(g, blk);
    var l :| l in sub.cells;
    if fillHollow {
      w := Cell(0, l.y, l.x);
      assert InGrid(sub.dims, l) && InGrid(sub.dims, w);
      assert Cell(l.z, w.y, w.x) == l;
      assert SetAtOrAbove(sub, w);
      assert BlockWork(g, blk, fillHollow) == Filled(sub);
    } else {
      w := l;
    }
  }

  /** A set cell inside the block shows up in the sub-block. */
  lemma BlockHasCell(g: VoxelGrid, blk: Box, c: Cell)
    requires g.Valid() && SliceBox(blk) && c in g.cells && blk.Contains(c)
    ensures SubGrid(g, blk).cells != {}
  {
    var local := Cell(c.z - blk.z, c.y - blk.y, c.x - blk.x);
    assert Shift(local, blk) == c;
    assert local in SubGrid(g, blk).cells;
  }
}

=== FILE: greedy.dfy ===
/** The greedy strategy (strategies/greedy_placement.py): one row-major
    first-fit pass per layer, bottom to top, over a copy of the input, with
    a cheap probe that skips a layer on which not even a 1x1x1 brick could
    stand. Randomness and the progress callback are parameters: `pick(i)`
    chooses the palette entry of the i-th cube, and `stop(z, processed)`
    answers the callback asked before layer z after `processed` voxels. */
module Greedy {
  import opened Wrappers
  import opened Config
  import opened Voxels
  import opened Sorting
  import opened Placement

  /** The strategy object: its constructor sorts the catalog by volume,
      largest first, once. `Valid` keeps what the runs rely on; that the
      list is a reordering of the catalog is stated by the constructor. */
  datatype GreedyStrategy = GreedyStrategy(sortedSizes: seq<BrickSize>) {
    predicate Valid() {
      && SortedDesc(sortedSizes, VolumeKey)
      && PositiveSizes(sortedSizes) && NonNegativeSizes(sortedSizes) && HasUnitSize(sortedSizes)
    }
  }

  /** `GreedyPlacementStrategy()`: the sorted catalog is a reordering of
      the catalog, so it holds only positive sizes and the unit brick. */
  function NewGreedyStrategy(): (g: GreedyStrategy)
    ensures g.Valid() && multiset(g.sortedSizes) == multiset(BRICK_SIZES)
    ensures forall v :: KeyFilter(g.sortedSizes, VolumeKey, v) == KeyFilter(BRICK_SIZES, VolumeKey, v)
  {
    CatalogPositive();
    CatalogHasUnitBrick();
    var r := ByVolumeDesc(BRICK_SIZES);
    PermutationKeepsPositive(BRICK_SIZES, r);
    PermutationKeepsUnit(BRICK_SIZES, r);
    GreedyStrategy(r)
  }

  /** `allowed_sizes or self.sorted_sizes`: an empty list falls back to the
      sorted catalog. */
  function EffectiveSizes(st: GreedyStrategy, allowed: seq<BrickSize>): (r: seq<BrickSize>)
    requires st.Valid() && NonNegativeSizes(allowed)
    ensures NonNegativeSizes(r)
    ensures allowed != [] ==> r == allowed
    ensures allowed == [] ==> r == st.sortedSizes && SortedDesc(r, VolumeKey) && PositiveSizes(r) && HasUnitSize(r)
  {
    if allowed != [] then allowed else st.sortedSizes
  }

  predicate OccupiedAt(s: Grids, z: int, y: int, x: int) {
    Cell(z, y, x) in s.occ
  }

  /** A 1x1x1 brick may go on the still-occupied cell (z, y, x). */
  predicate UnitFitsAt(s: Grids, z: int, y: int, x: int, allowTop: bool) {
    OccupiedAt(s, z, y, x) && CanPlaceBrick(Box(x, y, z, 1, 1, 1), s, allowTop)
  }

  /** A row-major scan of an h x w layer from (y, x): does some cell at or
      after (y, x) satisfy `hit`? Both the layer test and the probe loop
      are this scan. */
  predicate ScanFrom(h: int, w: int, hit: (int, int) -> bool, y: nat, x: nat)
    decreases h - y, w - x
  {
    if y >= h then false
    else if x >= w then ScanFrom(h, w, hit, y + 1, 0)
    else hit(y, x) || ScanFrom(h, w, hit, y, x + 1)
  }

  /** Some in-range cell at or after (y, x) satisfies `hit`. */
  ghost predicate HitFrom(h: int, w: int, hit: (int, int) -> bool, y: int, x: int) {
    exists yy, xx :: 0 <= yy < h && 0 <= xx < w && AtOrAfter(Cell(0, yy, xx), y, x) && hit(yy, xx)
  }

  /** The scan answers exactly whether an in-range cell at or after its
      start satisfies `hit`. */
  lemma {:induction false} ScanFromIff(h: int, w: int, hit: (int, int) -> bool, y: nat, x: nat)
    ensures ScanFrom(h, w, hit, y, x) <==> HitFrom(h, w, hit, y, x)
    decreases h - y, w - x
  {
    if y >= h {
    } else if x >= w {
      ScanFromIff(h, w, hit, y + 1, 0);
      if HitFrom(h, w, hit, y, x) {
        var yy, xx :| 0 <= yy < h && 0 <= xx < w && AtOrAfter(Cell(0, yy, xx), y, x) && hit(yy, xx);
        assert AtOrAfter(Cell(0, yy, xx), y + 1, 0);
      }
      if HitFrom(h, w, hit, y + 1, 0) {
        var yy, xx :| 0 <= yy < h && 0 <= xx < w && AtOrAfter(Cell(0, yy, xx), y + 1, 0) && hit(yy, xx);
        assert AtOrAfter(Cell(0, yy, xx), y, x);
      }
    } else {
      ScanFromIff(h, w, hit, y, x + 1);
      if HitFrom(h, w, hit, y, x) && !hit(y, x) {
        var yy, xx :| 0 <= yy < h && 0 <= xx < w && AtOrAfter(Cell(0, yy, xx), y, x) && hit(yy, xx);
        assert AtOrAfter(Cell(0, yy, xx), y, x + 1);
      }
      if HitFrom(h, w, hit, y, x + 1) {
        var yy, xx :| 0 <= yy < h && 0 <= xx < w && AtOrAfter(Cell(0, yy, xx), y, x + 1) && hit(yy, xx);
        assert AtOrAfter(Cell(0, yy, xx), y, x);
      }
      if hit(y, x) {
        assert AtOrAfter(Cell(0, y, x), y, x);
      }
    }
  }

  /** `np.any(voxel_copy[z])`: some cell of layer z is still occupied. */
  predicate AnyInLayer(s: Grids, z: int) {
    ScanFrom(s.dims.height, s.dims.width, (y: int, x: int) => OccupiedAt(s, z, y, x), 0, 0)
  }

  /** The probe loop: some still-occupied cell of layer z accepts a 1x1x1
      brick. */
  predicate Probe(s: Grids, z: int, allowTop: bool) {
    ScanFrom(s.dims.height, s.dims.width, (y: int, x: int) => UnitFitsAt(s, z, y, x, allowTop), 0, 0)
  }

  /** The layer test holds exactly when an in-grid cell of layer z is still
      occupied. */
  lemma AnyInLayerIff(s: Grids, z: int)
    ensures AnyInLayer(s, z) <==> exists y, x :: 0 <= y < s.dims.height && 0 <= x < s.dims.width && OccupiedAt(s, z, y, x)
  {
    var hit := (y: int, x: int) => OccupiedAt(s, z, y, x);
    ScanFromIff(s.dims.height, s.dims.width, hit, 0, 0);
    if exists y, x :: 0 <= y < s.dims.height && 0 <= x < s.dims.width && OccupiedAt(s, z, y, x) {
      var y, x :| 0 <= y < s.dims.height && 0 <= x < s.dims.width && OccupiedAt(s, z, y, x);
      assert AtOrAfter(Cell(0, y, x), 0, 0) && hit(y, x);
    }
  }

  /** The probe holds exactly when some still-occupied in-grid cell of layer
      z accepts a 1x1x1 brick. */
  lemma ProbeIff(s: Grids, z: int, allowTop: bool)
    ensures Probe(s, z, allowTop) <==> exists y, x :: 0 <= y < s.dims.height && 0 <= x < s.dims.width && UnitFitsAt(s, z, y, x, allowTop)
  {
    var hit := (y: int, x: int) => UnitFitsAt(s, z, y, x, allowTop);
    ScanFromIff(s.dims.height, s.dims.width, hit, 0, 0);
    if exists y, x :: 0 <= y < s.dims.height && 0 <= x < s.dims.width && UnitFitsAt(s, z, y, x, allowTop) {
      var y, x :| 0 <= y < s.dims.height && 0 <= x < s.dims.width && UnitFitsAt(s, z, y, x, allowTop);
      assert AtOrAfter(Cell(0, y, x), 0, 0) && hit(y, x);
    }
  }

  /** One layer of the greedy loop: skipped when it has cells but the probe
      fails, otherwise the first-fit layer pass. */
  function GreedyLayer(s: Grids, z: int, sizes: seq<BrickSize>, allowTop: bool): (r: (Grids, seq<Brick>))
    requires 0 <= z < s.dims.depth && NonNegativeSizes(sizes)
    ensures r.0.dims == s.dims
  {
    if AnyInLayer(s, z) && !Probe(s, z, allowTop) then (s, [])
    else PlaceBricksOnLayer(s, z, sizes, allowTop)
  }

  /** A layer either is skipped by the probe, placing nothing, or is the
      first-fit pass: its bricks produce its grids, lie in layer z and come
      in row-major order. */
  lemma GreedyLayerSpec(s: Grids, z: int, sizes: seq<BrickSize>, allowTop: bool)
    requires 0 <= z < s.dims.depth && NonNegativeSizes(sizes)
    ensures var r := GreedyLayer(s, z, sizes, allowTop);
      && r.0 == Replay(s, r.1) && FirstFitRun(s, r.1, sizes, allowTop)
      && (forall i :: 0 <= i < |r.1| ==> r.1[i].box.z == z)
      && (forall i, j :: 0 <= i < j < |r.1| ==> Precedes(r.1[i].box.Origin(), r.1[j].box.Origin()))
      && (AnyInLayer(s, z) && !Probe(s, z, allowTop) ==> r.1 == [])
      && (!AnyInLayer(s, z) || Probe(s, z, allowTop) ==> r == PlaceBricksOnLayer(s, z, sizes, allowTop))
  {
    PlaceBricksOnLayerSound(s, z, sizes, allowTop);
  }

  /** Bricks lying in layer z, in strictly increasing row-major order of
      their origins. */
  ghost predicate InLayerRowMajor(bs: seq<Brick>, z: int) {
    && (forall i :: 0 <= i < |bs| ==> bs[i].box.z == z)
    && (forall i, j :: 0 <= i < j < |bs| ==> Precedes(bs[i].box.Origin(), bs[j].box.Origin()))
  }

  /** Bricks lying in layers z and above, in strictly increasing row-major
      order of their origins. */
  ghost predicate RowMajorFrom(bs: seq<Brick>, z: int) {
    && (forall i :: 0 <= i < |bs| ==> bs[i].box.z >= z)
    && (forall i, j :: 0 <= i < j < |bs| ==> Precedes(bs[i].box.Origin(), bs[j].box.Origin()))
  }

  /** A layer's grids are its bricks committed in order, each the first-fit
      choice at its turn. */
  lemma GreedyLayerRun(s: Grids, z: nat, sizes: seq<BrickSize>, allowTop: bool)
    requires 0 <= z < s.dims.depth && NonNegativeSizes(sizes)
    ensures GreedyLayer(s, z, sizes, allowTop).0 == Replay(s, GreedyLayer(s, z, sizes, allowTop).1)
    ensures FirstFitRun(s, GreedyLayer(s, z, sizes, allowTop).1, sizes, allowTop)
  {
    GreedyLayerSpec(s, z, sizes, allowTop);
  }

  lemma GreedyLayerOrdered(s: Grids, z: nat, sizes: seq<BrickSize>, allowTop: bool)
    requires 0 <= z < s.dims.depth && NonNegativeSizes(sizes)
    ensures InLayerRowMajor(GreedyLayer(s, z, sizes, allowTop).1, z)
  {
    GreedyLayerSpec(s, z, sizes, allowTop);
  }

  // ---------------------------------------------------------------------
  // The layer loop
  // ---------------------------------------------------------------------

  /** The work done on one layer: the grids after it and the bricks placed. */
  type LayerStep = (Grids, nat) -> (Grids, seq<Brick>)

  /** `for z in range(depth)`: layer z, z+1, ..., depth-1 in turn, asking the
      callback before each layer and returning what was placed so far when
      it says stop. */
  function LayerLoop(s: Grids, z: nat, depth: nat, step: LayerStep, stop: (nat, int) -> bool, processed: int): seq<Brick>
    decreases depth - z
  {
    if z >= depth || stop(z, processed) then []
    else
      var layer := step(s, z);
      layer.1 + LayerLoop(layer.0, z + 1, depth, step, stop, processed + TotalVolume(layer.1))
  }

  /** The greedy strategy's work on one layer; layers outside the array
      place nothing. */
  function GreedyStep(sizes: seq<BrickSize>, allowTop: bool): LayerStep
    requires NonNegativeSizes(sizes)
  {
    (t: Grids, k: nat) => if k < t.dims.depth then GreedyLayer(t, k, sizes, allowTop) else (t, [])
  }

  /** Every step ends in the grids its bricks produce. */
  ghost predicate StepCommits(step: LayerStep) {
    forall t: Grids, k: nat :: step(t, k).0 == Replay(t, step(t, k).1)
  }

  /** Every step's bricks are each the first-fit choice at their turn. */
  ghost predicate StepFirstFit(step: LayerStep, sizes: seq<BrickSize>, allowTop: bool)
    requires NonNegativeSizes(sizes)
  {
    forall t: Grids, k: nat :: FirstFitRun(t, step(t, k).1, sizes, allowTop)
  }

  /** Every step on layer k places bricks in layer k, in row-major order. */
  ghost predicate StepOrdered(step: LayerStep) {
    forall t: Grids, k: nat :: InLayerRowMajor(step(t, k).1, k)
  }

  /** Every step on layer k leaves no in-grid cell of layer k to fill. */
  ghost predicate StepClears(step: LayerStep) {
    forall t: Grids, k: nat :: LayerFree(step(t, k).0, k)
  }

  /** The greedy layer step commits first-fit bricks of its own layer in
      row-major order. */
  lemma GreedyStepProps(sizes: seq<BrickSize>, allowTop: bool)
    requires NonNegativeSizes(sizes)
    ensures StepCommits(GreedyStep(sizes, allowTop))
    ensures StepFirstFit(GreedyStep(sizes, allowTop), sizes, allowTop)
    ensures StepOrdered(GreedyStep(sizes, allowTop))
  {
    var step := GreedyStep(sizes, allowTop);
    forall t: Grids, k: nat
      ensures step(t, k).0 == Replay(t, step(t, k).1)
      ensures FirstFitRun(t, step(t, k).1, sizes, allowTop)
      ensures InLayerRowMajor(step(t, k).1, k)
    {
      if k < t.dims.depth {
        GreedyLayerRun(t, k, sizes, allowTop);
        GreedyLayerOrdered(t, k, sizes, allowTop);
      }
    }
  }

  /** With top placements allowed and a 1x1x1 entry among positive sizes,
      the greedy layer step empties its layer. */
  lemma GreedyStepClears(sizes: seq<BrickSize>)
    requires PositiveSizes(sizes) && NonNegativeSizes(sizes) && HasUnitSize(sizes)
    ensures StepClears(GreedyStep(sizes, true))
  {
    var step := GreedyStep(sizes, true);
    forall t: Grids, k: nat
      ensures LayerFree(step(t, k).0, k)
    {
      if k < t.dims.depth {
        GreedyLayerClears(t, k, sizes);
      }
    }
  }

  /** The loop's bricks are each the first-fit choice at their turn. */
  lemma {:induction false} LoopFirstFit(s: Grids, z: nat, depth: nat, step: LayerStep, sizes: seq<BrickSize>, allowTop: bool,
                                        stop: (nat, int) -> bool, processed: int)
    requires NonNegativeSizes(sizes) && StepCommits(step) && StepFirstFit(step, sizes, allowTop)
    ensures FirstFitRun(s, LayerLoop(s, z, depth, step, stop, processed), sizes, allowTop)
    decreases depth - z
  {
    if z < depth && !stop(z, processed) {
      var layer := step(s, z);
      var p := processed + TotalVolume(layer.1);
      var rest := LayerLoop(layer.0, z + 1, depth, step, stop, p);
      LoopFirstFit(layer.0, z + 1, depth, step, sizes, allowTop, stop, p);
      FirstFitRunAppend(s, layer.1, rest, sizes, allowTop);
    }
  }

  /** The loop's bricks lie in layers z and above in strictly increasing
      row-major order of their origins. */
  lemma {:induction false} LoopOrdered(s: Grids, z: nat, depth: nat, step: LayerStep, stop: (nat, int) -> bool, processed: int)
    requires StepOrdered(step)
    ensures RowMajorFrom(LayerLoop(s, z, depth, step, stop, processed), z)
    decreases depth - z
  {
    if z < depth && !stop(z, processed) {
      var layer := step(s, z);
      var p := processed + TotalVolume(layer.1);
      var rest := LayerLoop(layer.0, z + 1, depth, step, stop, p);
      LoopOrdered(layer.0, z + 1, depth, step, stop, p);
      LayerThenRest(layer.1, rest, z);
    }
  }

  /** A layer's bricks followed by the bricks of the layers above are in
      row-major order. */
  lemma LayerThenRest(a: seq<Brick>, b: seq<Brick>, z: int)
    requires InLayerRowMajor(a, z) && RowMajorFrom(b, z + 1)
    ensures RowMajorFrom(a + b, z)
  {
    var r := a + b;
    forall i | 0 <= i < |r|
      ensures r[i] == if i < |a| then a[i] else b[i - |a|]
    {
    }
  }

  /** Without a callback, steps that each empty their own layer leave no
      in-grid cell to fill in the layers the loop visited. */
  lemma {:induction false} LoopClears(s: Grids, z: nat, step: LayerStep, processed: int)
    requires StepCommits(step) && StepClears(step)
    ensures NoneLeftFrom(Replay(s, LayerLoop(s, z, s.dims.depth, step, NeverStop, processed)), z)
    decreases s.dims.depth - z
  {
    if z < s.dims.depth {
      var layer := step(s, z);
      var p := processed + TotalVolume(layer.1);
      var rest := LayerLoop(layer.0, z + 1, s.dims.depth, step, NeverStop, p);
      assert layer.0 == Replay(s, layer.1) && LayerFree(layer.0, z);
      LoopClears(layer.0, z + 1, step, p);
      ReplayAppend(s, layer.1, rest);
      ReplayOccShrinks(layer.0, rest);
      ClearStep(layer.0, Replay(layer.0, rest), z);
      assert LayerLoop(s, z, s.dims.depth, step, NeverStop, processed) == layer.1 + rest;
      assert Replay(s, layer.1 + rest) == Replay(layer.0, rest);
    } else {
      assert Replay(s, LayerLoop(s, z, s.dims.depth, step, NeverStop, processed)) == s;
    }
  }

  /** If layer z is free after the layer pass and the later layers leave
      nothing at z+1 or above while only removing cells, nothing is left at
      z or above. */
  lemma ClearStep(t: Grids, fin: Grids, z: int)
    requires fin.dims == t.dims && fin.occ <= t.occ
    requires LayerFree(t, z) && NoneLeftFrom(fin, z + 1)
    ensures NoneLeftFrom(fin, z)
  {
  }

  function NeverStop(z: nat, processed: int): bool { false }

  /** Cancelling through the callback returns what was placed so far: the
      output is a prefix of the uncancelled loop's. */
  lemma {:induction false} LoopCancelPrefix(s: Grids, z: nat, depth: nat, step: LayerStep, stop: (nat, int) -> bool, processed: int)
    ensures var cut := LayerLoop(s, z, depth, step, stop, processed);
      var full := LayerLoop(s, z, depth, step, NeverStop, processed);
      |cut| <= |full| && cut == full[..|cut|]
    decreases depth - z
  {
    if z < depth && !stop(z, processed) {
      var layer := step(s, z);
      var p := processed + TotalVolume(layer.1);
      LoopCancelPrefix(layer.0, z + 1, depth, step, stop, p);
      var cut := LayerLoop(layer.0, z + 1, depth, step, stop, p);
      var full := LayerLoop(layer.0, z + 1, depth, step, NeverStop, p);
      assert (layer.1 + full)[..|layer.1 + cut|] == layer.1 + full[..|cut|];
    }
  }

  /** The bricks of a greedy run over grid g. */
  function GreedyBricks(st: GreedyStrategy, g: VoxelGrid, allowed: seq<BrickSize>, allowTop: bool, stop: (nat, int) -> bool): seq<Brick>
    requires st.Valid() && g.Valid() && NonNegativeSizes(allowed)
  {
    LayerLoop(StartGrids(g), 0, g.dims.depth, GreedyStep(EffectiveSizes(st, allowed), allowTop), stop, 0)
  }

  /** Turns bricks into coloured cubes; a given brick type replaces every
      brick's own class. */
  function Colorize(bs: seq<Brick>, useColors: bool, pick: nat -> nat, brickType: Option<string>): (r: seq<Cube>)
    ensures |r| == |bs|
    ensures forall i :: 0 <= i < |r| ==> r[i].box == bs[i].box
    ensures forall i :: 0 <= i < |r| ==> r[i].kind == (if brickType.Some? then brickType else Some(bs[i].kind))
    ensures forall i :: 0 <= i < |r| ==> (useColors ==> r[i].color in LEGO_COLORS) && (!useColors ==> r[i].color == BLACK)
  {
    seq(|bs|, i requires 0 <= i < |bs| =>
      Cube(bs[i].box, CubeColor(i, useColors, pick), if brickType.Some? then brickType else Some(bs[i].kind)))
  }

  /** `GreedyPlacementStrategy.place_bricks`. */
  function PlaceBricks(st: GreedyStrategy, g: VoxelGrid, useColors: bool, allowed: seq<BrickSize>, allowTop: bool,
                       stop: (nat, int) -> bool, brickType: Option<string>, pick: nat -> nat): (r: seq<Cube>)
    requires st.Valid() && g.Valid() && NonNegativeSizes(allowed)
    ensures |r| == |GreedyBricks(st, g, allowed, allowTop, stop)|
    ensures forall i :: 0 <= i < |r| ==> r[i].box == GreedyBricks(st, g, allowed, allowTop, stop)[i].box
  {
    Colorize(GreedyBricks(st, g, allowed, allowTop, stop), useColors, pick, brickType)
  }

  /** A greedy run places pairwise-disjoint bricks inside the input's
      occupied cells, each one the first size of the effective list that
      the feasibility check accepted at its origin, in row-major order of
      origins. Uncancelled, the run passes over no cell except in layers
      the probe skipped (`GreedyComplete`). */
  lemma GreedySound(st: GreedyStrategy, g: VoxelGrid, allowed: seq<BrickSize>, allowTop: bool, stop: (nat, int) -> bool)
    requires st.Valid() && g.Valid() && NonNegativeSizes(allowed)
    ensures var bs := GreedyBricks(st, g, allowed, allowTop, stop);
      && PairwiseDisjoint(bs) && AllInside(bs, g.cells)
      && (forall i :: 0 <= i < |bs| ==> BoxInGrid(g.dims, bs[i].box))
      && FirstFitRun(StartGrids(g), bs, EffectiveSizes(st, allowed), allowTop)
      && RowMajorFrom(bs, 0)
    ensures NoneSkippedAbove(StartGrids(g), GreedyBricks(st, g, allowed, allowTop, NeverStop), 0, EffectiveSizes(st, allowed), allowTop)
  {
    GreedyComplete(st, g, allowed, allowTop);
    var sizes := EffectiveSizes(st, allowed);
    var s := StartGrids(g);
    var step := GreedyStep(sizes, allowTop);
    var bs := LayerLoop(s, 0, g.dims.depth, step, stop, 0);
    GreedyStepProps(sizes, allowTop);
    LoopFirstFit(s, 0, g.dims.depth, step, sizes, allowTop, stop, 0);
    LoopOrdered(s, 0, g.dims.depth, step, stop, 0);
    FirstFitRunFeasible(s, bs, sizes, allowTop);
    FeasibleSound(s, bs, allowTop);
  }

  // ---------------------------------------------------------------------
  // Completeness of a greedy run
  // ---------------------------------------------------------------------

  /** The probe skipped layer z: when the loop reached it, the layer still
      had a cell to fill but none accepted a 1x1x1 brick. */
  ghost predicate ProbeSkipped(s: Grids, bs: seq<Brick>, z: int, allowTop: bool) {
    var u := TurnGrids(s, bs, Cell(z, 0, 0));
    AnyInLayer(u, z) && !Probe(u, z, allowTop)
  }

  /** Cell c was not passed over, unless the probe skipped its layer. */
  ghost predicate CellDone(s: Grids, bs: seq<Brick>, c: Cell, sizes: seq<BrickSize>, allowTop: bool)
    requires NonNegativeSizes(sizes)
  {
    NotSkipped(s, bs, c, sizes, allowTop) || ProbeSkipped(s, bs, c.z, allowTop)
  }

  /** Every in-grid cell of layers z and above was not passed over, unless
      the probe skipped its layer. */
  ghost predicate NoneSkippedAbove(s: Grids, bs: seq<Brick>, z: int, sizes: seq<BrickSize>, allowTop: bool)
    requires NonNegativeSizes(sizes)
  {
    forall c: Cell :: c.z >= z && InGrid(s.dims, c) ==> CellDone(s, bs, c, sizes, allowTop)
  }

  /** The bricks `layer` places on layer z of t pass over no cell of that
      layer, unless the probe skipped it and nothing was placed. */
  ghost predicate LayerComplete(t: Grids, z: int, layer: seq<Brick>, sizes: seq<BrickSize>, allowTop: bool)
    requires NonNegativeSizes(sizes)
  {
    (AnyInLayer(t, z) && !Probe(t, z, allowTop) && layer == []) || NoneSkippedFrom(t, layer, z, 0, 0, sizes, allowTop)
  }

  /** One greedy layer passes over no cell of its layer, unless the probe
      skipped the layer. */
  lemma GreedyLayerComplete(s: Grids, z: nat, sizes: seq<BrickSize>, allowTop: bool)
    requires 0 <= z < s.dims.depth && NonNegativeSizes(sizes)
    ensures LayerComplete(s, z, GreedyLayer(s, z, sizes, allowTop).1, sizes, allowTop)
  {
    if !(AnyInLayer(s, z) && !Probe(s, z, allowTop)) {
      PlaceBricksOnLayerSound(s, z, sizes, allowTop);
    }
  }

  /** What one turn of the loop at layer z knows of its layer's bricks a
      and the bricks rest placed above it. */
  ghost predicate TurnFacts(s: Grids, z: int, a: seq<Brick>, rest: seq<Brick>, sizes: seq<BrickSize>, allowTop: bool) {
    && NonNegativeSizes(sizes)
    && InLayerRowMajor(a, z) && RowMajorFrom(rest, z + 1)
    && LayerComplete(s, z, a, sizes, allowTop)
  }

  /** The loop step at layer z for cell c: the claim for c in the loop
      above, replayed after layer z's bricks, or the claim for layer z when
      c lies in it, gives the claim for c. */
  lemma LoopStepAt(s: Grids, z: int, sizes: seq<BrickSize>, allowTop: bool, a: seq<Brick>, rest: seq<Brick>, c: Cell)
    requires TurnFacts(s, z, a, rest, sizes, allowTop) && c.z >= z && InGrid(s.dims, c)
    requires c.z > z ==> CellDone(Replay(s, a), rest, c, sizes, allowTop)
    ensures CellDone(s, a + rest, c, sizes, allowTop)
  {
    var t := Replay(s, a);
    var c0 := Cell(c.z, 0, 0);
    if c.z == z {
      NotSkippedBefore(s, a, rest, c0, sizes, allowTop);
      if AnyInLayer(s, z) && !Probe(s, z, allowTop) && a == [] {
        assert a[..0] == [];
        assert ProbeSkipped(s, a + rest, z, allowTop);
      } else {
        assert AtOrAfter(c, 0, 0);
        NotSkippedBefore(s, a, rest, c, sizes, allowTop);
      }
    } else if NotSkipped(t, rest, c, sizes, allowTop) {
      NotSkippedAfter(s, a, rest, c, sizes, allowTop);
    } else {
      assert ProbeSkipped(t, rest, c.z, allowTop);
      TurnAfter(s, a, rest, c0);
    }
  }

  /** The uncancelled greedy loop from layer z passes over no cell c of
      layers z and above, unless the probe skipped c's layer. */
  lemma {:induction false} LoopCompleteAt(s: Grids, z: nat, sizes: seq<BrickSize>, allowTop: bool,
                                          processed: int, bs: seq<Brick>, c: Cell)
    requires NonNegativeSizes(sizes) && z <= c.z && InGrid(s.dims, c)
    requires bs == LayerLoop(s, z, s.dims.depth, GreedyStep(sizes, allowTop), NeverStop, processed)
    ensures CellDone(s, bs, c, sizes, allowTop)
    decreases s.dims.depth - z
  {
    var t, a, p, rest := GreedyTurn(s, z, sizes, allowTop, processed);
    if c.z > z {
      LoopCompleteAt(t, z + 1, sizes, allowTop, p, rest, c);
    }
    LoopCellStep(s, z, sizes, allowTop, processed, c, t, a, p, rest, bs);
  }

  /** One turn of the uncancelled greedy loop from layer z: layer z's grids
      t and bricks a, the running volume p after them, and the bricks rest
      the loop places from layer z + 1 on. */
  ghost predicate GreedyTurnOf(s: Grids, z: nat, sizes: seq<BrickSize>, allowTop: bool, processed: int,
                               t: Grids, a: seq<Brick>, p: int, rest: seq<Brick>) {
    && z < s.dims.depth
    && TurnFacts(s, z, a, rest, sizes, allowTop)
    && t == Replay(s, a) && t.dims == s.dims
    && rest == LayerLoop(t, z + 1, s.dims.depth, GreedyStep(sizes, allowTop), NeverStop, p)
    && LayerLoop(s, z, s.dims.depth, GreedyStep(sizes, allowTop), NeverStop, processed) == a + rest
  }

  /** The loop step for cell c, in the loop's own terms. */
  lemma LoopCellStep(s: Grids, z: nat, sizes: seq<BrickSize>, allowTop: bool, processed: int, c: Cell,
                     t: Grids, a: seq<Brick>, p: int, rest: seq<Brick>, bs: seq<Brick>)
    requires GreedyTurnOf(s, z, sizes, allowTop, processed, t, a, p, rest)
    requires bs == LayerLoop(s, z, s.dims.depth, GreedyStep(sizes, allowTop), NeverStop, processed)
    requires z <= c.z && InGrid(s.dims, c)
    requires c.z > z ==> CellDone(t, rest, c, sizes, allowTop)
    ensures CellDone(s, bs, c, sizes, allowTop)
  {
    LoopStepAt(s, z, sizes, allowTop, a, rest, c);
  }

  /** Names the pieces of one turn of the uncancelled greedy loop. */
  lemma GreedyTurn(s: Grids, z: nat, sizes: seq<BrickSize>, allowTop: bool, processed: int)
    returns (t: Grids, a: seq<Brick>, p: int, rest: seq<Brick>)
    requires NonNegativeSizes(sizes) && z < s.dims.depth
    ensures GreedyTurnOf(s, z, sizes, allowTop, processed, t, a, p, rest)
  {
    t, a, p, rest := LoopSplit(s, z, s.dims.depth, GreedyStep(sizes, allowTop), processed);
    GreedyTurnLayer(s, z, sizes, allowTop, t, a);
    GreedyRestOrdered(t, z + 1, s.dims.depth, sizes, allowTop, p, rest);
  }

  /** The greedy step's grids and bricks on layer z: the bricks committed in
      order, on layer z in row-major order, passing over no cell unless the
      probe skipped the layer. */
  lemma GreedyTurnLayer(s: Grids, z: nat, sizes: seq<BrickSize>, allowTop: bool, t: Grids, a: seq<Brick>)
    requires NonNegativeSizes(sizes) && z < s.dims.depth
    requires t == GreedyStep(sizes, allowTop)(s, z).0 && a == GreedyStep(sizes, allowTop)(s, z).1
    ensures t == Replay(s, a) && t.dims == s.dims
    ensures InLayerRowMajor(a, z) && LayerComplete(s, z, a, sizes, allowTop)
  {
    GreedyStepAt(s, z, sizes, allowTop);
    GreedyLayerRun(s, z, sizes, allowTop);
    GreedyLayerOrdered(s, z, sizes, allowTop);
    GreedyLayerComplete(s, z, sizes, allowTop);
  }

  /** The uncancelled greedy loop from layer z places its bricks on layers z
      and above in row-major order. */
  lemma GreedyRestOrdered(t: Grids, z: nat, depth: nat, sizes: seq<BrickSize>, allowTop: bool, p: int, rest: seq<Brick>)
    requires NonNegativeSizes(sizes)
    requires rest == LayerLoop(t, z, depth, GreedyStep(sizes, allowTop), NeverStop, p)
    ensures RowMajorFrom(rest, z)
  {
    GreedyStepProps(sizes, allowTop);
    LoopOrdered(t, z, depth, GreedyStep(sizes, allowTop), NeverStop, p);
  }

  /** One turn of the uncancelled loop, named: layer z's grids t and bricks
      a, the running volume p after them, and the loop's bricks from layer
      z + 1 on, which follow a. */
  lemma LoopSplit(s: Grids, z: nat, depth: nat, step: LayerStep, processed: int)
    returns (t: Grids, a: seq<Brick>, p: int, rest: seq<Brick>)
    requires z < depth
    ensures t == step(s, z).0 && a == step(s, z).1 && p == processed + TotalVolume(a)
    ensures rest == LayerLoop(t, z + 1, depth, step, NeverStop, p)
    ensures LayerLoop(s, z, depth, step, NeverStop, processed) == a + rest
  {
    t, a := step(s, z).0, step(s, z).1;
    p := processed + TotalVolume(a);
    rest := LayerLoop(t, z + 1, depth, step, NeverStop, p);
  }

  /** Inside the array, the greedy step on layer z is the greedy layer. */
  lemma GreedyStepAt(s: Grids, z: nat, sizes: seq<BrickSize>, allowTop: bool)
    requires NonNegativeSizes(sizes) && z < s.dims.depth
    ensures GreedyStep(sizes, allowTop)(s, z) == GreedyLayer(s, z, sizes, allowTop)
  {
  }

  /** An uncancelled greedy run passes over no cell of the input except in
      the layers the probe skipped; with positive sizes, every in-grid cell
      it leaves uncovered had every size refused on its turn, or lies in a
      layer the probe skipped. */
  lemma GreedyComplete(st: GreedyStrategy, g: VoxelGrid, allowed: seq<BrickSize>, allowTop: bool)
    requires st.Valid() && g.Valid() && NonNegativeSizes(allowed)
    ensures var bs := GreedyBricks(st, g, allowed, allowTop, NeverStop);
      var sizes := EffectiveSizes(st, allowed);
      var s := StartGrids(g);
      && NoneSkippedAbove(s, bs, 0, sizes, allowTop)
      && (PositiveSizes(sizes) ==>
            forall c :: c in Replay(s, bs).occ && InGrid(g.dims, c) ==>
              RefusedAtTurn(s, bs, c, sizes, allowTop) || ProbeSkipped(s, bs, c.z, allowTop))
  {
    var sizes := EffectiveSizes(st, allowed);
    var s := StartGrids(g);
    var step := GreedyStep(sizes, allowTop);
    var bs := LayerLoop(s, 0, g.dims.depth, step, NeverStop, 0);
    GreedyStepProps(sizes, allowTop);
    forall c: Cell | c.z >= 0 && InGrid(g.dims, c)
      ensures CellDone(s, bs, c, sizes, allowTop)
    {
      LoopCompleteAt(s, 0, sizes, allowTop, 0, bs, c);
    }
    if PositiveSizes(sizes) {
      LoopFirstFit(s, 0, g.dims.depth, step, sizes, allowTop, NeverStop, 0);
      forall c | c in Replay(s, bs).occ && InGrid(g.dims, c)
        ensures RefusedAtTurn(s, bs, c, sizes, allowTop) || ProbeSkipped(s, bs, c.z, allowTop)
      {
        if NotSkipped(s, bs, c, sizes, allowTop) {
          LeftCellRefused(s, bs, c, sizes, allowTop);
        }
      }
    }
  }

  /** Cancelling a greedy run through the callback returns the bricks placed
      so far: a prefix of the uncancelled run's. */
  lemma GreedyCancelPrefix(st: GreedyStrategy, g: VoxelGrid, allowed: seq<BrickSize>, allowTop: bool, stop: (nat, int) -> bool)
    requires st.Valid() && g.Valid() && NonNegativeSizes(allowed)
    ensures var cut := GreedyBricks(st, g, allowed, allowTop, stop);
      var full := GreedyBricks(st, g, allowed, allowTop, NeverStop);
      |cut| <= |full| && cut == full[..|cut|]
  {
    LoopCancelPrefix(StartGrids(g), 0, g.dims.depth, GreedyStep(EffectiveSizes(st, allowed), allowTop), stop, 0);
  }

  /** The callback's answer before the first layer already decides an empty
      result. */
  lemma GreedyCancelAtStart(st: GreedyStrategy, g: VoxelGrid, allowed: seq<BrickSize>, allowTop: bool, stop: (nat, int) -> bool)
    requires st.Valid() && g.Valid() && NonNegativeSizes(allowed) && stop(0, 0)
    ensures GreedyBricks(st, g, allowed, allowTop, stop) == []
  {
  }

  /** Without colours the output does not depend on the random choices. */
  lemma ColorsIgnoredWhenOff(bs: seq<Brick>, pick1: nat -> nat, pick2: nat -> nat, brickType: Option<string>)
    ensures Colorize(bs, false, pick1, brickType) == Colorize(bs, false, pick2, brickType)
  {
  }

  /** No cell still to fill of t lies in-grid at layer z or above. */
  ghost predicate NoneLeftFrom(t: Grids, z: int) {
    forall c :: c in t.occ && InGrid(t.dims, c) ==> c.z < z
  }

  /** No cell still to fill of t lies in-grid in layer z. */
  ghost predicate LayerFree(t: Grids, z: int) {
    forall c :: c in t.occ && InGrid(t.dims, c) ==> c.z != z
  }

  /** With top placements allowed the probe never skips a layer: a layer
      with a still-occupied cell always accepts a unit brick there. */
  lemma TopAllowedNeverSkips(s: Grids, z: nat, sizes: seq<BrickSize>)
    requires 0 <= z < s.dims.depth && NonNegativeSizes(sizes)
    ensures GreedyLayer(s, z, sizes, true) == PlaceBricksOnLayer(s, z, sizes, true)
  {
    AnyInLayerIff(s, z);
    ProbeIff(s, z, true);
    if AnyInLayer(s, z) {
      var y, x :| 0 <= y < s.dims.height && 0 <= x < s.dims.width && OccupiedAt(s, z, y, x);
      UnitAlwaysFits(s, Cell(z, y, x));
      assert UnitFitsAt(s, z, y, x, true);
    }
  }

  /** With top placements allowed and a 1x1x1 entry among positive sizes,
      one greedy layer empties its layer. */
  lemma GreedyLayerClears(s: Grids, z: nat, sizes: seq<BrickSize>)
    requires 0 <= z < s.dims.depth && PositiveSizes(sizes) && NonNegativeSizes(sizes) && HasUnitSize(sizes)
    ensures LayerFree(GreedyLayer(s, z, sizes, true).0, z)
  {
    TopAllowedNeverSkips(s, z, sizes);
    LayerPassClears(s, z, 0, 0, sizes);
    var t := GreedyLayer(s, z, sizes, true).0;
    forall c | c in t.occ && InGrid(t.dims, c)
      ensures c.z != z
    {
      if c.z == z {
        assert AtOrAfter(c, 0, 0);
      }
    }
  }

  /** A feasible run from a consistent state that leaves no in-grid cell to
      fill covers exactly the cells that were to fill. */
  lemma ClearedRunCovers(s: Grids, bs: seq<Brick>, allowTop: bool)
    requires Consistent(s) && Feasible(s, bs, allowTop) && NoneLeftFrom(Replay(s, bs), 0)
    ensures Footprint(bs) == s.occ
  {
    FeasibleDisjointInside(s, bs, allowTop);
    FeasibleReplay(s, bs, allowTop);
    forall c | c in s.occ
      ensures c in Footprint(bs)
    {
      assert c !in Replay(s, bs).occ;
    }
  }

  /** Hollow mode (top placements allowed) with the catalog or any list of
      positive sizes holding the 1x1x1 entry: the bricks of an uncancelled
      greedy run cover the input's occupied cells exactly. */
  lemma GreedyCoversExactly(st: GreedyStrategy, g: VoxelGrid, allowed: seq<BrickSize>)
    requires st.Valid() && g.Valid() && PositiveSizes(allowed) && NonNegativeSizes(allowed) && (allowed == [] || HasUnitSize(allowed))
    ensures Footprint(GreedyBricks(st, g, allowed, true, NeverStop)) == g.cells
  {
    var sizes := EffectiveSizes(st, allowed);
    var s := StartGrids(g);
    var step := GreedyStep(sizes, true);
    var bs := LayerLoop(s, 0, g.dims.depth, step, NeverStop, 0);
    GreedyStepProps(sizes, true);
    GreedyStepClears(sizes);
    LoopClears(s, 0, step, 0);
    LoopFirstFit(s, 0, g.dims.depth, step, sizes, true, NeverStop, 0);
    FirstFitRunFeasible(s, bs, sizes, true);
    ClearedRunCovers(s, bs, true);
  }
}

=== FILE: instructions.dfy ===
/** Instruction sequencing (instruction_generation.py): re-validating the
    placements of one component against a fresh mask, splitting the
    placements among connected components by the label at their origin,
    and cutting the final list into build steps of one layer each. */
module Instructions {
  import opened Wrappers
  import opened Voxels
  import opened Sorting
  import opened Seqs
  import opened Arith

  // ---------------------------------------------------------------------
  // Re-validation of one component (the compiled loop)
  // ---------------------------------------------------------------------

  /** One row of the compiled loop's int32 output table: the box and a
      seventh column that the loop always writes as 0. */
  datatype Row = Row(box: Box, tag: int)

  /** The cells the loop visits for a box: each axis runs from the origin
      up to the box's far face, cut at the grid's far face. */
  function Clipped(b: Box, dims: Dims): (r: set<Cell>)
    ensures forall c :: c in r <==> b.Contains(c) && c.z < dims.depth && c.y < dims.height && c.x < dims.width
  {
    var hi := Box(b.x, b.y, b.z, Min(b.w, dims.width - b.x), Min(b.h, dims.height - b.y), Min(b.d, dims.depth - b.z));
    assert forall c :: hi.Contains(c) <==> b.Contains(c) && c.z < dims.depth && c.y < dims.height && c.x < dims.width;
    Cells(hi)
  }

  /** Every cell marked by the accepted rows. */
  function Marked(rows: seq<Row>, dims: Dims): (r: set<Cell>)
    ensures forall i :: 0 <= i < |rows| ==> Clipped(rows[i].box, dims) <= r
  {
    if rows == [] then {} else Clipped(rows[0].box, dims) + Marked(rows[1..], dims)
  }

  /** The loop over the z-sorted boxes, with `occ` the cells marked so far:
      a box is accepted when none of its visited cells is marked, and its
      visited cells are then marked. */
  function Validate(bs: seq<Box>, dims: Dims, occ: set<Cell>): (r: seq<Row>)
    ensures |r| <= |bs|
    ensures forall i :: 0 <= i < |r| ==> r[i].tag == 0
  {
    if bs == [] then []
    else if Clipped(bs[0], dims) !! occ then [Row(bs[0], 0)] + Validate(bs[1..], dims, occ + Clipped(bs[0], dims))
    else Validate(bs[1..], dims, occ)
  }

  function RowBoxes(rows: seq<Row>): (r: seq<Box>)
    ensures |r| == |rows| && forall i :: 0 <= i < |rows| ==> r[i] == rows[i].box
  {
    seq(|rows|, i requires 0 <= i < |rows| => rows[i].box)
  }

  /** `a` is `b` with some elements left out, the rest in order. */
  predicate IsSubseq<T(==)>(a: seq<T>, b: seq<T>)
    decreases |b|
  {
    if a == [] then true
    else if b == [] then false
    else if a[0] == b[0] then IsSubseq(a[1..], b[1..])
    else IsSubseq(a, b[1..])
  }

  lemma {:induction false} SubseqOfSelf<T>(a: seq<T>)
    ensures IsSubseq(a, a)
  {
    if a != [] {
      SubseqOfSelf(a[1..]);
    }
  }

  /** A sub-sequence's elements come from the sequence, in order. */
  lemma {:induction false} SubseqMembers<T>(a: seq<T>, b: seq<T>)
    requires IsSubseq(a, b)
    ensures forall i :: 0 <= i < |a| ==> a[i] in b
    decreases |b|
  {
    if a != [] && b != [] {
      if a[0] == b[0] {
        SubseqMembers(a[1..], b[1..]);
        forall i | 0 <= i < |a|
          ensures a[i] in b
        {
          if i > 0 {
            assert a[i] == a[1..][i - 1];
          }
        }
      } else {
        SubseqMembers(a, b[1..]);
      }
    }
  }

  /** A sub-sequence of t is one of x followed by t, and stays one when
      its first element is dropped. */
  lemma {:induction false} SubseqCons<T>(a: seq<T>, t: seq<T>, x: T)
    requires IsSubseq(a, t)
    ensures IsSubseq(a, [x] + t)
    decreases |t|, 1
  {
    assert ([x] + t)[1..] == t;
    if a != [] && a[0] == x {
      SubseqDrop(a, t);
    }
  }

  lemma {:induction false} SubseqDrop<T>(a: seq<T>, t: seq<T>)
    requires a != [] && IsSubseq(a, t)
    ensures IsSubseq(a[1..], t)
    decreases |t|, 0
  {
    assert t != [];
    assert t == [t[0]] + t[1..];
    if a[0] == t[0] {
      SubseqCons(a[1..], t[1..], t[0]);
    } else {
      SubseqDrop(a, t[1..]);
      SubseqCons(a[1..], t[1..], t[0]);
    }
  }

  /** The accepted boxes are the input boxes with some left out, in input
      order. */
  lemma {:induction false} ValidateSubseq(bs: seq<Box>, dims: Dims, occ: set<Cell>)
    ensures IsSubseq(RowBoxes(Validate(bs, dims, occ)), bs)
  {
    if bs != [] {
      var c := Clipped(bs[0], dims);
      if c !! occ {
        ValidateSubseq(bs[1..], dims, occ + c);
        assert RowBoxes(Validate(bs, dims, occ))[1..] == RowBoxes(Validate(bs[1..], dims, occ + c));
      } else {
        ValidateSubseq(bs[1..], dims, occ);
        assert bs == [bs[0]] + bs[1..];
        SubseqCons(RowBoxes(Validate(bs, dims, occ)), bs[1..], bs[0]);
      }
    }
  }

  lemma MarkedAppend(rows: seq<Row>, row: Row, dims: Dims)
    ensures Marked(rows + [row], dims) == Marked(rows, dims) + Clipped(row.box, dims)
  {
    if rows == [] {
      assert [row][1..] == [];
    } else {
      assert (rows + [row])[1..] == rows[1..] + [row];
      MarkedAppend(rows[1..], row, dims);
    }
  }

  /** Appending one box: it is accepted exactly when none of its visited
      cells is marked, initially or by an earlier accepted box. */
  lemma {:induction false} ValidateSnoc(bs: seq<Box>, b: Box, dims: Dims, occ: set<Cell>)
    ensures var prev := Validate(bs, dims, occ);
      Validate(bs + [b], dims, occ)
      == prev + (if Clipped(b, dims) !! (occ + Marked(prev, dims)) then [Row(b, 0)] else [])
  {
    if bs == [] {
      assert [b][1..] == [];
    } else {
      var c := Clipped(bs[0], dims);
      assert (bs + [b])[0] == bs[0];
      assert (bs + [b])[1..] == bs[1..] + [b];
      if c !! occ {
        ValidateSnoc(bs[1..], b, dims, occ + c);
        assert occ + c + Marked(Validate(bs[1..], dims, occ + c), dims) == occ + Marked(Validate(bs, dims, occ), dims);
      } else {
        ValidateSnoc(bs[1..], b, dims, occ);
      }
    }
  }

  /** Two boxes visit no common cell. */
  ghost predicate VisitApart(a: Box, b: Box, dims: Dims) {
    Clipped(a, dims) !! Clipped(b, dims)
  }

  /** The rows' boxes visit pairwise-disjoint cells. */
  ghost predicate RowsApart(r: seq<Row>, dims: Dims) {
    forall i, j :: 0 <= i < j < |r| ==> VisitApart(r[i].box, r[j].box, dims)
  }

  /** The accepted boxes visit pairwise-disjoint cells, none of them marked
      at the start. */
  lemma {:induction false} ValidateDisjoint(bs: seq<Box>, dims: Dims, occ: set<Cell>)
    ensures Marked(Validate(bs, dims, occ), dims) !! occ
    ensures RowsApart(Validate(bs, dims, occ), dims)
  {
    if bs != [] {
      var c := Clipped(bs[0], dims);
      if c !! occ {
        ValidateDisjoint(bs[1..], dims, occ + c);
        var r := Validate(bs, dims, occ);
        var rest := Validate(bs[1..], dims, occ + c);
        assert r == [Row(bs[0], 0)] + rest;
        assert r[1..] == rest;
        assert Marked(r, dims) == c + Marked(rest, dims);
        forall i, j | 0 <= i < j < |r|
          ensures VisitApart(r[i].box, r[j].box, dims)
        {
          assert r[j] == rest[j - 1];
          assert Clipped(rest[j - 1].box, dims) <= Marked(rest, dims);
          if i > 0 {
            assert r[i] == rest[i - 1];
          }
        }
      } else {
        assert Validate(bs, dims, occ) == Validate(bs[1..], dims, occ);
        ValidateDisjoint(bs[1..], dims, occ);
      }
    }
  }

  /** Boxes whose visited cells are pairwise disjoint. */
  ghost predicate ClippedDisjoint(bs: seq<Box>, dims: Dims) {
    forall i, j :: 0 <= i < j < |bs| ==> VisitApart(bs[i], bs[j], dims)
  }

  /** Rows for every box, in order. */
  function AllRows(bs: seq<Box>): (r: seq<Row>)
    ensures |r| == |bs| && forall i :: 0 <= i < |bs| ==> r[i] == Row(bs[i], 0)
  {
    seq(|bs|, i requires 0 <= i < |bs| => Row(bs[i], 0))
  }

  /** Input boxes that already visit disjoint, unmarked cells are all
      accepted. */
  lemma {:induction false} ValidateKeepsDisjoint(bs: seq<Box>, dims: Dims, occ: set<Cell>)
    requires ClippedDisjoint(bs, dims)
    requires forall i :: 0 <= i < |bs| ==> Clipped(bs[i], dims) !! occ
    ensures Validate(bs, dims, occ) == AllRows(bs)
  {
    if bs != [] {
      var c := Clipped(bs[0], dims);
      var tail := bs[1..];
      assert ClippedDisjoint(tail, dims) by {
        forall i, j | 0 <= i < j < |tail|
          ensures VisitApart(tail[i], tail[j], dims)
        {
          assert tail[i] == bs[i + 1] && tail[j] == bs[j + 1];
        }
      }
      forall i | 0 <= i < |tail|
        ensures Clipped(tail[i], dims) !! occ + c
      {
        assert tail[i] == bs[i + 1];
      }
      ValidateKeepsDisjoint(tail, dims, occ + c);
    }
  }

  /** One more box of the input: the prefix's rows, plus the box when it
      visits no cell the prefix's rows marked. */
  lemma ValidatePrefixStep(bs: seq<Box>, dims: Dims, i: int)
    requires 0 <= i < |bs|
    ensures var prev := Validate(bs[..i], dims, {});
      Validate(bs[..i + 1], dims, {})
      == prev + (if Clipped(bs[i], dims) !! Marked(prev, dims) then [Row(bs[i], 0)] else [])
  {
    assert bs[..i + 1] == bs[..i] + [bs[i]];
    ValidateSnoc(bs[..i], bs[i], dims, {});
    assert {} + Marked(Validate(bs[..i], dims, {}), dims) == Marked(Validate(bs[..i], dims, {}), dims);
  }

  /** The compiled loop: one pass over the boxes with a mask of marked
      cells. */
  method ValidateLoop(bs: seq<Box>, dims: Dims) returns (rows: seq<Row>)
    ensures rows == Validate(bs, dims, {})
  {
    rows := [];
    var occupied: set<Cell> := {};
    var i := 0;
    while i < |bs|
      invariant 0 <= i <= |bs|
      invariant rows == Validate(bs[..i], dims, {})
      invariant occupied == Marked(rows, dims)
    {
      var b := bs[i];
      ValidatePrefixStep(bs, dims, i);
      var visited := Clipped(b, dims);
      if visited !! occupied {
        MarkedAppend(rows, Row(b, 0), dims);
        rows := rows + [Row(b, 0)];
        occupied := occupied + visited;
      }
      i := i + 1;
    }
    assert bs[..i] == bs;
  }

  // ---------------------------------------------------------------------
  // Instructions for one component
  // ---------------------------------------------------------------------

  /** The colour and class the lookup falls back to. */
  const DEFAULT_COLOR: string := "gray"
  const DEFAULT_KIND: string := "brick"

  function NegZ(c: Cube): int { -c.box.z }

  function CubeBoxes(cs: seq<Cube>): (r: seq<Box>)
    ensures |r| == |cs| && forall i :: 0 <= i < |cs| ==> r[i] == cs[i].box
  {
    seq(|cs|, i requires 0 <= i < |cs| => cs[i].box)
  }

  /** The origin of a box as the lookup's key. */
  predicate SameOrigin(c: Cube, b: Box) {
    c.box.x == b.x && c.box.y == b.y && c.box.z == b.z
  }

  /** The colour and class recorded for origin (b.x, b.y, b.z): the
      dictionary is built in input order, so the last cube with that origin
      wins; without one, the fallback is gray brick. */
  function Lookup(cs: seq<Cube>, b: Box): (string, Option<string>) {
    if cs == [] then (DEFAULT_COLOR, Some(DEFAULT_KIND))
    else if SameOrigin(cs[|cs| - 1], b) then (cs[|cs| - 1].color, cs[|cs| - 1].kind)
    else Lookup(cs[..|cs| - 1], b)
  }

  /** The lookup returns the entry of the last cube with the origin, and
      the fallback exactly when no cube has it. */
  lemma {:induction false} LookupLatest(cs: seq<Cube>, b: Box)
    ensures (forall i :: 0 <= i < |cs| ==> !SameOrigin(cs[i], b)) ==> Lookup(cs, b) == (DEFAULT_COLOR, Some(DEFAULT_KIND))
    ensures forall i :: 0 <= i < |cs| && SameOrigin(cs[i], b) && (forall j :: i < j < |cs| ==> !SameOrigin(cs[j], b))
                        ==> Lookup(cs, b) == (cs[i].color, cs[i].kind)
  {
    if cs != [] {
      var n := |cs| - 1;
      if !SameOrigin(cs[n], b) {
        LookupLatest(cs[..n], b);
        forall i | 0 <= i < |cs| && SameOrigin(cs[i], b) && (forall j :: i < j < |cs| ==> !SameOrigin(cs[j], b))
          ensures Lookup(cs, b) == (cs[i].color, cs[i].kind)
        {
          assert i < n;
          assert cs[..n][i] == cs[i];
          assert forall j :: i < j < |cs[..n]| ==> cs[..n][j] == cs[j];
        }
        assert (forall i :: 0 <= i < |cs| ==> !SameOrigin(cs[i], b)) ==> forall i :: 0 <= i < n ==> !SameOrigin(cs[..n][i], b);
      }
    }
  }

  /** An accepted row with its colour and class restored. */
  function Restore(r: Row, cs: seq<Cube>): Cube {
    var (color, kind) := Lookup(cs, r.box);
    Cube(r.box, color, kind)
  }

  /** The component's cubes in ascending z, as Python's stable `sorted`
      leaves them. */
  function ByZ(cs: seq<Cube>): seq<Cube> {
    SortDesc(cs, NegZ)
  }

  /** `generate_instructions_for_component`: nothing for no cubes;
      otherwise the cubes are stably sorted by z, re-validated against an
      empty mask of the component's shape, and each accepted box gets back
      the colour and class recorded for its origin. */
  function ForComponent(dims: Dims, cs: seq<Cube>): (r: seq<Cube>)
    ensures |r| <= |cs|
    ensures cs == [] ==> r == []
  {
    if cs == [] then []
    else
      var rows := Validate(CubeBoxes(ByZ(cs)), dims, {});
      seq(|rows|, i requires 0 <= i < |rows| => Restore(rows[i], cs))
  }

  /** Boxes in non-decreasing z. */
  ghost predicate ZAscending(bs: seq<Box>) {
    forall i, j :: 0 <= i < j < |bs| ==> bs[i].z <= bs[j].z
  }

  lemma {:induction false} SubseqAscending(a: seq<Box>, b: seq<Box>)
    requires IsSubseq(a, b) && ZAscending(b)
    ensures ZAscending(a)
    decreases |b|
  {
    if a != [] && b != [] {
      if a[0] == b[0] {
        SubseqAscending(a[1..], b[1..]);
        SubseqMembers(a[1..], b[1..]);
        forall i, j | 0 <= i < j < |a|
          ensures a[i].z <= a[j].z
        {
          assert a[j] == a[1..][j - 1];
          var m :| 0 <= m < |b[1..]| && b[1..][m] == a[j];
          assert b[0].z <= b[m + 1].z;
          if i > 0 {
            assert a[i] == a[1..][i - 1];
          }
        }
      } else {
        SubseqAscending(a, b[1..]);
      }
    }
  }

  /** The component's instructions are boxes of its cubes, taken in
      ascending z without reordering, and they visit pairwise-disjoint
      cells. */
  lemma ForComponentOrder(dims: Dims, cs: seq<Cube>)
    ensures IsSubseq(CubeBoxes(ForComponent(dims, cs)), CubeBoxes(ByZ(cs)))
    ensures ZAscending(CubeBoxes(ForComponent(dims, cs)))
    ensures forall i, j :: 0 <= i < j < |ForComponent(dims, cs)| ==> VisitApart(ForComponent(dims, cs)[i].box, ForComponent(dims, cs)[j].box, dims)
  {
    var r := ForComponent(dims, cs);
    if cs == [] {
    } else {
      var sorted := ByZ(cs);
      var rows := Validate(CubeBoxes(sorted), dims, {});
      assert CubeBoxes(r) == RowBoxes(rows);
      ValidateSubseq(CubeBoxes(sorted), dims, {});
      ValidateDisjoint(CubeBoxes(sorted), dims, {});
      SortDescCorrect(cs, NegZ);
      assert ZAscending(CubeBoxes(sorted)) by {
        assert forall i, j :: 0 <= i < j < |sorted| ==> NegZ(sorted[i]) >= NegZ(sorted[j]);
      }
      SubseqAscending(RowBoxes(rows), CubeBoxes(sorted));
      forall i, j | 0 <= i < j < |r|
        ensures VisitApart(r[i].box, r[j].box, dims)
      {
        assert r[i].box == rows[i].box && r[j].box == rows[j].box;
      }
    }
  }

  /** Each instruction is the box of one of the component's cubes and
      carries the colour and class of the last cube with its origin; the
      gray-brick fallback is therefore never used. */
  lemma ForComponentOrigins(dims: Dims, cs: seq<Cube>)
    ensures var r := ForComponent(dims, cs);
      forall i :: 0 <= i < |r| ==> exists k :: 0 <= k < |cs| && cs[k].box == r[i].box
    ensures var r := ForComponent(dims, cs);
      forall i, k :: 0 <= i < |r| && 0 <= k < |cs| && SameOrigin(cs[k], r[i].box)
                     && (forall j :: k < j < |cs| ==> !SameOrigin(cs[j], r[i].box))
                     ==> r[i].color == cs[k].color && r[i].kind == cs[k].kind
  {
    var r := ForComponent(dims, cs);
    if cs != [] {
      var sorted := ByZ(cs);
      var rows := Validate(CubeBoxes(sorted), dims, {});
      ValidateSubseq(CubeBoxes(sorted), dims, {});
      SubseqMembers(RowBoxes(rows), CubeBoxes(sorted));
      forall i | 0 <= i < |r|
        ensures exists k :: 0 <= k < |cs| && cs[k].box == r[i].box
      {
        assert r[i].box == RowBoxes(rows)[i];
        var m :| 0 <= m < |sorted| && CubeBoxes(sorted)[m] == r[i].box;
        assert sorted[m] in multiset(cs);
        var k :| 0 <= k < |cs| && cs[k] == sorted[m];
      }
      forall i, k | 0 <= i < |r| && 0 <= k < |cs| && SameOrigin(cs[k], r[i].box)
                    && (forall j :: k < j < |cs| ==> !SameOrigin(cs[j], r[i].box))
        ensures r[i].color == cs[k].color && r[i].kind == cs[k].kind
      {
        LookupLatest(cs, r[i].box);
      }
    }
  }

  // ---------------------------------------------------------------------
  // Connected components (oracle contract) and the sequential driver
  // ---------------------------------------------------------------------

  /** A labelled array with its number of components: `labelOf(c)` is the
      component of cell c, 0 for background. */
  datatype Labeling = Labeling(labelOf: Cell -> int, count: int)

  /** The cluster identifiers the clustering assigns to the set cells; -1
      marks noise. */
  function ClusterIds(g: VoxelGrid, cluster: Cell -> int): set<int> {
    set c | c in g.cells :: cluster(c)
  }

  /** The density clustering path: each set cell gets its cluster
      identifier plus one, noise and unset cells get 0, and the count is
      the number of identifiers less one when noise occurs. */
  function DbscanLabeling(g: VoxelGrid, cluster: Cell -> int): Labeling {
    var ids := ClusterIds(g, cluster);
    Labeling(c => if c in g.cells && cluster(c) != -1 then cluster(c) + 1 else 0,
             |ids| - (if -1 in ids then 1 else 0))
  }

  /** `find_connected_components`. The 26-connectivity labelling of the
      'connected' method and the cluster identifiers of the 'dbscan'
      method are given as `connected` and `cluster`. An empty grid (no set
      cells, which includes a grid of size 0) yields all-zero labels and no
      component, whatever the method; otherwise an unknown method fails. */
  function FindComponents(g: VoxelGrid, clustering: string, connected: Labeling, cluster: Cell -> int): (r: Result<Labeling>)
    ensures g.cells == {} ==> r.Success? && r.value.count == 0 && forall c :: r.value.labelOf(c) == 0
    ensures g.cells != {} && clustering == "connected" ==> r == Success(connected)
  {
    if g.cells == {} then Success(Labeling(c => 0, 0))
    else if clustering == "connected" then Success(connected)
    else if clustering == "dbscan" then Success(DbscanLabeling(g, cluster))
    else Failure("Unsupported clustering method: " + clustering)
  }

  /** The labelling fails exactly for an unknown method on a non-empty
      grid. */
  lemma FindComponentsFails(g: VoxelGrid, clustering: string, connected: Labeling, cluster: Cell -> int)
    ensures FindComponents(g, clustering, connected, cluster).Failure?
            <==> g.cells != {} && clustering != "connected" && clustering != "dbscan"
    ensures FindComponents(g, clustering, connected, cluster).Failure?
            ==> FindComponents(g, clustering, connected, cluster).error == "Unsupported clustering method: " + clustering
  {
  }

  /** On the density clustering path, noise and unset cells stay at 0,
      every clustered cell gets a positive label one above its identifier,
      and the count is the number of distinct non-noise identifiers. */
  lemma DbscanLabels(g: VoxelGrid, cluster: Cell -> int)
    requires g.cells != {}
    requires forall c :: c in g.cells ==> cluster(c) >= -1
    ensures FindComponents(g, "dbscan", Labeling(c => 0, 0), cluster).Success?
    ensures var lab := FindComponents(g, "dbscan", Labeling(c => 0, 0), cluster).value;
      && lab.count == |ClusterIds(g, cluster) - {-1}|
      && (forall c :: c !in g.cells ==> lab.labelOf(c) == 0)
      && (forall c :: c in g.cells ==> (lab.labelOf(c) == 0 <==> cluster(c) == -1))
      && (forall c :: c in g.cells && cluster(c) != -1 ==> lab.labelOf(c) == cluster(c) + 1 >= 1)
  {
    var ids := ClusterIds(g, cluster);
    if -1 in ids {
      assert ids == (ids - {-1}) + {-1};
    } else {
      assert ids - {-1} == ids;
    }
  }

  /** The cubes whose origin lies in the grid on component l, in input
      order. */
  function Group(cs: seq<Cube>, dims: Dims, lab: Labeling, l: int): (r: seq<Cube>)
    ensures |r| <= |cs|
  {
    if cs == [] then []
    else
      (if InGrid(dims, cs[0].box.Origin()) && lab.labelOf(cs[0].box.Origin()) == l then [cs[0]] else [])
      + Group(cs[1..], dims, lab, l)
  }

  /** A cube joins exactly the component at its origin, and only when the
      origin is in the grid; groups keep input order. */
  lemma {:induction false} GroupMembers(cs: seq<Cube>, dims: Dims, lab: Labeling, l: int)
    ensures forall x :: x in Group(cs, dims, lab, l) <==> x in cs && InGrid(dims, x.box.Origin()) && lab.labelOf(x.box.Origin()) == l
    ensures IsSubseq(Group(cs, dims, lab, l), cs)
  {
    if cs != [] {
      GroupMembers(cs[1..], dims, lab, l);
      assert cs == [cs[0]] + cs[1..];
      var rest := Group(cs[1..], dims, lab, l);
      if InGrid(dims, cs[0].box.Origin()) && lab.labelOf(cs[0].box.Origin()) == l {
        assert Group(cs, dims, lab, l) == [cs[0]] + rest;
        assert Group(cs, dims, lab, l)[1..] == rest;
      } else {
        assert Group(cs, dims, lab, l) == rest;
        SubseqCons(rest, cs[1..], cs[0]);
      }
    }
  }

  /** Some kept cube's origin carries a positive label with no component:
      the source's per-label dictionary has no such key. */
  predicate UnknownLabel(cs: seq<Cube>, dims: Dims, lab: Labeling) {
    exists k :: 0 <= k < |cs| && InGrid(dims, cs[k].box.Origin())
                && lab.labelOf(cs[k].box.Origin()) > 0 && lab.labelOf(cs[k].box.Origin()) > lab.count
  }

  /** The components l, l+1, ..., count in label order, each processed
      with its own group. */
  function Components(dims: Dims, cs: seq<Cube>, lab: Labeling, l: int): seq<Cube>
    decreases lab.count - l + 1
  {
    if l > lab.count then []
    else ForComponent(dims, Group(cs, dims, lab, l)) + Components(dims, cs, lab, l + 1)
  }

  /** `generate_instructions` on its sequential path. A failed labelling
      propagates; no component gives no instructions; a kept cube on a
      label beyond the count fails as the dictionary lookup does. */
  function GenerateInstructions(g: VoxelGrid, cs: seq<Cube>, clustering: string, connected: Labeling,
                                cluster: Cell -> int): (r: Result<seq<Cube>>)
    ensures FindComponents(g, clustering, connected, cluster).Failure? ==> r.Failure?
  {
    var lab :- FindComponents(g, clustering, connected, cluster);
    if lab.count == 0 then Success([])
    else if UnknownLabel(cs, g.dims, lab) then Failure("KeyError")
    else Success(Components(g.dims, cs, lab, 1))
  }

  /** No component (in particular an empty grid) gives no instructions. */
  lemma GenerateNoComponents(g: VoxelGrid, cs: seq<Cube>, clustering: string, connected: Labeling, cluster: Cell -> int)
    requires FindComponents(g, clustering, connected, cluster).Success?
    requires FindComponents(g, clustering, connected, cluster).value.count == 0
    ensures GenerateInstructions(g, cs, clustering, connected, cluster) == Success([])
  {
  }

  function OriginLabel(lab: Labeling, x: Cube): int {
    lab.labelOf(x.box.Origin())
  }

  /** Box b is the box of some cube of cs. */
  ghost predicate FromInput(cs: seq<Cube>, b: Box) {
    exists k :: 0 <= k < |cs| && cs[k].box == b
  }

  /** Every instruction is the box of an input cube whose origin is in the
      grid on a component between lo and the count. */
  ghost predicate OnComponents(r: seq<Cube>, cs: seq<Cube>, dims: Dims, lab: Labeling, lo: int) {
    forall i :: 0 <= i < |r| ==> InGrid(dims, r[i].box.Origin()) && lo <= OriginLabel(lab, r[i]) <= lab.count && FromInput(cs, r[i].box)
  }

  /** The instructions come in non-decreasing component order. */
  ghost predicate InLabelOrder(r: seq<Cube>, lab: Labeling) {
    forall i, j :: 0 <= i < j < |r| ==> OriginLabel(lab, r[i]) <= OriginLabel(lab, r[j])
  }

  /** One component's instructions lie on that component. */
  ghost predicate OnComponent(r: seq<Cube>, cs: seq<Cube>, dims: Dims, lab: Labeling, l: int) {
    forall i :: 0 <= i < |r| ==> InGrid(dims, r[i].box.Origin()) && OriginLabel(lab, r[i]) == l && FromInput(cs, r[i].box)
  }

  lemma ForGroupOnLabel(dims: Dims, cs: seq<Cube>, lab: Labeling, l: int)
    ensures OnComponent(ForComponent(dims, Group(cs, dims, lab, l)), cs, dims, lab, l)
  {
    var grp := Group(cs, dims, lab, l);
    var r := ForComponent(dims, grp);
    ForComponentOrigins(dims, grp);
    GroupMembers(cs, dims, lab, l);
    forall i | 0 <= i < |r|
      ensures InGrid(dims, r[i].box.Origin()) && OriginLabel(lab, r[i]) == l && FromInput(cs, r[i].box)
    {
      var k :| 0 <= k < |grp| && grp[k].box == r[i].box;
      assert grp[k] in grp;
      var m :| 0 <= m < |cs| && cs[m] == grp[k];
    }
  }

  lemma ConcatOnComponents(a: seq<Cube>, b: seq<Cube>, cs: seq<Cube>, dims: Dims, lab: Labeling, l: int)
    requires l <= lab.count
    requires OnComponent(a, cs, dims, lab, l) && OnComponents(b, cs, dims, lab, l + 1)
    ensures OnComponents(a + b, cs, dims, lab, l)
  {
    forall i | 0 <= i < |a + b|
      ensures (a + b)[i] == if i < |a| then a[i] else b[i - |a|]
    {
    }
  }

  lemma ConcatLabelOrder(a: seq<Cube>, b: seq<Cube>, cs: seq<Cube>, dims: Dims, lab: Labeling, l: int)
    requires OnComponent(a, cs, dims, lab, l) && OnComponents(b, cs, dims, lab, l + 1) && InLabelOrder(b, lab)
    ensures InLabelOrder(a + b, lab)
  {
    var r := a + b;
    forall i, j | 0 <= i < j < |r|
      ensures OriginLabel(lab, r[i]) <= OriginLabel(lab, r[j])
    {
      if j >= |a| {
        assert r[j] == b[j - |a|];
        if i >= |a| {
          assert r[i] == b[i - |a|];
        } else {
          assert r[i] == a[i];
        }
      } else {
        assert r[i] == a[i] && r[j] == a[j];
      }
    }
  }

  lemma ComponentsOrdered(dims: Dims, cs: seq<Cube>, lab: Labeling, l: int)
    ensures OnComponents(Components(dims, cs, lab, l), cs, dims, lab, l)
    ensures InLabelOrder(Components(dims, cs, lab, l), lab)
  {
    ComponentsOn(dims, cs, lab, l);
    ComponentsInOrder(dims, cs, lab, l);
  }

  lemma {:induction false} ComponentsOn(dims: Dims, cs: seq<Cube>, lab: Labeling, l: int)
    ensures OnComponents(Components(dims, cs, lab, l), cs, dims, lab, l)
    decreases lab.count - l + 1
  {
    if l <= lab.count {
      var a, b := ComponentsSplit(dims, cs, lab, l);
      ForGroupOnLabel(dims, cs, lab, l);
      ComponentsOn(dims, cs, lab, l + 1);
      ConcatOnComponents(a, b, cs, dims, lab, l);
    }
  }

  lemma {:induction false} ComponentsInOrder(dims: Dims, cs: seq<Cube>, lab: Labeling, l: int)
    ensures InLabelOrder(Components(dims, cs, lab, l), lab)
    decreases lab.count - l + 1
  {
    if l <= lab.count {
      var a, b := ComponentsSplit(dims, cs, lab, l);
      ForGroupOnLabel(dims, cs, lab, l);
      ComponentsOn(dims, cs, lab, l + 1);
      ComponentsInOrder(dims, cs, lab, l + 1);
      ConcatLabelOrder(a, b, cs, dims, lab, l);
    }
  }

  /** One component's instructions, then those of the later labels. */
  lemma ComponentsSplit(dims: Dims, cs: seq<Cube>, lab: Labeling, l: int) returns (a: seq<Cube>, b: seq<Cube>)
    requires l <= lab.count
    ensures a == ForComponent(dims, Group(cs, dims, lab, l)) && b == Components(dims, cs, lab, l + 1)
    ensures Components(dims, cs, lab, l) == a + b
  {
    a := ForComponent(dims, Group(cs, dims, lab, l));
    b := Components(dims, cs, lab, l + 1);
  }

  /** The instructions are boxes of input cubes lying in the grid on a
      component, grouped component by component in label order; the
      labelling's failure, an empty labelling and an unknown label are the
      only other outcomes. */
  lemma GenerateSound(g: VoxelGrid, cs: seq<Cube>, clustering: string, connected: Labeling, cluster: Cell -> int)
    ensures var r := GenerateInstructions(g, cs, clustering, connected, cluster);
      var f := FindComponents(g, clustering, connected, cluster);
      r.Failure? <==> f.Failure? || (f.value.count != 0 && UnknownLabel(cs, g.dims, f.value))
    ensures var r := GenerateInstructions(g, cs, clustering, connected, cluster);
      var f := FindComponents(g, clustering, connected, cluster);
      r.Success? && f.value.count != 0 ==> OnComponents(r.value, cs, g.dims, f.value, 1) && InLabelOrder(r.value, f.value)
  {
    var f := FindComponents(g, clustering, connected, cluster);
    if f.Success? && f.value.count != 0 {
      ComponentsOrdered(g.dims, cs, f.value, 1);
    }
  }

  // ---------------------------------------------------------------------
  // Build steps
  // ---------------------------------------------------------------------

  /** The default number of cubes per step. */
  const MAX_BRICKS_PER_STEP: int := 50

  function ZKey(c: Cube): int { c.box.z }

  function MinZ(cs: seq<Cube>): (m: int)
    requires cs != []
    ensures exists i :: 0 <= i < |cs| && cs[i].box.z == m
    ensures forall i :: 0 <= i < |cs| ==> m <= cs[i].box.z
  {
    if |cs| == 1 then cs[0].box.z
    else
      var m := MinZ(cs[1..]);
      assert forall i :: 1 <= i < |cs| ==> cs[i] == cs[1..][i - 1];
      if cs[0].box.z <= m then cs[0].box.z else m
  }

  /** The cubes not on layer m, in order. */
  function Others(cs: seq<Cube>, m: int): (r: seq<Cube>)
    ensures |r| + |KeyFilter(cs, ZKey, m)| == |cs|
    ensures forall i :: 0 <= i < |r| ==> r[i].box.z != m && r[i] in cs
  {
    if cs == [] then []
    else (if cs[0].box.z != m then [cs[0]] else []) + Others(cs[1..], m)
  }

  lemma {:induction false} OthersKeep(cs: seq<Cube>, m: int, v: int)
    requires v != m
    ensures KeyFilter(Others(cs, m), ZKey, v) == KeyFilter(cs, ZKey, v)
  {
    if cs != [] {
      OthersKeep(cs[1..], m, v);
      var head := if cs[0].box.z != m then [cs[0]] else [];
      KeyFilterConcat(head, Others(cs[1..], m), ZKey, v);
      if cs[0].box.z != m {
        KeyFilterSingle(cs[0], ZKey, v);
      } else {
        assert KeyFilter(head, ZKey, v) == [];
      }
    }
  }

  lemma {:induction false} KeyFilterHas(s: seq<Cube>, v: int, i: nat)
    requires i < |s| && ZKey(s[i]) == v
    ensures |KeyFilter(s, ZKey, v)| >= 1
  {
    if i > 0 {
      KeyFilterHas(s[1..], v, i - 1);
    }
  }

  /** `range(0, len(s), n)` slices of at most n cubes; a negative n gives
      an empty range. */
  function Chunks(s: seq<Cube>, n: int): seq<seq<Cube>>
    decreases |s|
  {
    if n <= 0 || s == [] then []
    else if |s| <= n then [s]
    else [s[..n]] + Chunks(s[n..], n)
  }

  /** Layers in ascending z, each cut into steps of at most n cubes. */
  function Layers(cs: seq<Cube>, n: int): seq<seq<Cube>>
    decreases |cs|
  {
    if cs == [] then []
    else
      var m := MinZ(cs);
      var i :| 0 <= i < |cs| && cs[i].box.z == m;
      KeyFilterHas(cs, m, i);
      Chunks(KeyFilter(cs, ZKey, m), n) + Layers(Others(cs, m), n)
  }

  /** `get_layer_steps(cubes, max_bricks_per_step)`: a step size of 0
      fails as `range` does, but only once some layer is cut. */
  function LayerSteps(cs: seq<Cube>, n: int): (r: Result<seq<seq<Cube>>>)
    ensures r.Failure? <==> cs != [] && n == 0
  {
    if cs != [] && n == 0 then Failure("range() arg 3 must not be zero")
    else Success(Layers(cs, n))
  }

  /** Every cube of every step comes from `cs`. */
  ghost predicate StepsFrom(steps: seq<seq<Cube>>, cs: seq<Cube>) {
    forall i, a :: 0 <= i < |steps| && 0 <= a < |steps[i]| ==> steps[i][a] in cs
  }

  /** Every step holds between 1 and n cubes, all on the layer of its first
      cube. */
  ghost predicate StepsShaped(steps: seq<seq<Cube>>, n: int) {
    forall i :: 0 <= i < |steps| ==> 1 <= |steps[i]| <= n && forall a :: 0 <= a < |steps[i]| ==> steps[i][a].box.z == steps[i][0].box.z
  }

  /** Later steps are on the same or a higher layer. */
  ghost predicate StepsAscending(steps: seq<seq<Cube>>) {
    forall i, j :: 0 <= i < j < |steps| && |steps[i]| > 0 && |steps[j]| > 0 ==> steps[i][0].box.z <= steps[j][0].box.z
  }

  /** The steps read back as the layer; each holds between 1 and n cubes,
      and every step but the last holds exactly n, so step i is the slice
      starting at i * n, as `range(0, len(s), n)` cuts; there are
      ceil(|s| / n) of them. */
  lemma {:induction false} ChunksSpec(s: seq<Cube>, n: int)
    requires n > 0
    ensures Flatten(Chunks(s, n)) == s
    ensures StepsFrom(Chunks(s, n), s)
    ensures forall i :: 0 <= i < |Chunks(s, n)| ==> 1 <= |Chunks(s, n)[i]| <= n
    ensures forall i :: 0 <= i < |Chunks(s, n)| - 1 ==> |Chunks(s, n)[i]| == n
    ensures |Chunks(s, n)| == (|s| + n - 1) / n
    decreases |s|
  {
    var q := |Chunks(s, n)|;
    if s != [] && |s| > n {
      var rest := Chunks(s[n..], n);
      ChunksSpec(s[n..], n);
      assert Chunks(s, n) == [s[..n]] + rest;
      ConsChunk(s, n, rest);
      ChunksFullCons(s[..n], rest, n);
      ChunkCountStep(|s|, n, |rest|);
    } else if s != [] {
      assert Chunks(s, n) == [s];
      assert Flatten([s]) == s + Flatten([]);
      DivModUnique(|s| + n - 1, n, 1, |s| - 1);
    } else {
      DivModUnique(n - 1, n, 0, n - 1);
    }
  }

  /** A full step in front of steps that are full but for the last. */
  lemma ChunksFullCons(first: seq<Cube>, rest: seq<seq<Cube>>, n: int)
    requires |first| == n
    requires forall i :: 0 <= i < |rest| - 1 ==> |rest[i]| == n
    ensures forall i :: 0 <= i < |[first] + rest| - 1 ==> |([first] + rest)[i]| == n
  {
    forall i | 1 <= i < |[first] + rest| - 1
      ensures |([first] + rest)[i]| == n
    {
      assert ([first] + rest)[i] == rest[i - 1];
    }
  }

  /** Cutting n more cubes adds one step to the ceiling. */
  lemma ChunkCountStep(len: int, n: int, k: int)
    requires 0 < n < len && k == (len - n + n - 1) / n
    ensures 1 + k == (len + n - 1) / n
  {
    var d := (len - 1) / n;
    var m := (len - 1) % n;
    assert len - 1 == d * n + m && 0 <= m < n;
    assert len + n - 1 == (d + 1) * n + m;
    DivModUnique(len + n - 1, n, d + 1, m);
  }

  /** The first n cubes as a step, in front of the steps of the rest. */
  lemma ConsChunk(s: seq<Cube>, n: int, rest: seq<seq<Cube>>)
    requires 0 < n < |s|
    requires Flatten(rest) == s[n..] && StepsFrom(rest, s[n..])
    requires forall i :: 0 <= i < |rest| ==> 1 <= |rest[i]| <= n
    ensures Flatten([s[..n]] + rest) == s
    ensures StepsFrom([s[..n]] + rest, s)
    ensures forall i :: 0 <= i < |[s[..n]] + rest| ==> 1 <= |([s[..n]] + rest)[i]| <= n
  {
    var r := [s[..n]] + rest;
    assert r[1..] == rest;
    assert s[..n] + s[n..] == s;
    forall i, a | 0 <= i < |r| && 0 <= a < |r[i]|
      ensures r[i][a] in s
    {
      if i > 0 {
        assert r[i] == rest[i - 1];
        assert rest[i - 1][a] in s[n..];
      } else {
        assert r[0][a] == s[a];
      }
    }
    forall i | 0 <= i < |r|
      ensures 1 <= |r[i]| <= n
    {
      if i > 0 {
        assert r[i] == rest[i - 1];
      }
    }
  }

  lemma StepsConcat(a: seq<seq<Cube>>, b: seq<seq<Cube>>, xs: seq<Cube>, ys: seq<Cube>, cs: seq<Cube>, n: int)
    requires StepsFrom(a, xs) && StepsFrom(b, ys)
    requires forall x :: x in xs ==> x in cs
    requires forall y :: y in ys ==> y in cs
    requires StepsShaped(a, n) && StepsShaped(b, n)
    ensures StepsFrom(a + b, cs) && StepsShaped(a + b, n)
  {
    forall i | |a| <= i < |a + b|
      ensures (a + b)[i] == b[i - |a|]
    {
    }
  }

  lemma {:induction false} LayersShape(cs: seq<Cube>, n: int)
    requires n > 0
    ensures StepsFrom(Layers(cs, n), cs) && StepsShaped(Layers(cs, n), n)
    decreases |cs|
  {
    if cs != [] {
      var m := MinZ(cs);
      var f := KeyFilter(cs, ZKey, m);
      var o := Others(cs, m);
      var i :| 0 <= i < |cs| && cs[i].box.z == m;
      KeyFilterHas(cs, m, i);
      LayersShape(o, n);
      ChunksSpec(f, n);
      KeyFilterMembers(cs, m);
      var ch := Chunks(f, n);
      assert StepsShaped(ch, n) by {
        forall k, a | 0 <= k < |ch| && 0 <= a < |ch[k]|
          ensures ch[k][a].box.z == m
        {
          assert ch[k][a] in f;
        }
      }
      StepsConcat(ch, Layers(o, n), f, o, cs, n);
    }
  }

  lemma {:induction false} KeyFilterMembers(cs: seq<Cube>, m: int)
    ensures forall x :: x in KeyFilter(cs, ZKey, m) ==> x in cs && x.box.z == m
  {
    if cs != [] {
      KeyFilterMembers(cs[1..], m);
    }
  }

  /** Unfolding one layer: the steps read back as that layer followed by
      the rest. */
  lemma LayersUnfold(cs: seq<Cube>, n: int)
    requires n > 0 && cs != []
    ensures Flatten(Layers(cs, n)) == KeyFilter(cs, ZKey, MinZ(cs)) + Flatten(Layers(Others(cs, MinZ(cs)), n))
  {
    var m := MinZ(cs);
    var f := KeyFilter(cs, ZKey, m);
    var i :| 0 <= i < |cs| && cs[i].box.z == m;
    KeyFilterHas(cs, m, i);
    ChunksSpec(f, n);
    FlattenConcat(Chunks(f, n), Layers(Others(cs, m), n));
  }

  lemma {:induction false} LayersMembers(cs: seq<Cube>, n: int)
    requires n > 0
    ensures forall x :: x in Flatten(Layers(cs, n)) ==> x in cs
    decreases |cs|
  {
    if cs != [] {
      var m := MinZ(cs);
      var i :| 0 <= i < |cs| && cs[i].box.z == m;
      KeyFilterHas(cs, m, i);
      LayersMembers(Others(cs, m), n);
      LayersUnfold(cs, n);
      KeyFilterMembers(cs, m);
    }
  }

  /** Read back in order, the steps keep, for every layer, exactly the
      input's cubes of that layer in input order. */
  lemma {:induction false} LayersKeyFilter(cs: seq<Cube>, n: int, v: int)
    requires n > 0
    ensures KeyFilter(Flatten(Layers(cs, n)), ZKey, v) == KeyFilter(cs, ZKey, v)
    decreases |cs|
  {
    if cs != [] {
      var m := MinZ(cs);
      var f := KeyFilter(cs, ZKey, m);
      var o := Others(cs, m);
      var i :| 0 <= i < |cs| && cs[i].box.z == m;
      KeyFilterHas(cs, m, i);
      LayersKeyFilter(o, n, v);
      LayersUnfold(cs, n);
      var rest := Flatten(Layers(o, n));
      KeyFilterConcat(f, rest, ZKey, v);
      if v == m {
        KeyFilterAll(f, ZKey, m);
        KeyFilterAbsent(o, ZKey, m);
      } else {
        KeyFilterAbsent(f, ZKey, v);
        OthersKeep(cs, m, v);
      }
    }
  }

  /** Cubes in non-decreasing z. */
  ghost predicate CubesAscending(cs: seq<Cube>) {
    forall i, j :: 0 <= i < j < |cs| ==> cs[i].box.z <= cs[j].box.z
  }

  lemma ConcatAscending(f: seq<Cube>, rest: seq<Cube>, m: int)
    requires forall x :: x in f ==> x.box.z == m
    requires forall x :: x in rest ==> x.box.z > m
    requires CubesAscending(rest)
    ensures CubesAscending(f + rest)
  {
    var r := f + rest;
    forall a, b | 0 <= a < b < |r|
      ensures r[a].box.z <= r[b].box.z
    {
      if b >= |f| {
        assert r[b] == rest[b - |f|];
        if a >= |f| {
          assert r[a] == rest[a - |f|];
        } else {
          assert r[a] == f[a];
        }
      } else {
        assert r[a] == f[a] && r[b] == f[b];
      }
    }
  }

  /** The steps after the lowest layer hold only cubes above it. */
  lemma RestAbove(cs: seq<Cube>, n: int)
    requires n > 0 && cs != []
    ensures forall x :: x in Flatten(Layers(Others(cs, MinZ(cs)), n)) ==> x.box.z > MinZ(cs)
  {
    var m := MinZ(cs);
    var o := Others(cs, m);
    LayersMembers(o, n);
    forall x | x in Flatten(Layers(o, n))
      ensures x.box.z > m
    {
      var k :| 0 <= k < |o| && o[k] == x;
      var j :| 0 <= j < |cs| && cs[j] == x;
    }
  }

  /** Read back in order, the steps are in ascending z. */
  lemma {:induction false} LayersSorted(cs: seq<Cube>, n: int)
    requires n > 0
    ensures CubesAscending(Flatten(Layers(cs, n)))
    decreases |cs|
  {
    if cs != [] {
      var m := MinZ(cs);
      var o := Others(cs, m);
      var i :| 0 <= i < |cs| && cs[i].box.z == m;
      KeyFilterHas(cs, m, i);
      LayersSorted(o, n);
      RestAbove(cs, n);
      LayersUnfold(cs, n);
      KeyFilterMembers(cs, m);
      ConcatAscending(KeyFilter(cs, ZKey, m), Flatten(Layers(o, n)), m);
    }
  }

  /** Later steps never go down a layer. */
  lemma {:induction false} LayersAscending(cs: seq<Cube>, n: int)
    requires n > 0
    ensures StepsAscending(Layers(cs, n))
    decreases |cs|
  {
    if cs != [] {
      var m := MinZ(cs);
      var i :| 0 <= i < |cs| && cs[i].box.z == m;
      KeyFilterHas(cs, m, i);
      LayersSplit(cs, n);
      LayersAscending(Others(cs, m), n);
      LowestLayerSteps(cs, n);
      HigherLayerSteps(cs, n);
      AscendingConcat(Chunks(KeyFilter(cs, ZKey, m), n), Layers(Others(cs, m), n), m);
    }
  }

  /** The steps cut from the lowest layer all start on that layer. */
  lemma LowestLayerSteps(cs: seq<Cube>, n: int)
    requires n > 0 && cs != []
    ensures var a := Chunks(KeyFilter(cs, ZKey, MinZ(cs)), n);
      forall i :: 0 <= i < |a| && |a[i]| > 0 ==> a[i][0].box.z == MinZ(cs)
  {
    var m := MinZ(cs);
    var f := KeyFilter(cs, ZKey, m);
    var a: seq<seq<Cube>> := Chunks(f, n);
    ChunksSpec(f, n);
    KeyFilterMembers(cs, m);
    forall i | 0 <= i < |a| && |a[i]| > 0
      ensures a[i][0].box.z == m
    {
      assert a[i][0] in f;
    }
  }

  /** The steps of the other cubes all start above the lowest layer. */
  lemma HigherLayerSteps(cs: seq<Cube>, n: int)
    requires n > 0 && cs != []
    ensures var b := Layers(Others(cs, MinZ(cs)), n);
      forall j :: 0 <= j < |b| && |b[j]| > 0 ==> MinZ(cs) < b[j][0].box.z
  {
    var m := MinZ(cs);
    var o := Others(cs, m);
    LayersShape(o, n);
    forall x | x in o
      ensures m < x.box.z
    {
      var k :| 0 <= k < |o| && o[k] == x;
      assert o[k].box.z != m && o[k] in cs;
      AtLeastMinZ(cs, o[k]);
    }
    HeadsAbove(Layers(o, n), o, m);
  }

  /** Steps drawn from cubes above layer m all start above it. */
  lemma HeadsAbove(b: seq<seq<Cube>>, o: seq<Cube>, m: int)
    requires StepsFrom(b, o) && forall x :: x in o ==> m < x.box.z
    ensures forall j :: 0 <= j < |b| && |b[j]| > 0 ==> m < b[j][0].box.z
  {
    forall j | 0 <= j < |b| && |b[j]| > 0
      ensures m < b[j][0].box.z
    {
      assert b[j][0] in o;
    }
  }

  lemma AtLeastMinZ(cs: seq<Cube>, x: Cube)
    requires x in cs
    ensures MinZ(cs) <= x.box.z
  {
    var k :| 0 <= k < |cs| && cs[k] == x;
  }

  /** The steps of the lowest layer come first, then the steps of the
      other cubes. */
  lemma LayersSplit(cs: seq<Cube>, n: int)
    requires cs != []
    ensures Layers(cs, n) == Chunks(KeyFilter(cs, ZKey, MinZ(cs)), n) + Layers(Others(cs, MinZ(cs)), n)
  {
  }

  /** Only the last step of each layer may hold fewer than n cubes: a step
      followed by one on the same layer is full. */
  ghost predicate StepsFull(steps: seq<seq<Cube>>, n: int) {
    forall i :: (0 <= i < |steps| - 1 && |steps[i]| > 0 && |steps[i + 1]| > 0 &&
                 steps[i + 1][0].box.z == steps[i][0].box.z) ==> |steps[i]| == n
  }

  /** Every step of every layer but the layer's last is full. */
  lemma {:induction false} LayersFull(cs: seq<Cube>, n: int)
    requires n > 0
    ensures StepsFull(Layers(cs, n), n)
    decreases |cs|
  {
    if cs != [] {
      var m := MinZ(cs);
      var i :| 0 <= i < |cs| && cs[i].box.z == m;
      KeyFilterHas(cs, m, i);
      LayersSplit(cs, n);
      LayersFull(Others(cs, m), n);
      ChunksSpec(KeyFilter(cs, ZKey, m), n);
      LowestLayerSteps(cs, n);
      HigherLayerSteps(cs, n);
      FullConcat(Chunks(KeyFilter(cs, ZKey, m), n), Layers(Others(cs, m), n), n, m);
    }
  }

  /** One layer's steps, full but for the last, followed by steps that all
      start on higher layers. */
  lemma FullConcat(a: seq<seq<Cube>>, b: seq<seq<Cube>>, n: int, m: int)
    requires forall i :: 0 <= i < |a| - 1 ==> |a[i]| == n
    requires forall i :: 0 <= i < |a| && |a[i]| > 0 ==> a[i][0].box.z == m
    requires forall j :: 0 <= j < |b| && |b[j]| > 0 ==> m < b[j][0].box.z
    requires StepsFull(b, n)
    ensures StepsFull(a + b, n)
  {
    var r: seq<seq<Cube>> := a + b;
    forall i: int | 0 <= i < |r| - 1 && |r[i]| > 0 && |r[i + 1]| > 0 && r[i + 1][0].box.z == r[i][0].box.z
      ensures |r[i]| == n
    {
      if i >= |a| {
        assert r[i] == b[i - |a|] && r[i + 1] == b[i + 1 - |a|];
      } else if i < |a| - 1 {
        assert r[i] == a[i];
      }
    }
  }

  /** Steps all on layer m, followed by ascending steps on layer m or
      above, are ascending. */
  lemma AscendingConcat(a: seq<seq<Cube>>, b: seq<seq<Cube>>, m: int)
    requires forall i :: 0 <= i < |a| && |a[i]| > 0 ==> a[i][0].box.z == m
    requires forall j :: 0 <= j < |b| && |b[j]| > 0 ==> m <= b[j][0].box.z
    requires StepsAscending(b)
    ensures StepsAscending(a + b)
  {
    var r: seq<seq<Cube>> := a + b;
    forall p: int, q: int | 0 <= p < q < |r| && |r[p]| > 0 && |r[q]| > 0
      ensures r[p][0].box.z <= r[q][0].box.z
    {
      if q >= |a| {
        assert r[q] == b[q - |a|];
        if p >= |a| {
          assert r[p] == b[p - |a|];
        }
      }
    }
  }

  /** With a positive step size, the steps are non-empty, hold at most that
      many cubes of a single layer each, are full except for the last of
      each layer, never go down a layer, and read back as the input grouped
      by ascending z; a negative size gives no steps. */
  lemma LayerStepsSound(cs: seq<Cube>, n: int)
    ensures n > 0 ==> LayerSteps(cs, n).Success?
    ensures n > 0 ==> StepsShaped(LayerSteps(cs, n).value, n) && StepsAscending(LayerSteps(cs, n).value)
    ensures n > 0 ==> StepsFull(LayerSteps(cs, n).value, n)
    ensures n > 0 ==> var flat := Flatten(LayerSteps(cs, n).value);
      CubesAscending(flat) && forall v :: KeyFilter(flat, ZKey, v) == KeyFilter(cs, ZKey, v)
    ensures n < 0 ==> LayerSteps(cs, n) == Success([])
  {
    if n > 0 {
      LayersShape(cs, n);
      LayersAscending(cs, n);
      LayersFull(cs, n);
      LayersSorted(cs, n);
      forall v
        ensures KeyFilter(Flatten(Layers(cs, n)), ZKey, v) == KeyFilter(cs, ZKey, v)
      {
        LayersKeyFilter(cs, n, v);
      }
    } else if n < 0 {
      LayersEmpty(cs, n);
    }
  }

  lemma {:induction false} LayersEmpty(cs: seq<Cube>, n: int)
    requires n < 0
    ensures Layers(cs, n) == []
    decreases |cs|
  {
    if cs != [] {
      var m := MinZ(cs);
      var i :| 0 <= i < |cs| && cs[i].box.z == m;
      KeyFilterHas(cs, m, i);
      LayersEmpty(Others(cs, m), n);
    }
  }
}

=== FILE: placement.dfy ===
/** The feasibility check, the commit step and the row-major scans shared by
    every strategy (strategies/utils.py), together with the theory of runs:
    a list of bricks committed one after another, each accepted by the
    feasibility check against the grids left by the ones before it. */
module Placement {
  import opened Wrappers
  import opened Config
  import opened Voxels
  import opened Sorting

  /** Number of covered cells on a neighbour line (`np.sum` of a slice). */
  function SupportCount(line: Box, sup: set<Cell>): nat {
    |Cells(line) * sup|
  }

  /** Some cell of layer z-1 under the footprint is covered. The source
      rejects vertical support only when `np.all(~below)`, so one covered
      cell is enough. */
  predicate VerticalSupport(b: Box, sup: set<Cell>) {
    Cells(Box(b.x, b.y, b.z - 1, b.w, b.h, 1)) * sup != {}
  }

  /** One neighbour line holds the brick laterally: its covered cells,
      counted in studs, reach the minimum overlap. */
  predicate LineSupports(line: Box, s: Grids) {
    LateralEnough(SupportCount(line, s.sup))
  }

  /** The four neighbour lines of the footprint in layer dz: column x-1,
      column x+w, row y-1 and row y+h; each is looked at only when it lies
      inside the array. */
  predicate SideSupported(b: Box, s: Grids, dz: int) {
    (b.x > 0 && LineSupports(Box(b.x - 1, b.y, dz, 1, b.h, 1), s)) ||
    (b.x + b.w < s.dims.width && LineSupports(Box(b.x + b.w, b.y, dz, 1, b.h, 1), s)) ||
    (b.y > 0 && LineSupports(Box(b.x, b.y - 1, dz, b.w, 1, 1), s)) ||
    (b.y + b.h < s.dims.height && LineSupports(Box(b.x, b.y + b.h, dz, b.w, 1, 1), s))
  }

  /** Lateral support over layers max(0, z-1) .. min(depth, z+d) - 1. */
  predicate LateralSupport(b: Box, s: Grids) {
    exists dz :: Max(0, b.z - 1) <= dz < Min(s.dims.depth, b.z + b.d) && SideSupported(b, s, dz)
  }

  /** `can_place_brick`: may a w x h x d brick go with its minimum corner at
      (x, y, z)? The branches follow the source: bounds, occupancy, ground
      layer, vertical-then-lateral support, and the top-layer rule. */
  function CanPlaceBrick(b: Box, s: Grids, allowTop: bool): (ok: bool)
    requires b.NonNegative()
    ensures !BoxInGrid(s.dims, b) ==> !ok
    ensures !(Cells(b) <= s.occ) ==> !ok
    ensures b.z == 0 ==> (ok <==> BoxInGrid(s.dims, b) && Cells(b) <= s.occ)
    ensures b.z > 0 && !VerticalSupport(b, s.sup) && !LateralSupport(b, s) && !allowTop ==> !ok
    ensures b.z > 0 && b.z + b.d == s.dims.depth && !allowTop ==> !ok
    ensures b.z > 0 && BoxInGrid(s.dims, b) && Cells(b) <= s.occ && allowTop ==> ok
    ensures (b.z > 0 && BoxInGrid(s.dims, b) && Cells(b) <= s.occ && b.z + b.d < s.dims.depth &&
             (VerticalSupport(b, s.sup) || LateralSupport(b, s))) ==> ok
  {
    if !BoxInGrid(s.dims, b) then false
    else if !(Cells(b) <= s.occ) then false
    else if b.z == 0 then true
    else if !VerticalSupport(b, s.sup) && !LateralSupport(b, s) && !allowTop then false
    else if b.z + b.d == s.dims.depth && !allowTop then false
    else true
  }

  /** With the configured constants a neighbour line supports the brick
      exactly when at least two of its cells are covered. */
  lemma LineSupportsMeansTwoCells(line: Box, s: Grids)
    ensures LineSupports(line, s) <==> |Cells(line) * s.sup| >= 2
  {
    LateralThreshold(SupportCount(line, s.sup));
  }

  /** Lateral support reads only the shape and the covered cells. */
  lemma LateralSupportIgnoresOcc(b: Box, t: Grids, u: Grids)
    requires t.dims == u.dims && t.sup == u.sup
    ensures LateralSupport(b, t) <==> LateralSupport(b, u)
  {
    forall dz
      ensures SideSupported(b, t, dz) <==> SideSupported(b, u, dz)
    {
    }
  }

  /** `t` is `u` with some cells still to fill dropped: same shape, same
      covered cells. */
  predicate Dominated(t: Grids, u: Grids) {
    t.dims == u.dims && t.sup == u.sup && t.occ <= u.occ
  }

  /** Dropping cells still to fill never turns a refused brick into an
      accepted one: whatever the placement check accepts on `t` it accepts on `u`. */
  lemma CanPlaceMonotone(b: Box, t: Grids, u: Grids, allowTop: bool)
    requires b.NonNegative() && Dominated(t, u) && CanPlaceBrick(b, t, allowTop)
    ensures CanPlaceBrick(b, u, allowTop)
  {
    LateralSupportIgnoresOcc(b, t, u);
  }

  /** A single covered cell under a two-cell footprint is enough: the whole
      footprint need not be supported. */
  lemma PartialVerticalSupportSuffices()
    ensures CanPlaceBrick(Box(0, 0, 1, 2, 1, 1), Grids(Dims(3, 1, 2), {Cell(1, 0, 0), Cell(1, 0, 1)}, {Cell(0, 0, 0)}), false)
  {
    var b := Box(0, 0, 1, 2, 1, 1);
    var s := Grids(Dims(3, 1, 2), {Cell(1, 0, 0), Cell(1, 0, 1)}, {Cell(0, 0, 0)});
    assert Cell(0, 0, 0) in Cells(Box(b.x, b.y, b.z - 1, b.w, b.h, 1)) * s.sup;
    assert VerticalSupport(b, s.sup);
    forall c | c in Cells(b)
      ensures c in s.occ
    {
      assert c == Cell(1, 0, c.x);
    }
  }

  /** A unit brick alone in a one-cell array stands on the ground even
      though it also reaches the top layer and top placements are off. */
  lemma GroundLayerIgnoresTopRule()
    ensures CanPlaceBrick(Box(0, 0, 0, 1, 1, 1), Grids(Dims(1, 1, 1), {Cell(0, 0, 0)}, {}), false)
  {
    assert Cells(Box(0, 0, 0, 1, 1, 1)) == {Cell(0, 0, 0)};
  }

  /** An isolated cell in the top layer accepts no brick at all when top
      placements are off. */
  lemma IsolatedTopCellRejected(w: int, h: int, d: int)
    requires w >= 1 && h >= 1 && d >= 1
    ensures !CanPlaceBrick(Box(0, 0, 1, w, h, d), Grids(Dims(2, 1, 1), {Cell(1, 0, 0)}, {}), false)
  {
  }

  /** Numpy's slice assignment clips at the array end; only in-grid cells are
      ever marked. */
  function ClipToGrid(dims: Dims, cells: set<Cell>): (r: set<Cell>)
    ensures WithinGrid(dims, r) && r <= cells
    ensures forall c :: c in cells && InGrid(dims, c) ==> c in r
  {
    set c | c in cells && InGrid(dims, c)
  }

  /** `place_brick`: clear the box in the occupancy grid and mark it in the
      support grid. */
  function PlaceBrick(s: Grids, b: Box): (r: Grids)
    ensures r.dims == s.dims
  {
    Grids(s.dims, s.occ - Cells(b), s.sup + ClipToGrid(s.dims, Cells(b)))
  }

  /** Committing a feasible brick keeps the two grids disjoint, touches no
      cell outside the box, and moves exactly w*h*d cells from the
      occupancy count to the support count. */
  lemma PlaceBrickEffect(s: Grids, b: Box, allowTop: bool)
    requires Consistent(s) && b.NonNegative() && CanPlaceBrick(b, s, allowTop)
    ensures var r := PlaceBrick(s, b);
      && Consistent(r)
      && (forall c :: c !in Cells(b) ==> (c in r.occ <==> c in s.occ) && (c in r.sup <==> c in s.sup))
      && (forall c :: c in Cells(b) ==> c !in r.occ && c in r.sup)
      && |r.occ| == |s.occ| - b.w * b.h * b.d
      && |r.sup| == |s.sup| + b.w * b.h * b.d
  {
    var r := PlaceBrick(s, b);
    CellsCard(b);
    assert ClipToGrid(s.dims, Cells(b)) == Cells(b);
    assert Cells(b) !! s.sup;
    DisjointUnionCard(s.sup, Cells(b));
    assert s.occ == (s.occ - Cells(b)) + Cells(b);
    DisjointUnionCard(s.occ - Cells(b), Cells(b));
  }

  // ---------------------------------------------------------------------
  // Row-major scans
  // ---------------------------------------------------------------------

  /** Cell c is at or after row-major position (y, x) of its layer. */
  predicate AtOrAfter(c: Cell, y: int, x: int) {
    c.y > y || (c.y == y && c.x >= x)
  }

  /** First cell of `occ` in layer z at or after (y, x), scanning y then x. */
  function FirstInLayerFrom(dims: Dims, occ: set<Cell>, z: int, y: nat, x: nat): (r: Option<Cell>)
    requires 0 <= z < dims.depth
    ensures r.Some? ==> r.value in occ && r.value.z == z && InGrid(dims, r.value) && AtOrAfter(r.value, y, x)
    ensures forall c :: c in occ && c.z == z && InGrid(dims, c) && AtOrAfter(c, y, x) ==>
      r.Some? && !Precedes(c, r.value)
    decreases dims.height - y, dims.width - x
  {
    if y >= dims.height then None
    else if x >= dims.width then FirstInLayerFrom(dims, occ, z, y + 1, 0)
    else if Cell(z, y, x) in occ then Some(Cell(z, y, x))
    else FirstInLayerFrom(dims, occ, z, y, x + 1)
  }

  /** First cell of `occ` in layers z, z+1, ... in row-major order. */
  function FirstFromLayer(dims: Dims, occ: set<Cell>, z: nat): (r: Option<Cell>)
    ensures r.Some? ==> r.value in occ && InGrid(dims, r.value) && r.value.z >= z
    ensures forall c :: c in occ && InGrid(dims, c) && c.z >= z ==> r.Some? && !Precedes(c, r.value)
    decreases dims.depth - z
  {
    if z >= dims.depth then None
    else match FirstInLayerFrom(dims, occ, z, 0, 0)
      case Some(c) => Some(c)
      case None => FirstFromLayer(dims, occ, z + 1)
  }

  /** `find_next_voxel`: the row-major first occupied cell as (x, y, z, True),
      or (0, 0, 0, False) when no cell is occupied. */
  function FindNextVoxel(dims: Dims, occ: set<Cell>): (r: (int, int, int, bool))
    ensures r.3 ==> Cell(r.2, r.1, r.0) in occ && InGrid(dims, Cell(r.2, r.1, r.0))
    ensures r.3 ==> forall c :: c in occ && InGrid(dims, c) ==> !Precedes(c, Cell(r.2, r.1, r.0))
    ensures !r.3 <==> forall c :: c in occ ==> !InGrid(dims, c)
    ensures !r.3 ==> r == (0, 0, 0, false)
  {
    match FirstFromLayer(dims, occ, 0)
    case Some(c) => (c.x, c.y, c.z, true)
    case None => (0, 0, 0, false)
  }

  /** The same scan as three nested loops, as the source writes it. */
  method FindNextVoxelLoops(dims: Dims, occ: set<Cell>) returns (x: int, y: int, z: int, found: bool)
    ensures (x, y, z, found) == FindNextVoxel(dims, occ)
  {
    var k := 0;
    while k < dims.depth
      invariant 0 <= k <= dims.depth
      invariant forall c :: c in occ && InGrid(dims, c) ==> c.z >= k
    {
      var j := 0;
      while j < dims.height
        invariant 0 <= j <= dims.height
        invariant forall c :: c in occ && InGrid(dims, c) ==> c.z > k || (c.z == k && c.y >= j)
      {
        var i := 0;
        while i < dims.width
          invariant 0 <= i <= dims.width
          invariant forall c :: c in occ && InGrid(dims, c) ==> c.z > k || (c.z == k && (c.y > j || (c.y == j && c.x >= i)))
        {
          if Cell(k, j, i) in occ {
            var r := FindNextVoxel(dims, occ);
            assert !Precedes(Cell(k, j, i), Cell(r.2, r.1, r.0));
            return i, j, k, true;
          }
          i := i + 1;
        }
        j := j + 1;
      }
      k := k + 1;
    }
    return 0, 0, 0, false;
  }

  // ---------------------------------------------------------------------
  // First fit and the layer pass
  // ---------------------------------------------------------------------

  function SizeBox(x: int, y: int, z: int, sz: BrickSize): Box {
    Box(x, y, z, sz.w, sz.h, sz.d)
  }

  /** Index of the first size, in list order, that the feasibility check
      accepts at (x, y, z). */
  function FirstFit(sizes: seq<BrickSize>, x: int, y: int, z: int, s: Grids, allowTop: bool): (r: Option<nat>)
    requires NonNegativeSizes(sizes)
    ensures r.Some? ==> r.value < |sizes|
    decreases |sizes|
  {
    if sizes == [] then None
    else if CanPlaceBrick(SizeBox(x, y, z, sizes[0]), s, allowTop) then Some(0)
    else match FirstFit(sizes[1..], x, y, z, s, allowTop)
      case None => None
      case Some(k) => Some(k + 1)
  }

  /** First fit returns an index whose size is accepted and before which
      every size is refused, or nothing when every size is refused. */
  lemma {:induction false} FirstFitSpec(sizes: seq<BrickSize>, x: int, y: int, z: int, s: Grids, allowTop: bool)
    requires NonNegativeSizes(sizes)
    ensures var r := FirstFit(sizes, x, y, z, s, allowTop);
      && (r.Some? ==> r.value < |sizes| && CanPlaceBrick(SizeBox(x, y, z, sizes[r.value]), s, allowTop))
      && (r.Some? ==> forall j :: 0 <= j < r.value ==> !CanPlaceBrick(SizeBox(x, y, z, sizes[j]), s, allowTop))
      && (r.None? ==> forall j :: 0 <= j < |sizes| ==> !CanPlaceBrick(SizeBox(x, y, z, sizes[j]), s, allowTop))
    decreases |sizes|
  {
    if sizes != [] && !CanPlaceBrick(SizeBox(x, y, z, sizes[0]), s, allowTop) {
      var tail := sizes[1..];
      FirstFitSpec(tail, x, y, z, s, allowTop);
      forall j | 1 <= j < |sizes|
        ensures sizes[j] == tail[j - 1]
      {
      }
    }
  }

  /** The brick the first-fit choice commits at `b`'s origin, given state s. */
  predicate IsFirstFit(s: Grids, b: Brick, sizes: seq<BrickSize>, allowTop: bool)
    requires NonNegativeSizes(sizes)
  {
    var o := b.box;
    match FirstFit(sizes, o.x, o.y, o.z, s, allowTop)
    case None => false
    case Some(k) => b == Brick(SizeBox(o.x, o.y, o.z, sizes[k]), sizes[k].kind)
  }

  /** Committing the bricks of `bs` in order, starting from s. */
  function Replay(s: Grids, bs: seq<Brick>): (r: Grids)
    ensures r.dims == s.dims
    decreases |bs|
  {
    if bs == [] then s else Replay(PlaceBrick(s, bs[0].box), bs[1..])
  }

  /** Every brick of `bs` passed the feasibility check against the grids
      left by the bricks before it. */
  ghost predicate Feasible(s: Grids, bs: seq<Brick>, allowTop: bool)
    decreases |bs|
  {
    bs == [] ||
    (bs[0].box.NonNegative() && CanPlaceBrick(bs[0].box, s, allowTop) &&
     Feasible(PlaceBrick(s, bs[0].box), bs[1..], allowTop))
  }

  /** Every brick of `bs` is the first-fit choice at its origin against the
      grids left by the bricks before it. */
  ghost predicate FirstFitRun(s: Grids, bs: seq<Brick>, sizes: seq<BrickSize>, allowTop: bool)
    requires NonNegativeSizes(sizes)
    decreases |bs|
  {
    bs == [] ||
    (IsFirstFit(s, bs[0], sizes, allowTop) && FirstFitRun(PlaceBrick(s, bs[0].box), bs[1..], sizes, allowTop))
  }

  lemma {:induction false} FirstFitRunFeasible(s: Grids, bs: seq<Brick>, sizes: seq<BrickSize>, allowTop: bool)
    requires NonNegativeSizes(sizes) && FirstFitRun(s, bs, sizes, allowTop)
    ensures Feasible(s, bs, allowTop)
    decreases |bs|
  {
    if bs != [] {
      var o := bs[0].box;
      FirstFitSpec(sizes, o.x, o.y, o.z, s, allowTop);
      FirstFitRunFeasible(PlaceBrick(s, bs[0].box), bs[1..], sizes, allowTop);
    }
  }

  lemma {:induction false} ReplayAppend(s: Grids, a: seq<Brick>, b: seq<Brick>)
    ensures Replay(s, a + b) == Replay(Replay(s, a), b)
    decreases |a|
  {
    if a == [] {
      assert a + b == b;
    } else {
      assert (a + b)[0] == a[0];
      assert (a + b)[1..] == a[1..] + b;
      ReplayAppend(PlaceBrick(s, a[0].box), a[1..], b);
    }
  }

  lemma {:induction false} FeasibleAppend(s: Grids, a: seq<Brick>, b: seq<Brick>, allowTop: bool)
    ensures Feasible(s, a + b, allowTop) <==> Feasible(s, a, allowTop) && Feasible(Replay(s, a), b, allowTop)
    decreases |a|
  {
    if a == [] {
      assert a + b == b;
    } else {
      assert (a + b)[0] == a[0];
      assert (a + b)[1..] == a[1..] + b;
      FeasibleAppend(PlaceBrick(s, a[0].box), a[1..], b, allowTop);
    }
  }

  lemma {:induction false} FirstFitRunAppend(s: Grids, a: seq<Brick>, b: seq<Brick>, sizes: seq<BrickSize>, allowTop: bool)
    requires NonNegativeSizes(sizes)
    ensures FirstFitRun(s, a + b, sizes, allowTop) <==>
      FirstFitRun(s, a, sizes, allowTop) && FirstFitRun(Replay(s, a), b, sizes, allowTop)
    decreases |a|
  {
    if a == [] {
      assert a + b == b;
    } else {
      assert (a + b)[0] == a[0];
      assert (a + b)[1..] == a[1..] + b;
      FirstFitRunAppend(PlaceBrick(s, a[0].box), a[1..], b, sizes, allowTop);
    }
  }

  lemma FootprintCons(b: Brick, bs: seq<Brick>)
    ensures Footprint([b] + bs) == Cells(b.box) + Footprint(bs)
  {
    var l := [b] + bs;
    forall c | c in Footprint(bs)
      ensures c in Footprint(l)
    {
      var i :| 0 <= i < |bs| && c in Cells(bs[i].box);
      assert l[i + 1] == bs[i];
    }
    forall c | c in Footprint(l)
      ensures c in Cells(b.box) + Footprint(bs)
    {
      var i :| 0 <= i < |l| && c in Cells(l[i].box);
      if i > 0 {
        assert l[i] == bs[i - 1];
      }
    }
  }

  function TotalVolume(bs: seq<Brick>): int
    decreases |bs|
  {
    if bs == [] then 0 else bs[0].box.Volume() + TotalVolume(bs[1..])
  }

  /** Prepending a brick that fits inside the cells still to fill of s to a
      disjoint list inside the cells left after it keeps the list disjoint
      and inside the cells of s. */
  lemma ConsKeepsDisjointInside(s: Grids, b: Brick, rest: seq<Brick>)
    requires Cells(b.box) <= s.occ && BoxInGrid(s.dims, b.box)
    requires PairwiseDisjoint(rest) && AllInside(rest, s.occ - Cells(b.box))
    requires forall i :: 0 <= i < |rest| ==> BoxInGrid(s.dims, rest[i].box)
    ensures PairwiseDisjoint([b] + rest) && AllInside([b] + rest, s.occ)
    ensures forall i :: 0 <= i < |[b] + rest| ==> BoxInGrid(s.dims, ([b] + rest)[i].box)
  {
    var bs := [b] + rest;
    forall i, j | 0 <= i < j < |bs|
      ensures Cells(bs[i].box) !! Cells(bs[j].box)
    {
      assert bs[j] == rest[j - 1];
      if i > 0 {
        assert bs[i] == rest[i - 1];
      }
    }
    forall i | 0 <= i < |bs|
      ensures Cells(bs[i].box) <= s.occ && BoxInGrid(s.dims, bs[i].box)
    {
      if i > 0 {
        assert bs[i] == rest[i - 1];
      }
    }
  }

  lemma {:induction false} FeasibleDisjointInside(s: Grids, bs: seq<Brick>, allowTop: bool)
    requires Consistent(s) && Feasible(s, bs, allowTop)
    ensures PairwiseDisjoint(bs) && AllInside(bs, s.occ)
    ensures forall i :: 0 <= i < |bs| ==> BoxInGrid(s.dims, bs[i].box)
    decreases |bs|
  {
    if bs != [] {
      var b := bs[0];
      var rest := bs[1..];
      var t := PlaceBrick(s, b.box);
      PlaceBrickConsistent(s, b.box);
      assert t.occ == s.occ - Cells(b.box) && t.dims == s.dims;
      assert Cells(b.box) <= s.occ && BoxInGrid(s.dims, b.box);
      FeasibleDisjointInside(t, rest, allowTop);
      assert bs == [b] + rest;
      ConsKeepsDisjointInside(s, b, rest);
    }
  }

  /** Committing any box keeps the grids consistent: the cells leave the
      to-fill set and only their in-grid part joins the covered set. */
  lemma PlaceBrickConsistent(s: Grids, b: Box)
    requires Consistent(s)
    ensures Consistent(PlaceBrick(s, b))
  {
  }

  /** Clipping a box that lies inside the array keeps all of its cells. */
  lemma ClipInGrid(dims: Dims, b: Box)
    requires BoxInGrid(dims, b)
    ensures ClipToGrid(dims, Cells(b)) == Cells(b)
  {
  }

  /** Committing a list removes exactly its footprint from the cells still
      to fill, feasible or not. */
  lemma {:induction false} ReplayOcc(s: Grids, bs: seq<Brick>)
    ensures Replay(s, bs).occ == s.occ - Footprint(bs)
    decreases |bs|
  {
    if bs != [] {
      var b := bs[0];
      var rest := bs[1..];
      var s1 := PlaceBrick(s, b.box);
      ReplayOcc(s1, rest);
      assert bs == [b] + rest;
      FootprintCons(b, rest);
      assert Replay(s, bs) == Replay(s1, rest);
      DiffTwice(s.occ, Cells(b.box), Footprint(rest), s1.occ, Replay(s1, rest).occ);
    }
  }

  /** Committing the same box on both sides keeps `t` dominated by `u`. */
  lemma PlaceBrickDominated(t: Grids, u: Grids, b: Box)
    requires Dominated(t, u)
    ensures Dominated(PlaceBrick(t, b), PlaceBrick(u, b))
  {
  }

  lemma {:induction false} ReplayConsistent(s: Grids, bs: seq<Brick>)
    requires Consistent(s)
    ensures Consistent(Replay(s, bs))
    decreases |bs|
  {
    if bs != [] {
      PlaceBrickConsistent(s, bs[0].box);
      ReplayConsistent(PlaceBrick(s, bs[0].box), bs[1..]);
    }
  }

  /** Committing a list of in-grid bricks adds exactly its footprint to the
      covered cells. */
  lemma {:induction false} ReplaySup(s: Grids, bs: seq<Brick>)
    requires forall i :: 0 <= i < |bs| ==> BoxInGrid(s.dims, bs[i].box)
    ensures Replay(s, bs).sup == s.sup + Footprint(bs)
    decreases |bs|
  {
    if bs != [] {
      var b := bs[0];
      var rest := bs[1..];
      var s1 := PlaceBrick(s, b.box);
      ClipInGrid(s.dims, b.box);
      assert forall i :: 0 <= i < |rest| ==> rest[i] == bs[i + 1];
      ReplaySup(s1, rest);
      assert bs == [b] + rest;
      FootprintCons(b, rest);
      assert Replay(s, bs) == Replay(s1, rest);
      UnionTwice(s.sup, Cells(b.box), Footprint(rest), s1.sup, Replay(s1, rest).sup);
    }
  }

  /** A feasible run removes its footprint from the cells to fill, adds it
      to the covered cells, and leaves the grids consistent. */
  lemma FeasibleReplay(s: Grids, bs: seq<Brick>, allowTop: bool)
    requires Consistent(s) && Feasible(s, bs, allowTop)
    ensures Replay(s, bs).occ == s.occ - Footprint(bs)
    ensures Replay(s, bs).sup == s.sup + Footprint(bs)
    ensures Consistent(Replay(s, bs))
  {
    FeasibleDisjointInside(s, bs, allowTop);
    ReplayOcc(s, bs);
    ReplaySup(s, bs);
    ReplayConsistent(s, bs);
  }

  /** Adding two batches of cells one after the other adds their union. */
  lemma UnionTwice<T>(sup: set<T>, a: set<T>, b: set<T>, sup1: set<T>, sup2: set<T>)
    requires sup1 == sup + a && sup2 == sup1 + b
    ensures sup2 == sup + (a + b)
  {
  }

  /** Removing two batches of cells one after the other removes their union. */
  lemma DiffTwice<T>(occ: set<T>, a: set<T>, b: set<T>, occ1: set<T>, occ2: set<T>)
    requires occ1 == occ - a && occ2 == occ1 - b
    ensures occ2 == occ - (a + b)
  {
  }

  lemma {:induction false} FeasibleCount(s: Grids, bs: seq<Brick>, allowTop: bool)
    requires Consistent(s) && Feasible(s, bs, allowTop)
    ensures |Replay(s, bs).occ| == |s.occ| - TotalVolume(bs)
    decreases |bs|
  {
    if bs != [] {
      var b := bs[0];
      var s1 := PlaceBrick(s, b.box);
      PlaceBrickEffect(s, b.box, allowTop);
      FeasibleCount(s1, bs[1..], allowTop);
      assert Replay(s, bs) == Replay(s1, bs[1..]);
    }
  }

  /** A feasible run from a consistent state places pairwise-disjoint bricks
      inside the originally occupied cells; the final occupancy is the start
      minus the placed cells and the final support the start plus them, so
      the grids stay disjoint and the occupancy count falls by exactly the
      placed volume. */
  lemma FeasibleSound(s: Grids, bs: seq<Brick>, allowTop: bool)
    requires Consistent(s) && Feasible(s, bs, allowTop)
    ensures PairwiseDisjoint(bs) && AllInside(bs, s.occ)
    ensures forall i :: 0 <= i < |bs| ==> BoxInGrid(s.dims, bs[i].box)
    ensures Replay(s, bs).occ == s.occ - Footprint(bs)
    ensures Replay(s, bs).sup == s.sup + Footprint(bs)
    ensures Consistent(Replay(s, bs))
    ensures |Replay(s, bs).occ| == |s.occ| - TotalVolume(bs)
  {
    FeasibleDisjointInside(s, bs, allowTop);
    FeasibleReplay(s, bs, allowTop);
    FeasibleCount(s, bs, allowTop);
  }

  /** The cells of layer z in row-major order from (y, x) get the first-fit
      brick when still occupied at their turn; a committed brick clears its
      cells, which later turns then skip (`place_bricks_on_layer_fast`). */
  function PlaceOnLayerFrom(s: Grids, z: int, y: nat, x: nat, sizes: seq<BrickSize>, allowTop: bool): (r: (Grids, seq<Brick>))
    requires 0 <= z < s.dims.depth && NonNegativeSizes(sizes)
    ensures r.0.dims == s.dims
    decreases s.dims.height - y, s.dims.width - x
  {
    if y >= s.dims.height then (s, [])
    else if x >= s.dims.width then PlaceOnLayerFrom(s, z, y + 1, 0, sizes, allowTop)
    else if Cell(z, y, x) in s.occ then
      match FirstFit(sizes, x, y, z, s, allowTop)
      case None => PlaceOnLayerFrom(s, z, y, x + 1, sizes, allowTop)
      case Some(k) =>
        var b := Brick(SizeBox(x, y, z, sizes[k]), sizes[k].kind);
        var rest := PlaceOnLayerFrom(PlaceBrick(s, b.box), z, y, x + 1, sizes, allowTop);
        (rest.0, [b] + rest.1)
    else PlaceOnLayerFrom(s, z, y, x + 1, sizes, allowTop)
  }

  /** The pass from (y, x) ends in the grids its bricks produce; each brick
      is the first-fit choice at its origin when its turn comes; all lie in
      layer z at or after (y, x), in strictly increasing row-major order. */
  lemma {:induction false} PlaceOnLayerSpec(s: Grids, z: int, y: nat, x: nat, sizes: seq<BrickSize>, allowTop: bool)
    requires 0 <= z < s.dims.depth && NonNegativeSizes(sizes)
    ensures var r := PlaceOnLayerFrom(s, z, y, x, sizes, allowTop);
      && r.0 == Replay(s, r.1)
      && FirstFitRun(s, r.1, sizes, allowTop)
      && (forall i :: 0 <= i < |r.1| ==> r.1[i].box.z == z && AtOrAfter(r.1[i].box.Origin(), y, x))
      && (forall i, j :: 0 <= i < j < |r.1| ==> Precedes(r.1[i].box.Origin(), r.1[j].box.Origin()))
    decreases s.dims.height - y, s.dims.width - x
  {
    if y >= s.dims.height {
    } else if x >= s.dims.width {
      PlaceOnLayerSpec(s, z, y + 1, 0, sizes, allowTop);
    } else if Cell(z, y, x) in s.occ && FirstFit(sizes, x, y, z, s, allowTop).Some? {
      var k := FirstFit(sizes, x, y, z, s, allowTop).value;
      FirstFitSpec(sizes, x, y, z, s, allowTop);
      var b := Brick(SizeBox(x, y, z, sizes[k]), sizes[k].kind);
      var s1 := PlaceBrick(s, b.box);
      PlaceOnLayerSpec(s1, z, y, x + 1, sizes, allowTop);
      PlaceOnLayerConsStep(s, z, y, x, sizes, allowTop, b, PlaceOnLayerFrom(s1, z, y, x + 1, sizes, allowTop));
    } else {
      PlaceOnLayerSpec(s, z, y, x + 1, sizes, allowTop);
    }
  }

  /** The placing case of `PlaceOnLayerSpec`, given the claim for the rest
      of the pass. */
  lemma PlaceOnLayerConsStep(s: Grids, z: int, y: nat, x: nat, sizes: seq<BrickSize>, allowTop: bool, b: Brick, rest: (Grids, seq<Brick>))
    requires 0 <= z < s.dims.depth && NonNegativeSizes(sizes)
    requires y < s.dims.height && x < s.dims.width && Cell(z, y, x) in s.occ
    requires FirstFit(sizes, x, y, z, s, allowTop).Some?
    requires var k := FirstFit(sizes, x, y, z, s, allowTop).value;
      b == Brick(SizeBox(x, y, z, sizes[k]), sizes[k].kind)
    requires rest == PlaceOnLayerFrom(PlaceBrick(s, b.box), z, y, x + 1, sizes, allowTop)
    requires rest.0 == Replay(PlaceBrick(s, b.box), rest.1)
    requires FirstFitRun(PlaceBrick(s, b.box), rest.1, sizes, allowTop)
    requires forall i :: 0 <= i < |rest.1| ==> rest.1[i].box.z == z && AtOrAfter(rest.1[i].box.Origin(), y, x + 1)
    requires forall i, j :: 0 <= i < j < |rest.1| ==> Precedes(rest.1[i].box.Origin(), rest.1[j].box.Origin())
    ensures var r := PlaceOnLayerFrom(s, z, y, x, sizes, allowTop);
      && r == (rest.0, [b] + rest.1)
      && r.0 == Replay(s, r.1)
      && FirstFitRun(s, r.1, sizes, allowTop)
      && (forall i :: 0 <= i < |r.1| ==> r.1[i].box.z == z && AtOrAfter(r.1[i].box.Origin(), y, x))
      && (forall i, j :: 0 <= i < j < |r.1| ==> Precedes(r.1[i].box.Origin(), r.1[j].box.Origin()))
  {
    var l := [b] + rest.1;
    assert l[1..] == rest.1;
    assert IsFirstFit(s, b, sizes, allowTop);
    forall i | 1 <= i < |l|
      ensures l[i] == rest.1[i - 1]
    {
    }
  }

  // ---------------------------------------------------------------------
  // Completeness: a cell's turn in a run
  // ---------------------------------------------------------------------

  /** How many bricks of `bs` have their origin before cell c in row-major
      order: in a run whose origins ascend, the bricks committed before the
      scan reaches c. */
  function CountBefore(bs: seq<Brick>, c: Cell): (n: nat)
    ensures n <= |bs|
    decreases |bs|
  {
    if bs == [] then 0
    else (if Precedes(bs[0].box.Origin(), c) then 1 else 0) + CountBefore(bs[1..], c)
  }

  /** The grids the scan sees when it reaches cell c. */
  function TurnGrids(s: Grids, bs: seq<Brick>, c: Cell): (t: Grids)
    ensures t.dims == s.dims
  {
    Replay(s, bs[..CountBefore(bs, c)])
  }

  /** Cell c was not passed over: if it was still to fill at its turn and
      some size fitted there, the next brick of the run has its origin at c. */
  ghost predicate NotSkipped(s: Grids, bs: seq<Brick>, c: Cell, sizes: seq<BrickSize>, allowTop: bool)
    requires NonNegativeSizes(sizes)
  {
    var k := CountBefore(bs, c);
    var t := TurnGrids(s, bs, c);
    c in t.occ && FirstFit(sizes, c.x, c.y, c.z, t, allowTop).Some? ==> k < |bs| && bs[k].box.Origin() == c
  }

  /** Every in-grid cell of layer z at or after (y, x) was not passed over. */
  ghost predicate NoneSkippedFrom(s: Grids, bs: seq<Brick>, z: int, y: int, x: int, sizes: seq<BrickSize>, allowTop: bool)
    requires NonNegativeSizes(sizes)
  {
    forall c: Cell :: c.z == z && InGrid(s.dims, c) && AtOrAfter(c, y, x) ==> NotSkipped(s, bs, c, sizes, allowTop)
  }

  /** Every size was refused at c in the grids of its turn. */
  predicate RefusedAtTurn(s: Grids, bs: seq<Brick>, c: Cell, sizes: seq<BrickSize>, allowTop: bool)
    requires NonNegativeSizes(sizes)
  {
    FirstFit(sizes, c.x, c.y, c.z, TurnGrids(s, bs, c), allowTop).None?
  }

  lemma {:induction false} CountBeforeNone(bs: seq<Brick>, c: Cell)
    requires forall i :: 0 <= i < |bs| ==> !Precedes(bs[i].box.Origin(), c)
    ensures CountBefore(bs, c) == 0
    decreases |bs|
  {
    if bs != [] {
      CountBeforeNone(bs[1..], c);
    }
  }

  lemma {:induction false} CountBeforeAll(bs: seq<Brick>, c: Cell)
    requires forall i :: 0 <= i < |bs| ==> Precedes(bs[i].box.Origin(), c)
    ensures CountBefore(bs, c) == |bs|
    decreases |bs|
  {
    if bs != [] {
      CountBeforeAll(bs[1..], c);
    }
  }

  lemma {:induction false} CountBeforeAppend(a: seq<Brick>, b: seq<Brick>, c: Cell)
    ensures CountBefore(a + b, c) == CountBefore(a, c) + CountBefore(b, c)
    decreases |a|
  {
    if a == [] {
      assert a + b == b;
    } else {
      assert (a + b)[0] == a[0];
      assert (a + b)[1..] == a[1..] + b;
      CountBeforeAppend(a[1..], b, c);
    }
  }

  /** Bricks that all come before c shift its turn: c's turn in `a + b` is
      its turn in `b` replayed from the grids `a` leaves. */
  lemma TurnAfter(s: Grids, a: seq<Brick>, b: seq<Brick>, c: Cell)
    requires forall i :: 0 <= i < |a| ==> Precedes(a[i].box.Origin(), c)
    ensures CountBefore(a + b, c) == |a| + CountBefore(b, c)
    ensures TurnGrids(s, a + b, c) == TurnGrids(Replay(s, a), b, c)
  {
    var k := CountBefore(b, c);
    CountBeforeAppend(a, b, c);
    CountBeforeAll(a, c);
    assert (a + b)[..|a| + k] == a + b[..k];
    ReplayAppend(s, a, b[..k]);
  }

  /** Not being passed over in `b` from the grids `a` leaves carries over
      to `a + b` when every brick of `a` comes before c. */
  lemma NotSkippedAfter(s: Grids, a: seq<Brick>, b: seq<Brick>, c: Cell, sizes: seq<BrickSize>, allowTop: bool)
    requires NonNegativeSizes(sizes)
    requires forall i :: 0 <= i < |a| ==> Precedes(a[i].box.Origin(), c)
    requires NotSkipped(Replay(s, a), b, c, sizes, allowTop)
    ensures NotSkipped(s, a + b, c, sizes, allowTop)
  {
    var k := CountBefore(b, c);
    TurnAfter(s, a, b, c);
    if k < |b| {
      assert (a + b)[|a| + k] == b[k];
    }
  }

  /** Bricks that all come at or after c leave its turn where it was. */
  lemma NotSkippedBefore(s: Grids, a: seq<Brick>, b: seq<Brick>, c: Cell, sizes: seq<BrickSize>, allowTop: bool)
    requires NonNegativeSizes(sizes)
    requires forall i :: 0 <= i < |b| ==> !Precedes(b[i].box.Origin(), c)
    ensures CountBefore(a + b, c) == CountBefore(a, c)
    ensures TurnGrids(s, a + b, c) == TurnGrids(s, a, c)
    ensures NotSkipped(s, a, c, sizes, allowTop) ==> NotSkipped(s, a + b, c, sizes, allowTop)
  {
    var k := CountBefore(a, c);
    CountBeforeAppend(a, b, c);
    CountBeforeNone(b, c);
    assert (a + b)[..k] == a[..k];
    if k < |a| {
      assert (a + b)[k] == a[k];
    }
  }

  /** The cell the pass is at when it places a brick there was not passed
      over. */
  lemma NotSkippedAtOrigin(s: Grids, b: Brick, rest: seq<Brick>, sizes: seq<BrickSize>, allowTop: bool)
    requires NonNegativeSizes(sizes)
    requires forall i :: 0 <= i < |rest| ==> !Precedes(rest[i].box.Origin(), b.box.Origin())
    ensures NotSkipped(s, [b] + rest, b.box.Origin(), sizes, allowTop)
  {
    NotSkippedBefore(s, [b], rest, b.box.Origin(), sizes, allowTop);
    assert [b][..0] == [];
  }

  /** A cell the pass finds empty, or where every size is refused, was not
      passed over when no later brick comes before it. */
  lemma NotSkippedNoFit(s: Grids, bs: seq<Brick>, c: Cell, sizes: seq<BrickSize>, allowTop: bool)
    requires NonNegativeSizes(sizes)
    requires c !in s.occ || FirstFit(sizes, c.x, c.y, c.z, s, allowTop).None?
    requires forall i :: 0 <= i < |bs| ==> !Precedes(bs[i].box.Origin(), c)
    ensures NotSkipped(s, bs, c, sizes, allowTop)
  {
    CountBeforeNone(bs, c);
    assert bs[..0] == [];
  }

  /** The placing case of `PlaceOnLayerComplete`, given the claim for the
      rest of the pass. */
  lemma CompletePlaceStep(s: Grids, z: int, y: nat, x: nat, sizes: seq<BrickSize>, allowTop: bool)
    requires 0 <= z < s.dims.depth && NonNegativeSizes(sizes)
    requires y < s.dims.height && x < s.dims.width && Cell(z, y, x) in s.occ
    requires FirstFit(sizes, x, y, z, s, allowTop).Some?
    requires var k := FirstFit(sizes, x, y, z, s, allowTop).value;
      var s1 := PlaceBrick(s, SizeBox(x, y, z, sizes[k]));
      NoneSkippedFrom(s1, PlaceOnLayerFrom(s1, z, y, x + 1, sizes, allowTop).1, z, y, x + 1, sizes, allowTop)
    ensures NoneSkippedFrom(s, PlaceOnLayerFrom(s, z, y, x, sizes, allowTop).1, z, y, x, sizes, allowTop)
  {
    var k := FirstFit(sizes, x, y, z, s, allowTop).value;
    var b := Brick(SizeBox(x, y, z, sizes[k]), sizes[k].kind);
    var s1 := PlaceBrick(s, b.box);
    var rest := PlaceOnLayerFrom(s1, z, y, x + 1, sizes, allowTop).1;
    PlaceOnLayerAfter(s1, z, y, x + 1, sizes, allowTop);
    assert PlaceOnLayerFrom(s, z, y, x, sizes, allowTop).1 == [b] + rest;
    ConsNoneSkipped(s, z, y, x, sizes, allowTop, b, rest);
  }

  /** Putting the brick placed at (z, y, x) before the rest of the pass. */
  lemma ConsNoneSkipped(s: Grids, z: int, y: nat, x: nat, sizes: seq<BrickSize>, allowTop: bool, b: Brick, rest: seq<Brick>)
    requires 0 <= z < s.dims.depth && NonNegativeSizes(sizes)
    requires y < s.dims.height && x < s.dims.width && b.box.Origin() == Cell(z, y, x)
    requires forall i :: 0 <= i < |rest| ==> rest[i].box.z == z && AtOrAfter(rest[i].box.Origin(), y, x + 1)
    requires NoneSkippedFrom(PlaceBrick(s, b.box), rest, z, y, x + 1, sizes, allowTop)
    ensures NoneSkippedFrom(s, [b] + rest, z, y, x, sizes, allowTop)
  {
    forall c: Cell | c.z == z && InGrid(s.dims, c) && AtOrAfter(c, y, x)
      ensures NotSkipped(s, [b] + rest, c, sizes, allowTop)
    {
      if c == Cell(z, y, x) {
        NotSkippedAtOrigin(s, b, rest, sizes, allowTop);
      } else {
        assert AtOrAfter(c, y, x + 1);
        assert [b][1..] == [];
        assert Replay(s, [b]) == PlaceBrick(s, b.box);
        NotSkippedAfter(s, [b], rest, c, sizes, allowTop);
      }
    }
  }

  /** The skipping case of `PlaceOnLayerComplete`, given the claim for the
      rest of the pass. */
  lemma CompleteSkipStep(s: Grids, z: int, y: nat, x: nat, sizes: seq<BrickSize>, allowTop: bool)
    requires 0 <= z < s.dims.depth && NonNegativeSizes(sizes)
    requires y < s.dims.height && x < s.dims.width
    requires Cell(z, y, x) !in s.occ || FirstFit(sizes, x, y, z, s, allowTop).None?
    requires NoneSkippedFrom(s, PlaceOnLayerFrom(s, z, y, x + 1, sizes, allowTop).1, z, y, x + 1, sizes, allowTop)
    ensures NoneSkippedFrom(s, PlaceOnLayerFrom(s, z, y, x, sizes, allowTop).1, z, y, x, sizes, allowTop)
  {
    var rest := PlaceOnLayerFrom(s, z, y, x + 1, sizes, allowTop).1;
    PlaceOnLayerAfter(s, z, y, x + 1, sizes, allowTop);
    LayerPassUnfoldSkip(s, z, y, x, sizes, allowTop);
    forall c: Cell | c.z == z && InGrid(s.dims, c) && AtOrAfter(c, y, x)
      ensures NotSkipped(s, rest, c, sizes, allowTop)
    {
      if c == Cell(z, y, x) {
        NotSkippedNoFit(s, rest, c, sizes, allowTop);
      } else {
        assert AtOrAfter(c, y, x + 1);
      }
    }
  }

  /** The end of a row of the pass moves on to the next row. */
  lemma CompleteRowStep(s: Grids, z: int, y: nat, x: nat, sizes: seq<BrickSize>, allowTop: bool)
    requires 0 <= z < s.dims.depth && NonNegativeSizes(sizes)
    requires y < s.dims.height && x >= s.dims.width
    requires NoneSkippedFrom(s, PlaceOnLayerFrom(s, z, y + 1, 0, sizes, allowTop).1, z, y + 1, 0, sizes, allowTop)
    ensures NoneSkippedFrom(s, PlaceOnLayerFrom(s, z, y, x, sizes, allowTop).1, z, y, x, sizes, allowTop)
  {
    assert PlaceOnLayerFrom(s, z, y, x, sizes, allowTop) == PlaceOnLayerFrom(s, z, y + 1, 0, sizes, allowTop);
  }

  /** Past the last row there is no cell to pass over. */
  lemma CompleteEndStep(s: Grids, bs: seq<Brick>, z: int, y: nat, x: nat, sizes: seq<BrickSize>, allowTop: bool)
    requires NonNegativeSizes(sizes) && y >= s.dims.height
    ensures NoneSkippedFrom(s, bs, z, y, x, sizes, allowTop)
  {
  }

  /** The pass from (y, x) passes over no cell: every in-grid cell of layer
      z at or after (y, x) that is still to fill when the scan reaches it,
      and where some size fits, gets the next brick of the pass. */
  lemma {:induction false} PlaceOnLayerComplete(s: Grids, z: int, y: nat, x: nat, sizes: seq<BrickSize>, allowTop: bool)
    requires 0 <= z < s.dims.depth && NonNegativeSizes(sizes)
    ensures NoneSkippedFrom(s, PlaceOnLayerFrom(s, z, y, x, sizes, allowTop).1, z, y, x, sizes, allowTop)
    decreases s.dims.height - y, s.dims.width - x
  {
    if y >= s.dims.height {
      CompleteEndStep(s, PlaceOnLayerFrom(s, z, y, x, sizes, allowTop).1, z, y, x, sizes, allowTop);
    } else if x >= s.dims.width {
      PlaceOnLayerComplete(s, z, y + 1, 0, sizes, allowTop);
      CompleteRowStep(s, z, y, x, sizes, allowTop);
    } else if Cell(z, y, x) in s.occ && FirstFit(sizes, x, y, z, s, allowTop).Some? {
      var k := FirstFit(sizes, x, y, z, s, allowTop).value;
      PlaceOnLayerComplete(PlaceBrick(s, SizeBox(x, y, z, sizes[k])), z, y, x + 1, sizes, allowTop);
      CompletePlaceStep(s, z, y, x, sizes, allowTop);
    } else {
      PlaceOnLayerComplete(s, z, y, x + 1, sizes, allowTop);
      CompleteSkipStep(s, z, y, x, sizes, allowTop);
    }
  }

  /** The bricks of the pass from (y, x) lie in layer z at or after (y, x). */
  lemma PlaceOnLayerAfter(s: Grids, z: int, y: nat, x: nat, sizes: seq<BrickSize>, allowTop: bool)
    requires 0 <= z < s.dims.depth && NonNegativeSizes(sizes)
    ensures forall i :: 0 <= i < |PlaceOnLayerFrom(s, z, y, x, sizes, allowTop).1| ==>
      PlaceOnLayerFrom(s, z, y, x, sizes, allowTop).1[i].box.z == z &&
      AtOrAfter(PlaceOnLayerFrom(s, z, y, x, sizes, allowTop).1[i].box.Origin(), y, x)
  {
    PlaceOnLayerSpec(s, z, y, x, sizes, allowTop);
  }

  /** The grids left by a whole run have no more cells to fill than those
      left by any prefix of it. */
  lemma PrefixOccShrinks(s: Grids, bs: seq<Brick>, k: nat)
    requires k <= |bs|
    ensures Replay(s, bs).occ <= Replay(s, bs[..k]).occ
  {
    assert bs == bs[..k] + bs[k..];
    ReplayAppend(s, bs[..k], bs[k..]);
    ReplayOccShrinks(Replay(s, bs[..k]), bs[k..]);
  }

  /** A brick of a run clears its cells for good. */
  lemma RunClears(s: Grids, bs: seq<Brick>, k: nat, c: Cell)
    requires k < |bs| && c in Cells(bs[k].box)
    ensures c !in Replay(s, bs).occ
  {
    PrefixOccShrinks(s, bs, k + 1);
    assert bs[..k + 1] == bs[..k] + [bs[k]];
    ReplayAppend(s, bs[..k], [bs[k]]);
  }

  /** The k-th brick of a first-fit run is the first-fit choice in the grids
      the bricks before it leave. */
  lemma RunFirstFitAt(s: Grids, bs: seq<Brick>, k: nat, sizes: seq<BrickSize>, allowTop: bool)
    requires NonNegativeSizes(sizes) && FirstFitRun(s, bs, sizes, allowTop) && k < |bs|
    ensures IsFirstFit(Replay(s, bs[..k]), bs[k], sizes, allowTop)
  {
    assert bs == bs[..k] + bs[k..];
    FirstFitRunAppend(s, bs[..k], bs[k..], sizes, allowTop);
    assert bs[k..][0] == bs[k];
  }

  /** A first-fit brick of a positive size covers its own origin. */
  lemma FirstFitCoversOrigin(t: Grids, b: Brick, sizes: seq<BrickSize>, allowTop: bool)
    requires PositiveSizes(sizes) && NonNegativeSizes(sizes) && IsFirstFit(t, b, sizes, allowTop)
    ensures b.box.Origin() in Cells(b.box)
  {
    var o := b.box;
    var j := FirstFit(sizes, o.x, o.y, o.z, t, allowTop).value;
    assert sizes[j].Positive();
  }

  /** With positive sizes, a first-fit run that did not pass over cell c and
      still leaves it to fill had every size refused at c on its turn. */
  lemma LeftCellRefused(s: Grids, bs: seq<Brick>, c: Cell, sizes: seq<BrickSize>, allowTop: bool)
    requires PositiveSizes(sizes) && NonNegativeSizes(sizes)
    requires FirstFitRun(s, bs, sizes, allowTop) && NotSkipped(s, bs, c, sizes, allowTop)
    requires c in Replay(s, bs).occ
    ensures RefusedAtTurn(s, bs, c, sizes, allowTop)
  {
    var k := CountBefore(bs, c);
    PrefixOccShrinks(s, bs, k);
    if k < |bs| && bs[k].box.Origin() == c {
      RunFirstFitAt(s, bs, k, sizes, allowTop);
      FirstFitCoversOrigin(Replay(s, bs[..k]), bs[k], sizes, allowTop);
      RunClears(s, bs, k, c);
    }
  }

  /** `place_bricks_on_layer_fast` over the whole of layer z. */
  function PlaceBricksOnLayer(s: Grids, z: int, sizes: seq<BrickSize>, allowTop: bool): (r: (Grids, seq<Brick>))
    requires 0 <= z < s.dims.depth && NonNegativeSizes(sizes)
    ensures r.0.dims == s.dims
  {
    PlaceOnLayerFrom(s, z, 0, 0, sizes, allowTop)
  }

  /** The layer pass returns the grids its bricks produce; each brick is the
      first-fit choice at its turn, all in layer z in row-major order; on a
      consistent state they are pairwise disjoint, inside the cells
      occupied when the pass started, and exactly the cells it cleared. The
      pass passes over no cell of the layer, and with positive sizes every
      cell of the layer it leaves to fill had every size refused on its turn. */
  lemma PlaceBricksOnLayerSound(s: Grids, z: int, sizes: seq<BrickSize>, allowTop: bool)
    requires 0 <= z < s.dims.depth && NonNegativeSizes(sizes)
    ensures var r := PlaceBricksOnLayer(s, z, sizes, allowTop);
      && r.0 == Replay(s, r.1) && FirstFitRun(s, r.1, sizes, allowTop)
      && (forall i :: 0 <= i < |r.1| ==> r.1[i].box.z == z)
      && (forall i, j :: 0 <= i < j < |r.1| ==> Precedes(r.1[i].box.Origin(), r.1[j].box.Origin()))
      && (Consistent(s) ==>
            PairwiseDisjoint(r.1) && AllInside(r.1, s.occ) && Consistent(r.0) &&
            r.0.occ == s.occ - Footprint(r.1) && r.0.sup == s.sup + Footprint(r.1))
    ensures var r := PlaceBricksOnLayer(s, z, sizes, allowTop);
      && NoneSkippedFrom(s, r.1, z, 0, 0, sizes, allowTop)
      && (PositiveSizes(sizes) ==>
            forall c :: c in r.0.occ && c.z == z && InGrid(s.dims, c) ==> RefusedAtTurn(s, r.1, c, sizes, allowTop))
  {
    var r := PlaceBricksOnLayer(s, z, sizes, allowTop);
    PlaceOnLayerSpec(s, z, 0, 0, sizes, allowTop);
    FirstFitRunFeasible(s, r.1, sizes, allowTop);
    if Consistent(s) {
      FeasibleSound(s, r.1, allowTop);
    }
    PlaceOnLayerComplete(s, z, 0, 0, sizes, allowTop);
    if PositiveSizes(sizes) {
      forall c | c in r.0.occ && c.z == z && InGrid(s.dims, c)
        ensures RefusedAtTurn(s, r.1, c, sizes, allowTop)
      {
        assert AtOrAfter(c, 0, 0);
        LeftCellRefused(s, r.1, c, sizes, allowTop);
      }
    }
  }

  function VolumeKey(sz: BrickSize): int { sz.Volume() }

  /** `sorted(sizes, key=w*h*d, reverse=True)`: largest volume first, and
      entries of equal volume in their list order. */
  function ByVolumeDesc(sizes: seq<BrickSize>): (r: seq<BrickSize>)
    ensures SortedDesc(r, VolumeKey) && multiset(r) == multiset(sizes)
    ensures forall v :: KeyFilter(r, VolumeKey, v) == KeyFilter(sizes, VolumeKey, v)
  {
    SortDescCorrect(sizes, VolumeKey);
    SortDesc(sizes, VolumeKey)
  }

  /** A reordering of a list of positive sizes holds only positive sizes. */
  lemma PermutationKeepsPositive(a: seq<BrickSize>, b: seq<BrickSize>)
    requires multiset(a) == multiset(b) && PositiveSizes(a)
    ensures PositiveSizes(b) && NonNegativeSizes(b)
  {
    forall i | 0 <= i < |b|
      ensures b[i].Positive()
    {
      assert b[i] in multiset(b);
      assert b[i] in multiset(a);
      var j :| 0 <= j < |a| && a[j] == b[i];
    }
  }

  /** A reordering of a list of non-negative sizes holds only non-negative
      sizes. */
  lemma PermutationKeepsNonNegative(a: seq<BrickSize>, b: seq<BrickSize>)
    requires multiset(a) == multiset(b) && NonNegativeSizes(a)
    ensures NonNegativeSizes(b)
  {
    forall i | 0 <= i < |b|
      ensures b[i].w >= 0 && b[i].h >= 0 && b[i].d >= 0
    {
      assert b[i] in multiset(b);
      assert b[i] in multiset(a);
      var j :| 0 <= j < |a| && a[j] == b[i];
    }
  }

  /** A reordering keeps a 1x1x1 entry. */
  lemma PermutationKeepsUnit(a: seq<BrickSize>, b: seq<BrickSize>)
    requires multiset(a) == multiset(b) && HasUnitSize(a)
    ensures HasUnitSize(b)
  {
    var k :| 0 <= k < |a| && a[k].w == 1 && a[k].h == 1 && a[k].d == 1;
    assert a[k] in multiset(a);
    assert a[k] in multiset(b);
    var j :| 0 <= j < |b| && b[j] == a[k];
  }

  lemma UnitCells(x: int, y: int, z: int)
    ensures Cells(Box(x, y, z, 1, 1, 1)) == {Cell(z, y, x)}
  {
    forall c | c in Cells(Box(x, y, z, 1, 1, 1))
      ensures c == Cell(z, y, x)
    {
    }
  }

  /** With top placements allowed, a unit brick fits on any still-occupied
      in-grid cell. */
  lemma UnitAlwaysFits(s: Grids, c: Cell)
    requires c in s.occ && InGrid(s.dims, c)
    ensures CanPlaceBrick(Box(c.x, c.y, c.z, 1, 1, 1), s, true)
  {
    UnitCells(c.x, c.y, c.z);
  }

  /** Committing bricks only ever removes cells still to fill. */
  lemma {:induction false} ReplayOccShrinks(s: Grids, bs: seq<Brick>)
    ensures Replay(s, bs).occ <= s.occ
    decreases |bs|
  {
    if bs != [] {
      ReplayOccShrinks(PlaceBrick(s, bs[0].box), bs[1..]);
    }
  }

  /** One step of the layer pass at an occupied cell where a size fits. */
  lemma LayerPassUnfoldPlace(s: Grids, z: int, y: nat, x: nat, sizes: seq<BrickSize>, allowTop: bool)
    requires 0 <= z < s.dims.depth && NonNegativeSizes(sizes)
    requires y < s.dims.height && x < s.dims.width && Cell(z, y, x) in s.occ
    requires FirstFit(sizes, x, y, z, s, allowTop).Some?
    ensures var i := FirstFit(sizes, x, y, z, s, allowTop).value;
      PlaceOnLayerFrom(s, z, y, x, sizes, allowTop).0 ==
      PlaceOnLayerFrom(PlaceBrick(s, SizeBox(x, y, z, sizes[i])), z, y, x + 1, sizes, allowTop).0
  {
  }

  /** One step of the layer pass at a cell that receives no brick. */
  lemma LayerPassUnfoldSkip(s: Grids, z: int, y: nat, x: nat, sizes: seq<BrickSize>, allowTop: bool)
    requires 0 <= z < s.dims.depth && NonNegativeSizes(sizes)
    requires y < s.dims.height && x < s.dims.width
    requires Cell(z, y, x) !in s.occ || FirstFit(sizes, x, y, z, s, allowTop).None?
    ensures PlaceOnLayerFrom(s, z, y, x, sizes, allowTop) == PlaceOnLayerFrom(s, z, y, x + 1, sizes, allowTop)
  {
  }

  /** With top placements allowed and a 1x1x1 entry among positive sizes,
      an occupied in-grid cell always receives a brick that covers it. */
  lemma OccupiedCellGetsBrick(s: Grids, c: Cell, sizes: seq<BrickSize>)
    requires c in s.occ && InGrid(s.dims, c) && PositiveSizes(sizes) && NonNegativeSizes(sizes) && HasUnitSize(sizes)
    ensures FirstFit(sizes, c.x, c.y, c.z, s, true).Some?
    ensures c !in PlaceBrick(s, SizeBox(c.x, c.y, c.z, sizes[FirstFit(sizes, c.x, c.y, c.z, s, true).value])).occ
  {
    var k :| 0 <= k < |sizes| && sizes[k].w == 1 && sizes[k].h == 1 && sizes[k].d == 1;
    UnitAlwaysFits(s, c);
    FirstFitSpec(sizes, c.x, c.y, c.z, s, true);
    assert SizeBox(c.x, c.y, c.z, sizes[k]) == Box(c.x, c.y, c.z, 1, 1, 1);
    var i := FirstFit(sizes, c.x, c.y, c.z, s, true).value;
    assert sizes[i].Positive();
    assert c in Cells(SizeBox(c.x, c.y, c.z, sizes[i]));
  }

  /** A 1x1x1 entry in the list means some size fits at an occupied in-grid
      cell of the ground layer, and at any occupied in-grid cell when top
      placements are allowed. */
  lemma UnitCellFits(s: Grids, c: Cell, sizes: seq<BrickSize>, allowTop: bool)
    requires c in s.occ && InGrid(s.dims, c) && NonNegativeSizes(sizes) && HasUnitSize(sizes)
    requires allowTop || c.z == 0
    ensures FirstFit(sizes, c.x, c.y, c.z, s, allowTop).Some?
  {
    var k :| 0 <= k < |sizes| && sizes[k].w == 1 && sizes[k].h == 1 && sizes[k].d == 1;
    UnitCells(c.x, c.y, c.z);
    assert SizeBox(c.x, c.y, c.z, sizes[k]) == Box(c.x, c.y, c.z, 1, 1, 1);
    assert CanPlaceBrick(SizeBox(c.x, c.y, c.z, sizes[k]), s, allowTop);
    FirstFitSpec(sizes, c.x, c.y, c.z, s, allowTop);
  }

  /** The grids after the layer pass has visited in-grid cell (z, y, x). */
  function AfterCell(s: Grids, z: int, y: nat, x: nat, sizes: seq<BrickSize>, allowTop: bool): Grids
    requires NonNegativeSizes(sizes)
  {
    if Cell(z, y, x) in s.occ then
      match FirstFit(sizes, x, y, z, s, allowTop)
      case None => s
      case Some(i) => PlaceBrick(s, SizeBox(x, y, z, sizes[i]))
    else s
  }

  lemma LayerPassUnfoldCell(s: Grids, z: int, y: nat, x: nat, sizes: seq<BrickSize>, allowTop: bool)
    requires 0 <= z < s.dims.depth && NonNegativeSizes(sizes)
    requires y < s.dims.height && x < s.dims.width
    ensures AfterCell(s, z, y, x, sizes, allowTop).dims == s.dims
    ensures PlaceOnLayerFrom(s, z, y, x, sizes, allowTop).0 ==
      PlaceOnLayerFrom(AfterCell(s, z, y, x, sizes, allowTop), z, y, x + 1, sizes, allowTop).0
  {
    if Cell(z, y, x) in s.occ && FirstFit(sizes, x, y, z, s, allowTop).Some? {
      LayerPassUnfoldPlace(s, z, y, x, sizes, allowTop);
    } else {
      LayerPassUnfoldSkip(s, z, y, x, sizes, allowTop);
    }
  }

  /** No occupied cell of layer z at or after (y, x) is left by the pass
      started there. */
  ghost predicate LayerClearedFrom(s: Grids, z: int, y: nat, x: nat, sizes: seq<BrickSize>)
    requires 0 <= z < s.dims.depth && NonNegativeSizes(sizes)
  {
    forall c :: c in PlaceOnLayerFrom(s, z, y, x, sizes, true).0.occ && c.z == z && InGrid(s.dims, c) ==> !AtOrAfter(c, y, x)
  }

  /** One cell of `LayerPassClears`, given the claim for the rest of the pass. */
  lemma LayerPassCellStep(s: Grids, z: int, y: nat, x: nat, sizes: seq<BrickSize>)
    requires 0 <= z < s.dims.depth && PositiveSizes(sizes) && NonNegativeSizes(sizes) && HasUnitSize(sizes)
    requires y < s.dims.height && x < s.dims.width
    requires AfterCell(s, z, y, x, sizes, true).dims == s.dims
    requires LayerClearedFrom(AfterCell(s, z, y, x, sizes, true), z, y, x + 1, sizes)
    ensures LayerClearedFrom(s, z, y, x, sizes)
  {
    var s1 := AfterCell(s, z, y, x, sizes, true);
    var rest := PlaceOnLayerFrom(s1, z, y, x + 1, sizes, true);
    LayerPassUnfoldCell(s, z, y, x, sizes, true);
    PlaceOnLayerSpec(s1, z, y, x + 1, sizes, true);
    ReplayOccShrinks(s1, rest.1);
    if Cell(z, y, x) in s.occ {
      OccupiedCellGetsBrick(s, Cell(z, y, x), sizes);
    }
    assert s1.occ <= s.occ;
    LayerPassStep(rest.0, s1.occ, z, y, x, s.dims);
  }

  lemma LayerPassRowStep(s: Grids, z: int, y: nat, x: nat, sizes: seq<BrickSize>)
    requires 0 <= z < s.dims.depth && NonNegativeSizes(sizes)
    requires y < s.dims.height && x >= s.dims.width
    requires LayerClearedFrom(s, z, y + 1, 0, sizes)
    ensures LayerClearedFrom(s, z, y, x, sizes)
  {
  }

  /** With top placements allowed and a 1x1x1 entry among positive sizes, the
      layer pass leaves no occupied cell of layer z at or after its start. */
  lemma {:induction false} LayerPassClears(s: Grids, z: int, y: nat, x: nat, sizes: seq<BrickSize>)
    requires 0 <= z < s.dims.depth && PositiveSizes(sizes) && NonNegativeSizes(sizes) && HasUnitSize(sizes)
    ensures LayerClearedFrom(s, z, y, x, sizes)
    decreases s.dims.height - y, s.dims.width - x
  {
    if y >= s.dims.height {
    } else if x >= s.dims.width {
      LayerPassClears(s, z, y + 1, 0, sizes);
      LayerPassRowStep(s, z, y, x, sizes);
    } else {
      LayerPassUnfoldCell(s, z, y, x, sizes, true);
      LayerPassClears(AfterCell(s, z, y, x, sizes, true), z, y, x + 1, sizes);
      LayerPassCellStep(s, z, y, x, sizes);
    }
  }

  lemma LayerPassStep(fin: Grids, before: set<Cell>, z: int, y: int, x: int, dims: Dims)
    requires fin.occ <= before && Cell(z, y, x) !in before
    requires forall c :: c in fin.occ && c.z == z && InGrid(dims, c) ==> !AtOrAfter(c, y, x + 1)
    ensures forall c :: c in fin.occ && c.z == z && InGrid(dims, c) ==> !AtOrAfter(c, y, x)
  {
  }
}

=== FILE: seqs.dfy ===
/** Lists of lists: the joined list that both the annealing layer cache and
    the instruction steps are read through. */
module Seqs {

  /** The lists in order, joined. */
  function Flatten<T>(ls: seq<seq<T>>): (r: seq<T>)
    decreases |ls|
  {
    if ls == [] then [] else ls[0] + Flatten(ls[1..])
  }

  /** Every element of every list is an element of the joined list. */
  lemma {:induction false} FlattenHas<T>(ls: seq<seq<T>>, k: nat, j: nat)
    requires k < |ls| && j < |ls[k]|
    ensures ls[k][j] in Flatten(ls)
    decreases k
  {
    if k == 0 {
      assert Flatten(ls) == ls[0] + Flatten(ls[1..]);
      assert Flatten(ls)[j] == ls[0][j];
    } else {
      FlattenHas(ls[1..], k - 1, j);
      assert Flatten(ls) == ls[0] + Flatten(ls[1..]);
    }
  }

  /** Joining distributes over concatenation of the outer list. */
  lemma {:induction false} FlattenConcat<T>(a: seq<seq<T>>, b: seq<seq<T>>)
    ensures Flatten(a + b) == Flatten(a) + Flatten(b)
  {
    if a == [] {
      assert a + b == b;
    } else {
      assert (a + b)[1..] == a[1..] + b;
      FlattenConcat(a[1..], b);
    }
  }
}

=== FILE: sorting.dfy ===
/** Stable sorting by an integer key, as Python's `sorted(..., key=...,
    reverse=True)` does it: larger keys first, and elements with equal keys
    keep their original relative order. Ascending sorts are obtained by
    negating the key. */
module Sorting {

  /** The elements of `s` whose key is `v`, in their original order. */
  function KeyFilter<T>(s: seq<T>, key: T -> int, v: int): (r: seq<T>)
    ensures |r| <= |s|
    ensures forall i :: 0 <= i < |r| ==> key(r[i]) == v
  {
    if s == [] then []
    else (if key(s[0]) == v then [s[0]] else []) + KeyFilter(s[1..], key, v)
  }

  lemma {:induction false} KeyFilterConcat<T>(a: seq<T>, b: seq<T>, key: T -> int, v: int)
    ensures KeyFilter(a + b, key, v) == KeyFilter(a, key, v) + KeyFilter(b, key, v)
  {
    if a == [] {
      assert a + b == b;
    } else {
      assert (a + b)[0] == a[0];
      assert (a + b)[1..] == a[1..] + b;
      KeyFilterConcat(a[1..], b, key, v);
    }
  }

  /** No element of `s` has key `v`. */
  lemma {:induction false} KeyFilterAbsent<T>(s: seq<T>, key: T -> int, v: int)
    requires forall i :: 0 <= i < |s| ==> key(s[i]) != v
    ensures KeyFilter(s, key, v) == []
  {
    if s != [] {
      KeyFilterAbsent(s[1..], key, v);
    }
  }

  /** Every element of `s` has key `v`. */
  lemma {:induction false} KeyFilterAll<T>(s: seq<T>, key: T -> int, v: int)
    requires forall i :: 0 <= i < |s| ==> key(s[i]) == v
    ensures KeyFilter(s, key, v) == s
  {
    if s != [] {
      KeyFilterAll(s[1..], key, v);
    }
  }

  predicate SortedDesc<T>(s: seq<T>, key: T -> int) {
    forall i, j :: 0 <= i < j < |s| ==> key(s[i]) >= key(s[j])
  }

  /** Inserts `x` in front of the first element whose key is not larger
      than `x`'s; `x` is taken to precede every element of `t` in the
      original order. */
  function Insert<T>(x: T, t: seq<T>, key: T -> int): (r: seq<T>)
    ensures multiset(r) == multiset(t) + multiset{x}
    ensures |r| == |t| + 1
  {
    if t == [] || key(x) >= key(t[0]) then [x] + t
    else
      assert t == [t[0]] + t[1..];
      [t[0]] + Insert(x, t[1..], key)
  }

  /** Inserting an element no larger than a bound into a list bounded by
      it gives a list bounded by it. */
  lemma {:induction false} InsertBounded<T>(x: T, t: seq<T>, key: T -> int, m: int)
    requires key(x) <= m && forall i :: 0 <= i < |t| ==> key(t[i]) <= m
    ensures forall i :: 0 <= i < |Insert(x, t, key)| ==> key(Insert(x, t, key)[i]) <= m
  {
    if t == [] || key(x) >= key(t[0]) {
      var r := [x] + t;
      assert forall i :: 1 <= i < |r| ==> r[i] == t[i - 1];
    } else {
      var tail := t[1..];
      assert forall i :: 0 <= i < |tail| ==> tail[i] == t[i + 1];
      InsertBounded(x, tail, key, m);
      var r := [t[0]] + Insert(x, tail, key);
      assert forall i :: 1 <= i < |r| ==> r[i] == Insert(x, tail, key)[i - 1];
    }
  }

  lemma {:induction false} InsertSorted<T>(x: T, t: seq<T>, key: T -> int)
    requires SortedDesc(t, key)
    ensures SortedDesc(Insert(x, t, key), key)
    ensures Insert(x, t, key) != [] && (key(Insert(x, t, key)[0]) == key(x) || (t != [] && key(Insert(x, t, key)[0]) == key(t[0])))
  {
    if t == [] || key(x) >= key(t[0]) {
      var r := [x] + t;
      assert forall i :: 1 <= i < |r| ==> r[i] == t[i - 1];
    } else {
      var tail := t[1..];
      assert SortedDesc(tail, key);
      InsertSorted(x, tail, key);
      InsertBounded(x, tail, key, key(t[0]));
      var r := [t[0]] + Insert(x, tail, key);
      assert forall i :: 1 <= i < |r| ==> r[i] == Insert(x, tail, key)[i - 1];
    }
  }

  lemma KeyFilterSingle<T>(x: T, key: T -> int, v: int)
    ensures KeyFilter([x], key, v) == (if key(x) == v then [x] else [])
  {
    assert [x][1..] == [];
  }

  lemma {:induction false} InsertStable<T>(x: T, t: seq<T>, key: T -> int, v: int)
    requires SortedDesc(t, key)
    ensures KeyFilter(Insert(x, t, key), key, v) == (if key(x) == v then [x] else []) + KeyFilter(t, key, v)
  {
    if t == [] || key(x) >= key(t[0]) {
      KeyFilterConcat([x], t, key, v);
      KeyFilterSingle(x, key, v);
    } else {
      InsertStable(x, t[1..], key, v);
      InsertStableStep(x, t, key, v);
    }
  }

  lemma InsertUnfold<T>(x: T, t: seq<T>, key: T -> int)
    requires t != [] && key(x) < key(t[0])
    ensures Insert(x, t, key) == [t[0]] + Insert(x, t[1..], key)
  {
  }

  lemma KeyFilterUnfold<T>(t: seq<T>, key: T -> int, v: int)
    requires t != []
    ensures KeyFilter(t, key, v) == (if key(t[0]) == v then [t[0]] else []) + KeyFilter(t[1..], key, v)
  {
  }

  /** An empty block commutes with any other block in front of a rest. */
  lemma SwapEmptyBlock<T>(head: seq<T>, mid: seq<T>, rest: seq<T>)
    requires head == [] || mid == []
    ensures head + (mid + rest) == mid + (head + rest)
  {
    if head == [] {
      assert head + (mid + rest) == mid + rest;
      assert head + rest == rest;
    } else {
      assert mid + rest == rest;
      assert mid + (head + rest) == head + rest;
    }
  }

  lemma InsertStableStep<T>(x: T, t: seq<T>, key: T -> int, v: int)
    requires t != [] && key(x) < key(t[0])
    requires KeyFilter(Insert(x, t[1..], key), key, v) == (if key(x) == v then [x] else []) + KeyFilter(t[1..], key, v)
    ensures KeyFilter(Insert(x, t, key), key, v) == (if key(x) == v then [x] else []) + KeyFilter(t, key, v)
  {
    var tail := Insert(x, t[1..], key);
    var head: seq<T> := if key(t[0]) == v then [t[0]] else [];
    var mid: seq<T> := if key(x) == v then [x] else [];
    var rest := KeyFilter(t[1..], key, v);
    InsertUnfold(x, t, key);
    KeyFilterConcat([t[0]], tail, key, v);
    KeyFilterSingle(t[0], key, v);
    KeyFilterUnfold(t, key, v);
    SwapEmptyBlock(head, mid, rest);
  }

  /** Stable sort by descending key (insertion sort). */
  function SortDesc<T>(s: seq<T>, key: T -> int): (r: seq<T>)
    ensures multiset(r) == multiset(s)
    ensures |r| == |s|
  {
    if s == [] then []
    else
      assert s == [s[0]] + s[1..];
      Insert(s[0], SortDesc(s[1..], key), key)
  }

  /** The sort returns its input ordered by descending key, as a
      permutation, keeping the original order among equal keys. */
  lemma {:induction false} SortDescCorrect<T>(s: seq<T>, key: T -> int)
    ensures SortedDesc(SortDesc(s, key), key)
    ensures multiset(SortDesc(s, key)) == multiset(s)
    ensures forall v :: KeyFilter(SortDesc(s, key), key, v) == KeyFilter(s, key, v)
  {
    if s != [] {
      SortDescCorrect(s[1..], key);
      InsertSorted(s[0], SortDesc(s[1..], key), key);
      forall v
        ensures KeyFilter(SortDesc(s, key), key, v) == KeyFilter(s, key, v)
      {
        InsertStable(s[0], SortDesc(s[1..], key), key, v);
      }
    }
  }

  /** `s` without its element at position i (`list.pop(i)`). */
  function RemoveAt<T>(s: seq<T>, i: nat): (r: seq<T>)
    requires i < |s|
    ensures |r| == |s| - 1
    ensures forall k :: 0 <= k < |r| ==> r[k] == (if k < i then s[k] else s[k + 1])
    ensures multiset(r) + multiset{s[i]} == multiset(s)
  {
    assert s == s[..i] + [s[i]] + s[i + 1..];
    s[..i] + s[i + 1..]
  }
}

=== FILE: voxels.dfy ===
/** The voxel data model: cells of a 3-D grid indexed [z][y][x], axis-aligned
    integer boxes, and the occupancy/support pair a placement run works on.
    A boolean array is represented by the set of its `true` cells, so
    numpy's `np.sum` is the set's cardinality. */
module Voxels {
  import opened Wrappers

  datatype Cell = Cell(z: int, y: int, x: int)

  /** Array shape (depth, height, width) = (z, y, x) extents. */
  datatype Dims = Dims(depth: nat, height: nat, width: nat)

  predicate InGrid(dims: Dims, c: Cell) {
    0 <= c.z < dims.depth && 0 <= c.y < dims.height && 0 <= c.x < dims.width
  }

  predicate WithinGrid(dims: Dims, cells: set<Cell>) {
    forall c :: c in cells ==> InGrid(dims, c)
  }

  /** Strict row-major order of numpy's C layout: z, then y, then x. */
  predicate Precedes(a: Cell, b: Cell) {
    a.z < b.z || (a.z == b.z && (a.y < b.y || (a.y == b.y && a.x < b.x)))
  }

  /** The box [x, x+w) x [y, y+h) x [z, z+d). */
  datatype Box = Box(x: int, y: int, z: int, w: int, h: int, d: int) {
    function Origin(): Cell { Cell(z, y, x) }
    function Volume(): int { w * h * d }
    predicate NonNegative() { w >= 0 && h >= 0 && d >= 0 }
    predicate Positive() { w >= 1 && h >= 1 && d >= 1 }
    predicate Contains(c: Cell) {
      z <= c.z < z + d && y <= c.y < y + h && x <= c.x < x + w
    }
  }

  /** The box lies inside the array: the bounds test of the feasibility check. */
  predicate BoxInGrid(dims: Dims, b: Box) {
    b.x >= 0 && b.y >= 0 && b.z >= 0 &&
    b.x + b.w <= dims.width && b.y + b.h <= dims.height && b.z + b.d <= dims.depth
  }

  /** The cells covered by a box. */
  function Cells(b: Box): (r: set<Cell>)
    ensures forall c :: c in r <==> b.Contains(c)
  {
    var r := set k, j, i | b.z <= k < b.z + b.d && b.y <= j < b.y + b.h && b.x <= i < b.x + b.w :: Cell(k, j, i);
    assert forall c :: b.Contains(c) ==> c in r by {
      forall c | b.Contains(c)
        ensures c in r
      {
        assert c == Cell(c.z, c.y, c.x);
      }
    }
    r
  }

  /** Splitting the top layer, the last row, or the last cell off a box. */
  lemma SplitTopLayer(b: Box)
    requires b.d > 0
    ensures Cells(b) == Cells(b.(d := b.d - 1)) + Cells(b.(z := b.z + b.d - 1, d := 1))
    ensures Cells(b.(d := b.d - 1)) !! Cells(b.(z := b.z + b.d - 1, d := 1))
  {
    var lo := b.(d := b.d - 1);
    var top := b.(z := b.z + b.d - 1, d := 1);
    forall c
      ensures c in Cells(b) <==> c in Cells(lo) || c in Cells(top)
    {
    }
    forall c | c in Cells(lo)
      ensures c !in Cells(top)
    {
    }
  }

  lemma SplitLastRow(b: Box)
    requires b.h > 0
    ensures Cells(b) == Cells(b.(h := b.h - 1)) + Cells(b.(y := b.y + b.h - 1, h := 1))
    ensures Cells(b.(h := b.h - 1)) !! Cells(b.(y := b.y + b.h - 1, h := 1))
  {
    var lo := b.(h := b.h - 1);
    var row := b.(y := b.y + b.h - 1, h := 1);
    forall c
      ensures c in Cells(b) <==> c in Cells(lo) || c in Cells(row)
    {
    }
    forall c | c in Cells(lo)
      ensures c !in Cells(row)
    {
    }
  }

  lemma SplitLastCell(b: Box)
    requires b.w > 0 && b.h == 1 && b.d == 1
    ensures Cells(b) == Cells(b.(w := b.w - 1)) + {Cell(b.z, b.y, b.x + b.w - 1)}
    ensures Cell(b.z, b.y, b.x + b.w - 1) !in Cells(b.(w := b.w - 1))
  {
    var lo := b.(w := b.w - 1);
    forall c
      ensures c in Cells(b) <==> c in Cells(lo) || c == Cell(b.z, b.y, b.x + b.w - 1)
    {
    }
  }

  lemma EmptyBox(b: Box)
    requires b.w <= 0 || b.h <= 0 || b.d <= 0
    ensures Cells(b) == {}
  {
    forall c | c in Cells(b)
      ensures false
    {
    }
  }

  lemma MulStep(a: int, n: int)
    ensures a * n == a * (n - 1) + a
  {
  }

  lemma DisjointUnionCard<T>(a: set<T>, b: set<T>)
    requires a !! b
    ensures |a + b| == |a| + |b|
  {
    assert a * b == {};
  }

  lemma SubsetCard<T>(a: set<T>, b: set<T>)
    requires a <= b
    ensures |a| <= |b|
  {
    assert b == a + (b - a);
    DisjointUnionCard(a, b - a);
  }

  /** A subset that misses an element of the larger set is strictly smaller. */
  lemma StrictSubsetCard<T>(a: set<T>, b: set<T>, x: T)
    requires a <= b && x in b && x !in a
    ensures |a| < |b|
  {
    SubsetCard(a + {x}, b);
  }

  /** A set split into two disjoint parts, one of `a*(k-1)` and one of `a`
      elements, has `a*k` elements. */
  lemma SplitCard<T>(whole: set<T>, lo: set<T>, hi: set<T>, a: int, k: int)
    requires whole == lo + hi && lo !! hi && |lo| == a * (k - 1) && |hi| == a
    ensures |whole| == a * k
  {
    DisjointUnionCard(lo, hi);
    MulStep(a, k);
  }

  lemma {:induction false} RowCard(b: Box)
    requires b.w >= 0 && b.h == 1 && b.d == 1
    ensures |Cells(b)| == b.w
    decreases b.w
  {
    if b.w > 0 {
      RowCard(b.(w := b.w - 1));
      SplitLastCell(b);
      SplitCard(Cells(b), Cells(b.(w := b.w - 1)), {Cell(b.z, b.y, b.x + b.w - 1)}, 1, b.w);
    } else {
      EmptyBox(b);
    }
  }

  lemma {:induction false} SlabCard(b: Box)
    requires b.w >= 0 && b.h >= 0 && b.d == 1
    ensures |Cells(b)| == b.w * b.h
    decreases b.h
  {
    if b.h > 0 {
      var lo := b.(h := b.h - 1);
      var row := b.(y := b.y + b.h - 1, h := 1);
      SlabCard(lo);
      RowCard(row);
      SplitLastRow(b);
      assert lo.w == b.w && lo.h == b.h - 1 && row.w == b.w;
      SplitCard(Cells(b), Cells(lo), Cells(row), b.w, b.h);
    } else {
      EmptyBox(b);
    }
  }

  /** A box of non-negative extents covers exactly w*h*d cells. */
  lemma {:induction false} CellsCard(b: Box)
    requires b.NonNegative()
    ensures |Cells(b)| == b.w * b.h * b.d
    decreases b.d
  {
    if b.d > 0 {
      var lo := b.(d := b.d - 1);
      var top := b.(z := b.z + b.d - 1, d := 1);
      CellsCard(lo);
      SlabCard(top);
      SplitTopLayer(b);
      assert lo.w == b.w && lo.h == b.h && lo.d == b.d - 1 && top.w == b.w && top.h == b.h;
      SplitCard(Cells(b), Cells(lo), Cells(top), b.w * b.h, b.d);
    } else {
      EmptyBox(b);
    }
  }

  /** The strict-inequality AABB intersection test used by the annealing
      local search: boxes that only touch along a face do not overlap. */
  predicate AabbOverlap(a: Box, b: Box) {
    a.x < b.x + b.w && a.x + a.w > b.x &&
    a.y < b.y + b.h && a.y + a.h > b.y &&
    a.z < b.z + b.d && a.z + a.d > b.z
  }

  function Max(a: int, b: int): int { if a >= b then a else b }
  function Min(a: int, b: int): int { if a <= b then a else b }

  /** For boxes with positive extents the AABB test is exactly "the boxes
      share a cell". */
  lemma AabbOverlapIffShareCell(a: Box, b: Box)
    requires a.Positive() && b.Positive()
    ensures AabbOverlap(a, b) <==> Cells(a) * Cells(b) != {}
  {
    if AabbOverlap(a, b) {
      var c := Cell(Max(a.z, b.z), Max(a.y, b.y), Max(a.x, b.x));
      assert c in Cells(a) * Cells(b);
    }
    if Cells(a) * Cells(b) != {} {
      var c :| c in Cells(a) * Cells(b);
      assert a.Contains(c) && b.Contains(c);
    }
  }

  /** The occupancy/support pair of one placement run: `occ` holds cells still
      to be filled, `sup` cells already covered by a placed brick. */
  datatype Grids = Grids(dims: Dims, occ: set<Cell>, sup: set<Cell>)

  /** The core invariant: both grids lie inside the shape and no cell is both
      still to fill and already covered. */
  predicate Consistent(s: Grids) {
    WithinGrid(s.dims, s.occ) && WithinGrid(s.dims, s.sup) && s.occ !! s.sup
  }

  /** An input occupancy grid. */
  datatype VoxelGrid = VoxelGrid(dims: Dims, cells: set<Cell>) {
    predicate Valid() { WithinGrid(dims, cells) }
  }

  /** A fresh run: everything still to fill, nothing covered. */
  function StartGrids(g: VoxelGrid): (s: Grids)
    requires g.Valid()
    ensures Consistent(s) && s.occ == g.cells && s.sup == {} && s.dims == g.dims
  {
    Grids(g.dims, g.cells, {})
  }

  /** A placement as the strategies produce it: geometry and class. */
  datatype Brick = Brick(box: Box, kind: string)

  /** A final placement: geometry, colour and class (`None` where the source
      passes a `None` brick type through). */
  datatype Cube = Cube(box: Box, color: string, kind: Option<string>)

  /** Union of the cells of a list of bricks. */
  function Footprint(bs: seq<Brick>): (r: set<Cell>)
    ensures forall i :: 0 <= i < |bs| ==> Cells(bs[i].box) <= r
    ensures forall c :: c in r ==> exists i :: 0 <= i < |bs| && c in Cells(bs[i].box)
  {
    if bs == [] then {}
    else
      var last := |bs| - 1;
      var r := Footprint(bs[..last]) + Cells(bs[last].box);
      assert forall i :: 0 <= i < last ==> bs[..last][i] == bs[i];
      r
  }

  lemma FootprintAppend(bs: seq<Brick>, b: Brick)
    ensures Footprint(bs + [b]) == Footprint(bs) + Cells(b.box)
  {
    assert (bs + [b])[..|bs|] == bs;
  }

  /** No two bricks of the list share a cell. */
  predicate PairwiseDisjoint(bs: seq<Brick>) {
    forall i, j :: 0 <= i < j < |bs| ==> Cells(bs[i].box) !! Cells(bs[j].box)
  }

  /** Every brick lies inside the given cells. */
  predicate AllInside(bs: seq<Brick>, cells: set<Cell>) {
    forall i :: 0 <= i < |bs| ==> Cells(bs[i].box) <= cells
  }
}

=== FILE: wrappers.dfy ===
/** Failure-compatible wrappers used across the model: `Option` for values
    the source represents as `None`, and `Result` for the source's raised
    exceptions (`ValueError`, `KeyError`, unbound locals). */
module Wrappers {

  datatype Option<+T> = None | Some(value: T) {
    function GetOr(default: T): T {
      match this
      case Some(v) => v
      case None => default
    }
  }

  datatype Result<+R> = Success(value: R) | Failure(error: string) {
    predicate IsFailure() {
      Failure?
    }

    function PropagateFailure<U>(): Result<U>
      requires Failure?
    {
      Failure(error)
    }

    function Extract(): R
      requires Success?
    {
      value
    }
  }
}
